=== FILE: README.md ===
# Math olympiad practice platform — a Dafny model of its core

This project models, in Dafny, the core of a platform where students practise competition
mathematics problems. Teachers write the problems and administrators manage the bank.
The model covers both sides of the system.

**Backend (FastAPI + SQLAlchemy)**
- **Security:** password digests and the signed, time-limited bearer tokens of `core/security.py`.
- **Authorisation:** the dependency chain of `api/dependencies.py`, which resolves a request's
  account and role.
- **Records:** the `User`, `Problem`, `PracticeSession` and `KnowledgePoint` records, with their
  validators and derived values.
- **Request bodies:** the pydantic schemas and the errors they report.
- **Data access:** the user and problem CRUD layers. These are classes over the table rows, and
  their queries are functions of the rows.
- **Routes:** the authentication and problem endpoints. Each gives its HTTP error cases in the
  order the route checks them.

**Frontend (Vue + Pinia)**
- The display helpers for problems and for a problem's knowledge points.
- The two token stores that mirror the session in `localStorage`.
- The router's global navigation guard.

Cryptography, randomness, the clock, HTTP calls and the JSON parser are parameters or symbolic
stand-ins:
- an HMAC is a constructor carrying its key and payload;
- a bcrypt digest pairs its salt with a fingerprint of the secret;
- a request's outcome is a `Result` passed in.

On top of the model, the project proves:
- the token round trip and expiry;
- that the stored role, not the token's, decides privileges;
- that the listing and search queries return exactly the rows their filters describe, in the
  order they name;
- that the CRUD writes keep the tables' key and uniqueness constraints;
- the knowledge-point tree's path, depth and pre-order properties;
- the frontend's storage round trip and navigation decisions.

## Model

| member | source | states |
|---|---|---|
| Security.GetPasswordHash | backend/app/core/security.py:40-46 | the digest carries the given salt and `verify_password` accepts the password it was made from |
| Security.IntOf | backend/app/core/security.py:81-85 | an integer claim reads as itself and a string of ASCII digits as the number it spells, as `int()` reads `exp`, `nbf` and `iat` |
| Security.DigitsValueOfRendering | backend/app/core/security.py:81-85 | the digits of a number read back as that number |
| Security.Decode | backend/app/core/security.py:81-85 | a token decodes exactly when it is an HS256 token whose code matches the key and claims, its `iat`, `nbf` and `exp` are `int()`-readable, `nbf` is not after and `exp` not before `now`, it has no `aud` and no `at_hash`, and its `sub` and `jti` are strings; the result is its claims; a well-signed token past its `exp` whose earlier checks pass fails as expired |
| Security.ExpiryInstant | backend/app/core/security.py:53-58 | a truthy `expires_delta` is added to now; otherwise seven days (604800 s) are |
| Security.CreateAccessToken | backend/app/core/security.py:48-69 | an HS256 token whose claims are the caller's plus `exp`, every other claim unchanged, `exp` the expiry instant |
| Security.VerifyToken | backend/app/core/security.py:71-98 | every decoding failure and a missing `sub` become the one Bearer 401; a success has the username from `sub`, the `user_id` as `TokenData` reads it (digit strings included) and the `role` string, each present exactly when its claim is; an unreadable `user_id` or a non-string `role` is a 500 |
| Security.GeneratePasswordResetToken | backend/app/core/security.py:100-106 | a signed token whose claims are exactly `sub` = e-mail, `type` = "reset_password" and an expiry 24 hours on |
| Security.VerifyPasswordResetToken | backend/app/core/security.py:108-126 | an e-mail comes back exactly when the token decodes, has a `sub` and has type "reset_password", and it is the `sub` |
| Security.AccessTokenRoundTrip | backend/app/core/security.py:48-98 | until its expiry a token whose other registered claims python-jose accepts (no `aud`, no `at_hash`, readable `iat`, `nbf` not in the future, string `sub` and `jti`) decodes under its key to the caller's claims plus `exp` |
| Security.AccessTokenExpires | backend/app/core/security.py:53-60 | after the expiry instant decoding fails as expired, unless the `iat` or `nbf` check, made first, already refuses the token |
| Security.AudienceClaimRejected | backend/app/core/security.py:81-85 | no audience is passed to `jwt.decode`, so a token carrying `aud` is refused |
| Security.AccessTokenHashRejected | backend/app/core/security.py:81-85 | no access token is passed to `jwt.decode`, so a token carrying `at_hash` is refused |
| Security.OtherKeyRejected | backend/app/core/security.py:81-85 | a token is rejected under any key other than the one that signed it |
| Security.SessionTokenRoundTrip | backend/app/core/security.py:71-98 | verifying a fresh session token within seven days gives back its username, id and role |
| Security.SessionTokenIsNotResetToken | backend/app/core/security.py:108-126 | the reset path never accepts a session token |
| Security.ResetTokenRoundTrip | backend/app/core/security.py:100-126 | within 24 hours the reset path accepts a reset token and returns its e-mail |
| Security.ResetTokenPassesVerifyToken | backend/app/core/security.py:71-98 | `verify_token` ignores `type`: a reset token passes it with the e-mail as username |
| UserModel.RolePredicatesExclusive | backend/app/models/user.py:44-57 | at most one of `is_admin`, `is_teacher`, `is_student` holds; none for a parent; one exactly for the three roles |
| UserModel.NewUser | backend/app/models/user.py:17-39 | a new row gets the column defaults: role student, active, unverified, empty metadata, no last login |
| UserModel.UpdateLastLogin | backend/app/models/user.py:59-61 | only `last_login_at` changes, to now |
| UserModel.PublicColumns | backend/app/models/user.py:66-77 | exactly the eleven public keys, each with its column's value (`None` as JSON null) |
| UserModel.ToDict | backend/app/models/user.py:63-82 | never the digest; `metadata`, the stored metadata, exactly when sensitive fields are asked for; every public key with its column's value |
| UserSchemas.ValidateRole | backend/app/schemas/user.py:24-29 | accepts exactly the four roles, unchanged, and otherwise fails with the listing message |
| UserSchemas.RoleMessageListsRoles | backend/app/schemas/user.py:26-28 | the rejection message lists the four roles, joined by ", ", after "角色必须是: " |
| UserSchemas.ValidateUserCreate | backend/app/schemas/user.py:10-29 | succeeds exactly when every field constraint holds, keeping every field (full name, grade and school included) and defaulting the role to student; a failure reports each broken field once, in the order username, e-mail, role, password, the role with the listing message |
| UserSchemas.FieldErrors | backend/app/schemas/user.py:10-29 | a field reports an error exactly when the body breaks its constraint, and that error names the field |
| UserSchemas.ErrorsForNameBrokenFields | backend/app/schemas/user.py:10-29 | the errors of a field list name exactly its broken fields, in list order; a role error carries the listing message |
| UserSchemas.NoBrokenFieldIff | backend/app/schemas/user.py:10-29 | no field is broken exactly when the username, e-mail, password and role constraints all hold |
| UserSchemas.BearerToken | backend/app/schemas/user.py:60-64 | the token response carries the token, its lifetime and type "bearer" |
| UserCrud.GetUser | backend/app/crud/user.py:12-14 | a found row carries the id; nothing is found exactly when no row has it |
| UserCrud.GetUserByUsername | backend/app/crud/user.py:16-18 | a found row carries the username; nothing is found exactly when no row has it |
| UserCrud.GetUserByEmail | backend/app/crud/user.py:20-22 | a found row carries the e-mail; nothing is found exactly when no row has it |
| UserCrud.GetUserExact | backend/app/crud/user.py:12-14 | under the primary key, lookup by id returns a row exactly when that row is stored with the id |
| UserCrud.GetUserByUsernameExact | backend/app/crud/user.py:16-18 | under the unique username, lookup returns a row exactly when that row is stored with the username |
| UserCrud.EmailHolderUnique | backend/app/crud/user.py:20-22 | under the unique e-mail, lookup returns the one row holding it |
| UserCrud.GetUsers | backend/app/crud/user.py:24-40 | at most `limit` rows, each stored and passing the role and activity filters |
| UserCrud.NewestFirstIsPreorder | backend/app/crud/user.py:40 | ordering by creation time, newest first, is a total preorder |
| UserCrud.GetUsersNewestFirst | backend/app/crud/user.py:24-40 | every page lists newer accounts before older ones |
| UserCrud.GetUsersComplete | backend/app/crud/user.py:24-40 | a first page as large as the number of matches contains every matching row |
| UserCrud.SearchUsers | backend/app/crud/user.py:172-187 | at most `limit` rows, each stored, active and matching the keyword |
| UserCrud.SearchUsersComplete | backend/app/crud/user.py:172-187 | a first page as large as the number of hits contains every active account that matches |
| UserCrud.ByUsernameIsPreorder | backend/app/crud/user.py:187 | ordering by username is a total preorder |
| UserCrud.SearchUsersOrdered | backend/app/crud/user.py:172-187 | search results come in username order |
| UserCrud.SearchHitPlainKeyword | backend/app/crud/user.py:179-184 | for a keyword without wildcards a hit is an active account whose username, full name or school contains it, ignoring case |
| UserCrud.AuthenticateUser | backend/app/crud/user.py:108-121 | a returned account holds the username; an unknown username gives none |
| UserCrud.AuthenticateUserIff | backend/app/crud/user.py:108-121 | with unique usernames, authentication returns `u` exactly when `u` holds the username and the password verifies against its digest |
| UserCrud.ActiveSplitsByRole | backend/app/crud/user.py:189-209 | when every role is known, the active accounts are the sum of the active accounts of each role |
| UserCrud.NewRow | backend/app/crud/user.py:42-72 | the created row carries the body's fields, a digest that verifies the password, the defaults and the creation time |
| UserCrud.ApplyUpdate | backend/app/crud/user.py:87-90 | each field the update sets is overwritten and every other column is kept |
| UserCrud.ApplyUpdateAsWritten | backend/app/crud/user.py:89-90 | as written the metadata is never stored: the result is the corrected update without its metadata |
| UserCrud.MetadataUpdateLost | backend/app/crud/user.py:89-90 | an update that only sets metadata changes nothing as written, but stores the metadata when corrected |
| UserCrud.SetRow | backend/app/crud/user.py:87-94 | the row with the key is replaced and every other row kept, in place |
| UserCrud.UserStore.constructor | backend/app/crud/user.py:42-72 | an empty table whose next id is 1 |
| UserCrud.UserStore.CreateUser | backend/app/crud/user.py:42-72 | a taken username, then a taken e-mail, is refused with its message and changes nothing; otherwise the new row is appended under the next id |
| UserCrud.UserStore.UpdateUser | backend/app/crud/user.py:74-95 | corrected (metadata stored): an e-mail held by another account is refused and changes nothing; otherwise the row becomes the applied update, which differs from the as-written update only in its metadata |
| UserCrud.UserStore.DeleteUser | backend/app/crud/user.py:97-106 | true exactly when the id exists; the row is then deactivated and nothing else changes |
| UserCrud.UserStore.ChangePassword | backend/app/crud/user.py:123-138 | the digest changes exactly when the current password verifies, to one that verifies the new password |
| UserCrud.UserStore.TouchLastLogin | backend/app/models/user.py:59-61 | the account's last login becomes now; every other row is kept |
| UserCrud.UserStore.CountUsers | backend/app/crud/user.py:189-209 | a count per active role, the four known roles present even at 0, and the active total |
| UserCrud.OverwriteKeepsConstraints | backend/app/models/user.py:17-22 | rewriting one row keeps ids, usernames and e-mails unique when they stay or are free |
| UserCrud.ReplacePreservesConstraints | backend/app/models/user.py:17-22 | replacing a row by one with the same key, username, e-mail and role keeps the table constraints |
| UserCrud.UpdatePreservesConstraints | backend/app/crud/user.py:74-95 | an update whose e-mail is free or the account's own keeps the table constraints |
| UserCrud.CreatedUserAuthenticates | backend/app/crud/user.py:42-121 | a freshly created account authenticates with the password it registered with |
| Dependencies.GetCurrentUser | backend/app/api/dependencies.py:18-49 | no credential or a rejected token gives the Bearer 401; a success is a stored, active account named by the token |
| Dependencies.GetCurrentActiveUser | backend/app/api/dependencies.py:51-60 | a success is an active account |
| Dependencies.ActiveUserIsCurrentUser | backend/app/api/dependencies.py:51-60 | the second activity check never fires: both dependencies answer alike on every request |
| Dependencies.GetCurrentAdminUser | backend/app/api/dependencies.py:62-71 | passes exactly the authenticated administrators; other accounts get the admin 403, and authentication errors pass through |
| Dependencies.GetCurrentTeacherOrAdmin | backend/app/api/dependencies.py:73-82 | passes exactly authenticated teachers and administrators; others get its 403 |
| Dependencies.OptionalCurrentUser | backend/app/api/dependencies.py:84-103 | some account exactly when `get_current_user` would succeed, and the same account |
| Dependencies.CurrentUserIff | backend/app/api/dependencies.py:18-49 | with unique usernames, a request acts as `u` exactly when its token verifies, names `u`'s username and `u` is active |
| Dependencies.SessionTokenAuthenticates | backend/app/api/dependencies.py:18-49 | the token login issues authenticates its active account for seven days |
| Dependencies.DeactivatedAccountRejected | backend/app/api/dependencies.py:43-47 | a verified token naming a deactivated account is refused with the disabled-account error |
| Dependencies.StoredRoleDecides | backend/app/api/dependencies.py:62-71 | a token claiming the admin role does not make a non-admin an administrator |
| Dependencies.RoleTiers | backend/app/api/dependencies.py:62-82 | admins pass both gates, teachers only teacher-or-admin, others neither |
| Dependencies.ResetTokenNotASession | backend/app/api/dependencies.py:18-49 | a password-reset token passes `verify_token` yet authenticates nobody, since no username contains `@` |
| AuthRoutes.Register | backend/app/api/routes/auth.py:27-57 | a refused body is a 422; with registration closed a non-admin gets 403; a taken username or e-mail is a 400; success appends the new row |
| AuthRoutes.LoginResponse | backend/app/api/routes/auth.py:59-107 | wrong credentials give the Bearer 401; an inactive account a 400; otherwise a bearer session token for the account |
| AuthRoutes.Login | backend/app/api/routes/auth.py:59-151 | answers the login response for the rows before the call and, on success, stamps the account's last login |
| AuthRoutes.LoginTokenAuthenticates | backend/app/api/routes/auth.py:91-107 | the returned token authenticates the logged-in account for its seven days |
| AuthRoutes.RegisteredAccountCanLogIn | backend/app/api/routes/auth.py:27-107 | a registered account logs in at once with its password |
| AuthRoutes.Refresh | backend/app/api/routes/auth.py:153-192 | a token `verify_token` rejects keeps its error; an unknown or inactive account gets the refresh 401; otherwise a new session token |
| AuthRoutes.RefreshExtendsSession | backend/app/api/routes/auth.py:153-192 | refreshing an unexpired session token gives a token for the same account, valid seven days from the refresh |
| AuthRoutes.RefreshRefusesDeactivated | backend/app/api/routes/auth.py:172-177 | a deactivated account cannot refresh |
| AuthRoutes.ChangePasswordRoute | backend/app/api/routes/auth.py:194-219 | authentication first, then the body, then the current password (400); success stores a digest of the new password and answers the success message |
| AuthRoutes.NewPasswordLogsIn | backend/app/api/routes/auth.py:194-219 | after a change the account logs in with the new password |
| AuthRoutes.Me | backend/app/api/routes/auth.py:221-228 | succeeds exactly for an authenticated caller, with that user's eleven public fields (exactly `UserResponse`'s), each with its value as `PublicColumns` gives it, and neither digest nor metadata; a failure is the dependency's error |
| AuthRoutes.CheckUsernameAvailable | backend/app/api/routes/auth.py:238-249 | available exactly when no account holds the username |
| AuthRoutes.CheckEmailAvailableAsWritten | backend/app/api/routes/auth.py:251-262 | as written every request fails with a 500 |
| AuthRoutes.CheckEmailAvailable | backend/app/api/routes/auth.py:251-262 | with the lookup imported: available exactly when no account holds the e-mail |
| AuthRoutes.CheckEmailNeverAnswers | backend/app/api/routes/auth.py:251-262 | an unused address is reported available when corrected, never as written |
| ProblemModel.ValidateOptions | backend/app/models/problem.py:78-95 | a JSON string is parsed first; success exactly for an object holding keys A to D, which is kept; each failure has its message |
| ProblemModel.MissingOptionCheck | backend/app/models/problem.py:90-94 | passes exactly when every remaining key of A..D is present, and otherwise names a missing one |
| ProblemModel.ValidateDifficulty | backend/app/models/problem.py:97-102 | accepts exactly 1..5, unchanged, else the range message |
| ProblemModel.AccuracyRate | backend/app/models/problem.py:104-109 | 0 without attempts; a percentage in 0..100 for consistent counters |
| ProblemModel.IncrementAttempts | backend/app/models/problem.py:152-156 | one more attempt, one more correct exactly when correct, nothing else changed, consistency kept |
| ProblemModel.IncrementMovesAccuracy | backend/app/models/problem.py:104-156 | a correct answer never lowers the accuracy and a wrong one never raises it |
| ProblemModel.DefaultProblem | backend/app/models/problem.py:17-58 | the column defaults: difficulty 3, unpublished, live, pending review, zero counters, text content |
| ProblemModel.ToDict | backend/app/models/problem.py:111-150 | every key with its value: id, title, content, content type, options, answer, difficulty, source type and year, estimated time, published flag, review status, both counters, accuracy and creation instant always (through `TextColumns` and `StatusColumns`); the solution and its type exactly when asked for and non-empty; the creator and the knowledge points exactly when given; no other key |
| ProblemModel.TextColumns | backend/app/models/problem.py:114-123 | exactly the ten text keys, each with its column's value (`None` as JSON null) |
| ProblemModel.StatusColumns | backend/app/models/problem.py:124-129 | exactly the six status keys: the published flag, review status, both counters, the accuracy percentage and the creation instant |
| ProblemModel.OptionalColumns | backend/app/models/problem.py:133-148 | the solution and its type, the creator and the knowledge points, each present exactly under its condition and with its value |
| ProblemSchemas.TitleErrors | backend/app/schemas/problem.py:11 | no error exactly for 1..200 characters |
| ProblemSchemas.MissingOptionKeys | backend/app/schemas/problem.py:24-31 | exactly the keys of A..D not in the options |
| ProblemSchemas.OptionsErrors | backend/app/schemas/problem.py:24-31 | no error exactly when A..D are all present; else one error naming the missing keys |
| ProblemSchemas.AnswerErrors | backend/app/schemas/problem.py:15 | no error exactly for a single letter A..D |
| ProblemSchemas.DifficultyErrors | backend/app/schemas/problem.py:18 | no error exactly for 1..5 |
| ProblemSchemas.EstimatedTimeErrors | backend/app/schemas/problem.py:22 | no error exactly when absent or at least 1 |
| ProblemSchemas.ValidateProblemCreate | backend/app/schemas/problem.py:9-37 | succeeds exactly when every constraint holds, keeping every sent field (title, content, options, answer, solution, source type, year and detail, estimated time) and filling the defaults; otherwise every broken constraint is reported in field order |
| ProblemSchemas.ValidateProblemUpdate | backend/app/schemas/problem.py:40-64 | only fields sent are checked; success keeps the body; a failure reports each sent, broken field once, in field order, each with the error its constraint reports on creation |
| ProblemSchemas.SentFieldErrors | backend/app/schemas/problem.py:40-64 | a field reports an error exactly when it was sent and breaks its constraint, and that error names the field |
| ProblemSchemas.UpdateErrorsNameBrokenFields | backend/app/schemas/problem.py:40-64 | the errors of a field list name exactly its sent, broken fields, in list order, each the one its constraint reports |
| ProblemSchemas.DefaultFilter | backend/app/schemas/problem.py:89-98 | published only, newest first by creation time, nothing else filtered |
| ProblemCrud.GetProblem | backend/app/crud/problem.py:12-14 | a found row carries the id, deleted or not; nothing exactly when no row has it |
| ProblemCrud.IndexOfProblem | backend/app/crud/problem.py:12-14 | the position of a row with the id, or -1 exactly when there is none |
| ProblemCrud.ColumnNamed | backend/app/crud/problem.py:59 | the modelled column of that name, or `created_at` |
| ProblemCrud.ColumnNamedRoundTrip | backend/app/crud/problem.py:59 | every sortable column is found under its own name |
| ProblemCrud.ValueLeIsPreorder | backend/app/crud/problem.py:59-63 | the order on cells, NULL last, is total and transitive |
| ProblemCrud.OrderIsPreorder | backend/app/crud/problem.py:59-63 | ascending and descending order on any column are total preorders |
| ProblemCrud.Arrange | backend/app/crud/problem.py:58-63 | ordering keeps exactly the rows it is given |
| ProblemCrud.MentionsPlainKeyword | backend/app/crud/problem.py:47-56 | for a plain keyword the search clause is a case-insensitive substring test on title, content or solution |
| ProblemCrud.ClauseIf | backend/app/crud/problem.py:25-56 | a filter step adds its clause exactly when its value is set |
| ProblemCrud.FilterClausesMeanPasses | backend/app/crud/problem.py:25-56 | the clauses added for a filter hold of a row exactly when the row passes every set filter field |
| ProblemCrud.QueryClausesMeanListed | backend/app/crud/problem.py:23-66 | the query's clauses, with `is_deleted == False`, select exactly the listed rows |
| ProblemCrud.ListProblems | backend/app/crud/problem.py:16-68 | at most `limit` rows, all stored, live and passing the filter |
| ProblemCrud.ListProblemsOrdered | backend/app/crud/problem.py:58-63 | results are sorted by the named column, `created_at` when unknown, in the requested direction |
| ProblemCrud.ListProblemsComplete | backend/app/crud/problem.py:16-68 | a first page as large as the matches misses none |
| ProblemCrud.SearchProblems | backend/app/crud/problem.py:283-303 | at most `limit` rows, each published, live and mentioning the keyword |
| ProblemCrud.SearchProblemsComplete | backend/app/crud/problem.py:283-303 | a first page as large as the number of hits contains every published, live problem that mentions the keyword |
| ProblemCrud.SearchProblemsNewestFirst | backend/app/crud/problem.py:303 | search results are newest first |
| ProblemCrud.JoinedRows | backend/app/crud/problem.py:252-265 | exactly the drawable rows linked to a listed knowledge point, or all drawable rows when no ids are given |
| ProblemCrud.Shuffle | backend/app/crud/problem.py:268 | a random order: the same rows, as many of each |
| ProblemCrud.RandomProblemsAsWritten | backend/app/crud/problem.py:245-270 | as written: at most `count` distinct drawable rows, each a row of the join and so linked to a requested knowledge point when ids are given |
| ProblemCrud.RandomProblems | backend/app/crud/problem.py:245-270 | corrected: distinct drawable rows of the join, each linked to a requested knowledge point when ids are given, exactly `min(count, number of candidates)` of them |
| ProblemCrud.RandomSelectionComesBackShort | backend/app/crud/problem.py:262-268 | two candidate problems and a count of 2: as written one comes back, corrected two |
| ProblemCrud.StatsNest | backend/app/crud/problem.py:186-224 | published within total within rows; each difficulty and source count within published |
| ProblemCrud.OptionsJson | backend/app/crud/problem.py:81 | the options stored as a JSON object with the same keys and string values |
| ProblemCrud.SchemaOptionsPassOrmValidator | backend/app/models/problem.py:78-95 | a validated body's options pass the ORM's own validator unchanged |
| ProblemCrud.NewProblem | backend/app/crud/problem.py:77-92 | the new row is valid and carries every body field (title, content and its type, options as JSON, answer, solution and its type, difficulty, sources, time, publication), the creator and defaults: pending review and no attempts |
| ProblemCrud.ApplyProblemUpdate | backend/app/crud/problem.py:125-132 | each of the thirteen updatable fields takes the sent value (options as JSON) or keeps its old one; keys, counters, review state and creator are kept |
| ProblemCrud.EmptyUpdateIsIdentity | backend/app/crud/problem.py:125-132 | an update that sends nothing changes nothing |
| ProblemCrud.UpdateKeepsValidRow | backend/app/crud/problem.py:119-158 | a validated update keeps a row valid |
| ProblemCrud.Publish | backend/app/crud/problem.py:171-184 | published flag set; approved with the review time stamped when publishing, pending and time kept when withdrawing; nothing else |
| ProblemCrud.PublishIdempotent | backend/app/crud/problem.py:171-184 | publishing twice is publishing once; the latest call decides the flag |
| ProblemCrud.KnownIds | backend/app/crud/problem.py:99-113 | the listed ids naming existing knowledge points, in order |
| ProblemCrud.LinksFor | backend/app/crud/problem.py:107-111 | one link per known id |
| ProblemCrud.NewLinksMember | backend/app/crud/problem.py:99-113 | a new link names the problem and a listed existing point, weighs 1.0, and is primary exactly when the point is the first listed id |
| ProblemCrud.AppendLinksUnique | backend/app/crud/problem.py:99-115 | the new links keep the link key unique exactly when no known id is listed twice |
| ProblemCrud.AddFilterClauses | backend/app/crud/problem.py:25-56 | the if-chain builds exactly the clauses of the filter |
| ProblemCrud.CollectLinks | backend/app/crud/problem.py:100-112 | the loop collects exactly the new links |
| ProblemCrud.ProblemBank.constructor | backend/app/crud/problem.py:12-14 | empty tables, next id 1, the given knowledge points |
| ProblemCrud.ProblemBank.GetProblems | backend/app/crud/problem.py:16-68 | returns the listing of the current rows |
| ProblemCrud.ProblemBank.CreateProblem | backend/app/crud/problem.py:70-117 | the row is always committed under the next id; links are added, and the call succeeds, exactly when no known id repeats |
| ProblemCrud.ProblemBank.UpdateProblem | backend/app/crud/problem.py:119-158 | the row becomes the applied update; a sent id list replaces the links; a repeated known id fails and changes nothing |
| ProblemCrud.ProblemBank.DeleteProblem | backend/app/crud/problem.py:160-169 | true exactly when the id exists; the row is then marked deleted, nothing else changes |
| ProblemCrud.ProblemBank.PublishProblem | backend/app/crud/problem.py:171-184 | true exactly when the id exists; the row is then published or withdrawn |
| ProblemCrud.ProblemBank.IncrementAttemptsOf | backend/app/crud/problem.py:272-281 | true exactly when the id exists; the row's counters then move by one answer |
| ProblemCrud.OverwriteKeepsConstraints | backend/app/models/problem.py:159-172 | rewriting a row in place under its id keeps both tables' constraints |
| ProblemCrud.AppendKeepsConstraints | backend/app/crud/problem.py:94-96 | appending a valid row under the next id keeps the constraints |
| ProblemCrud.NewLinksKeepConstraints | backend/app/crud/problem.py:99-115 | new links of a stored problem keep the constraints when they do not collide |
| ProblemCrud.ReplaceKeepsConstraints | backend/app/crud/problem.py:135-155 | the row and link writes of a successful update keep the constraints |
| ProblemCrud.DeletedProblemHidden | backend/app/crud/problem.py:12-68 | a soft-deleted problem is still found by id but never listed, searched or drawn |
| ProblemRoutes.ListingFilter | backend/app/api/routes/problems.py:46-56 | the request's filters, published only unless the caller sees drafts, default order |
| ProblemRoutes.ReadProblems | backend/app/api/routes/problems.py:23-59 | authentication errors pass through; otherwise the listing with the caller's visibility |
| ProblemRoutes.ListingShowsDraftsToEditorsOnly | backend/app/api/routes/problems.py:54-56 | with no filter and a large page, a live problem is listed exactly when it is published or the caller sees drafts |
| ProblemRoutes.ReadProblem | backend/app/api/routes/problems.py:61-87 | authentication, then 404 for an unknown id, then 403 for an unpublished problem shown to a student |
| ProblemRoutes.ListedProblemsAreReadable | backend/app/api/routes/problems.py:23-87 | every listed problem opens in the detail view for the same caller |
| ProblemRoutes.DeletedProblemStillReadable | backend/app/api/routes/problems.py:61-87 | a soft-deleted problem is never listed yet its detail view still opens |
| ProblemRoutes.CreateNewProblem | backend/app/api/routes/problems.py:89-107 | teachers and admins only, then the body; success creates the row as the caller; a duplicate link is a 500 |
| ProblemRoutes.UpdateGate | backend/app/api/routes/problems.py:109-134 | role gate, body, then 404 and a 403 unless the caller created the problem or is an admin |
| ProblemRoutes.EditRightsFollowOwnership | backend/app/api/routes/problems.py:129-134 | a teacher may edit only their own problems, an admin any |
| ProblemRoutes.UpdateExistingProblem | backend/app/api/routes/problems.py:109-143 | past the gate the update is written; a failure changes nothing |
| ProblemRoutes.DeleteExistingProblem | backend/app/api/routes/problems.py:145-164 | admins only; 404 for an unknown id; success soft-deletes with the deletion message |
| ProblemRoutes.PublishMessage | backend/app/api/routes/problems.py:184-188 | the publish message exactly when publishing, the withdraw message exactly when withdrawing |
| ProblemRoutes.PublishExistingProblem | backend/app/api/routes/problems.py:166-188 | teachers and admins, whoever created the problem; 404 for an unknown id; success publishes or withdraws |
| ProblemRoutes.Stats | backend/app/crud/problem.py:186-224 | the totals, one difficulty entry and one source entry exactly per group with a published problem, each with its count |
| ProblemRoutes.StatsGroupsBounded | backend/app/crud/problem.py:199-224 | every group count is positive and within the published count |
| ProblemRoutes.GetProblemsStats | backend/app/api/routes/problems.py:190-201 | any signed-in account gets `Stats` of the rows, whose counts nest within the rows; otherwise the authentication error |
| ProblemRoutes.KnowledgePointSummaries | backend/app/api/routes/problems.py:230-238 | one summary per link of the problem, in link order; the k-th has the id of the k-th linked knowledge point, which is linked to the problem, and its name and code |
| ProblemRoutes.PracticeItem | backend/app/api/routes/problems.py:227-241 | exactly the practice keys; never the answer or the solution; the problem's knowledge points |
| ProblemRoutes.PracticeItemNarrowsToDict | backend/app/api/routes/problems.py:227-241 | every key of a practice item is a key of the problem's full dictionary, and the answer key is not in the item |
| ProblemRoutes.ToPracticeItems | backend/app/api/routes/problems.py:227-241 | one item per drawn problem, in order, none with the answer |
| ProblemRoutes.PracticeRandom | backend/app/api/routes/problems.py:203-243 | any signed-in account; a count outside 1..50 is a 422; success is the items of the corrected random draw |
| ProblemRoutes.SearchByKeyword | backend/app/api/routes/problems.py:245-262 | any signed-in account gets exactly the `search_problems` page: at most `limit` published, live problems mentioning the keyword; otherwise the authentication error |
| ProblemRoutes.RecordAttemptAsWritten | backend/app/api/routes/problems.py:264-285 | as written a signed-in request always fails with a 500 |
| ProblemRoutes.AttemptResponse | backend/app/api/routes/problems.py:264-285 | authentication, then 404 for an unknown id, then the recorded message |
| ProblemRoutes.RecordAttempt | backend/app/api/routes/problems.py:264-285 | answers the attempt response; on success the problem's counters move by one answer |
| ProblemRoutes.AttemptNeverRecorded | backend/app/api/routes/problems.py:278 | for a signed-in caller and an existing problem: a 500 as written, recorded when corrected |
| Practice.CompletionRate | backend/app/models/practice.py:57-62 | 0 without questions; otherwise completed / total * 100, within 0..100 for consistent counters |
| Practice.Complete | backend/app/models/practice.py:64-80 | a completed session is unchanged; an open one becomes completed at now, with duration, average time and accuracy derived under their guards |
| Practice.CompleteIdempotent | backend/app/models/practice.py:64-66 | completing twice, at any times, is completing once |
| Practice.CompletedAccuracyIsPercentage | backend/app/models/practice.py:78-80 | with consistent counters and answers, the derived accuracy is a percentage |
| Practice.PracticeSession.constructor | backend/app/models/practice.py:21-39 | type random, in progress, zero counters, nothing derived, completion rate 0 |
| Practice.PracticeSession.CompleteSession | backend/app/models/practice.py:64-80 | the new state is the completed state of the old one; a completed session is untouched |
| KnowledgeTree.StripSeparators | backend/app/models/knowledge_point.py:53 | exactly the code's characters other than `.` and `_` |
| KnowledgeTree.ValidateCode | backend/app/models/knowledge_point.py:50-55 | accepts, unchanged, exactly a code with some non-separator character, all of them alphanumeric; else the format message |
| KnowledgeTree.DottedCodesStayValid | backend/app/models/knowledge_point.py:50-62 | two valid codes joined by a dot make a valid code |
| KnowledgeTree.FullPath | backend/app/models/knowledge_point.py:57-62 | the path is at least as long as the node's own code |
| KnowledgeTree.FullPathIsJoinedCodes | backend/app/models/knowledge_point.py:57-62 | the recursive full path is the codes from the root down joined by dots |
| KnowledgeTree.FullPathIsValidCode | backend/app/models/knowledge_point.py:50-62 | when every code on the way is valid, so is the full path |
| KnowledgeTree.ToDict | backend/app/models/knowledge_point.py:64-85 | the id, code and full path; `children` exactly when asked for, depth left and the node has children (the remaining columns and the items are stated by `ToDictReportsNode`) |
| KnowledgeTree.ToDictReportsNode | backend/app/models/knowledge_point.py:64-85 | every column (id, name, code, parent id, level, description, weight, problem count, creation instant) as it is and the full path; when `children` is present, one item per child in order, each that child's own `to_dict` one level shallower, with the path extended by its code |
| KnowledgeTree.ToDictDepth | backend/app/models/knowledge_point.py:79-83 | the children nest to the lesser of the tree's height and `max_depth` |
| KnowledgeTree.GetAncestors | backend/app/models/knowledge_point.py:87-94 | one entry per ancestor, root first, each that ancestor's dictionary |
| KnowledgeTree.AncestorsFollowParentLinks | backend/app/models/knowledge_point.py:87-94 | with consistent parent ids each listed node is the parent of the next one |
| KnowledgeTree.GetDescendants | backend/app/models/knowledge_point.py:96-107 | the node itself if asked, then each child followed by its own descendants |
| KnowledgeTree.DescendantsCount | backend/app/models/knowledge_point.py:96-107 | one entry per node below: the subtree's size less one |
| KnowledgePointHelpers.TotalWeightUnlinked | frontend/src/types/problem-knowledge-point.ts:192-199 | without relations the total is the number of points |
| KnowledgePointHelpers.TotalWeightPositive | frontend/src/types/problem-knowledge-point.ts:192-199 | with non-negative weights, a non-empty list totals above 0 and the empty one 0 |
| KnowledgePointHelpers.TotalWeightAppend | frontend/src/types/problem-knowledge-point.ts:192-199 | the total of two lists is the sum of their totals |
| KnowledgePointHelpers.TotalWeightOfPermutation | frontend/src/types/problem-knowledge-point.ts:192-199 | the total does not depend on the order of the points |
| KnowledgePointHelpers.PrimaryPoints | frontend/src/types/problem-knowledge-point.ts:204-208 | exactly the primary points, in their original order |
| KnowledgePointHelpers.SecondaryPoints | frontend/src/types/problem-knowledge-point.ts:238 | exactly the points not flagged primary |
| KnowledgePointHelpers.PrimaryAndSecondaryPartition | frontend/src/types/problem-knowledge-point.ts:237-238 | primary and related points together are the list, each point once |
| KnowledgePointHelpers.WeightOrder | frontend/src/types/problem-knowledge-point.ts:217-221 | the comparator is a total preorder in both directions |
| KnowledgePointHelpers.SortByWeight | frontend/src/types/problem-knowledge-point.ts:213-222 | a permutation of the points, weights non-increasing when descending and non-decreasing otherwise |
| KnowledgePointHelpers.SortKeepsTotalWeight | frontend/src/types/problem-knowledge-point.ts:192-222 | sorting keeps the weight total |
| KnowledgePointHelpers.FormatDisplay | frontend/src/types/problem-knowledge-point.ts:227-264 | the accumulated text is the reference display: sections joined, cut when its UTF-16 length passes the limit, or the placeholder |
| KnowledgePointHelpers.PlaceholderIffNothingShown | frontend/src/types/problem-knowledge-point.ts:262-263 | without a negative limit the placeholder appears exactly when no section is shown |
| KnowledgePointHelpers.PrimaryComesFirst | frontend/src/types/problem-knowledge-point.ts:242-251 | without truncation the text starts with the primary prefix exactly when that section is shown |
| KnowledgePointHelpers.DisplayLengthBound | frontend/src/types/problem-knowledge-point.ts:259-261 | a positive limit bounds the text's UTF-16 length to the limit plus the ellipsis (only the placeholder may be longer); a cut text is the start of the full one that fits the limit, which on one-unit text is its first `maxLength` characters |
| Text.Utf16Length | frontend/src/types/problem-knowledge-point.ts:259 | a string's `length` counts two code units for a character beyond the Basic Multilingual Plane, so it lies between its character count and twice that |
| Text.Utf16Prefix | frontend/src/types/problem-knowledge-point.ts:260 | `substring(0, n)` cut between characters: the longest start that fits in `n` code units, nothing for a negative `n` |
| Text.Utf16PrefixOfOneUnitText | frontend/src/types/problem-knowledge-point.ts:260 | on text of one code unit per character the cut is the first `n` characters |
| KnowledgePointHelpers.ValidateLink | frontend/src/types/problem-knowledge-point.ts:269-290 | one message per failed check, in check order; valid exactly when all three checks pass |
| KnowledgePointHelpers.LinkErrorsInOrder | frontend/src/types/problem-knowledge-point.ts:274-284 | the message list, check by check |
| ProblemLabels.DifficultyText | frontend/src/types/problem.ts:213-215 | the label for 1..5, "难度 n" for any other difficulty |
| ProblemLabels.DifficultyTextInjective | frontend/src/types/problem.ts:173-215 | different difficulties never share a text |
| ProblemLabels.ReviewStatusText | frontend/src/types/problem.ts:220-222 | the label of a known status, the status itself otherwise |
| ProblemLabels.BackendStatusesHaveLabels | frontend/src/types/problem.ts:184-188 | both review statuses the backend writes have labels |
| ProblemLabels.SourceTypeText | frontend/src/types/problem.ts:227-230 | "未知来源" for a missing or empty source, a known source's label, else the source; never empty |
| ProblemLabels.SuccessRate | frontend/src/types/problem.ts:202-208 | 0 without attempts; otherwise the ratio, within 0..1 for consistent counters |
| ProblemLabels.SuccessRateMatchesAccuracyRate | frontend/src/types/problem.ts:202-208 | the frontend ratio times 100 is the backend's accuracy percentage |
| BrowserStorage.LocalStorage.GetItem | frontend/src/stores/user.ts:21-22 | the value of a present key, null exactly for an absent one |
| BrowserStorage.LocalStorage.SetItem | frontend/src/stores/user.ts:41 | the key holds the value, every other key kept |
| BrowserStorage.LocalStorage.RemoveItem | frontend/src/stores/user.ts:51 | the key is gone, every other key kept |
| UserStore.RoleComputedsExclusive | frontend/src/stores/user.ts:15-17 | at most one role computed holds, none without a profile |
| UserStore.Saved | frontend/src/stores/user.ts:39-47 | saving writes the token when there is one and the profile when there is one, and never removes a key |
| UserStore.LoadAfterSave | frontend/src/stores/user.ts:20-47 | loading what was saved restores the token and the profile and removes nothing |
| UserStore.LoadAfterClear | frontend/src/stores/user.ts:20-53 | after clearing, a load finds nothing and removes nothing |
| UserStore.AvailableOr | frontend/src/stores/user.ts:135-154 | available only for a successful answer, and then its flag |
| UserStore.UserStore.constructor | frontend/src/stores/user.ts:156-165 | load from storage, then fetch the profile when there is a token but no profile (the request layer's logout on a 401 is outside the model) |
| UserStore.UserStore.LoadFromStorage | frontend/src/stores/user.ts:20-36 | non-empty saved token and parsable profile are loaded; an unparsable profile is removed |
| UserStore.UserStore.SaveToStorage | frontend/src/stores/user.ts:39-47 | the storage becomes the saved map |
| UserStore.UserStore.ClearStorage | frontend/src/stores/user.ts:50-53 | both keys removed, every other key kept |
| UserStore.UserStore.FetchUserInfo | frontend/src/stores/user.ts:95-104 | success replaces and saves the profile; a failure answered by the store's own code changes nothing, the token included (the request layer's logout on 401/403 is outside the model) |
| UserStore.UserStore.Login | frontend/src/stores/user.ts:56-69 | true exactly when the login request succeeds; the token is then set and the profile fetched; a failure is handled by the store's own code only (the request layer's logout on 401 is outside the model) |
| UserStore.UserStore.Register | frontend/src/stores/user.ts:72-92 | true exactly when the request succeeds; the profile is then stored and saved, the token kept |
| UserStore.UserStore.ChangePassword | frontend/src/stores/user.ts:119-132 | true exactly when the request succeeds |
| UserStore.UserStore.Logout | frontend/src/stores/user.ts:107-116 | empty token and profile, no role, both keys removed |
| AuthStore.UsernameOf | frontend/src/stores/auth.ts:15 | the user's name, or empty without a user |
| AuthStore.RoleOf | frontend/src/stores/auth.ts:16 | never empty: the user's role, or "user" |
| AuthStore.ErrorText | frontend/src/stores/auth.ts:41 | never empty: the message, or "登录失败" |
| AuthStore.AuthStore.constructor | frontend/src/stores/auth.ts:8-76 | corrected (reading the body, like `FetchCurrentUser`): the saved token; with a truthy one the user is fetched, and a failed fetch clears the session |
| AuthStore.AuthStore.SetToken | frontend/src/stores/auth.ts:19-26 | a truthy token is stored, anything else removes the key; authenticated exactly when the key is present |
| AuthStore.AuthStore.SetUser | frontend/src/stores/auth.ts:28-30 | only the user changes |
| AuthStore.AuthStore.ClearAuth | frontend/src/stores/auth.ts:68-71 | no token, no user, the key removed, flags kept |
| AuthStore.AuthStore.FetchCurrentUserAsWritten | frontend/src/stores/auth.ts:58-66 | as written no user is ever set; a failure clears the session |
| AuthStore.AuthStore.FetchCurrentUser | frontend/src/stores/auth.ts:58-66 | reading the body: the user on success; a failure clears the session |
| AuthStore.AuthStore.LoginAsWritten | frontend/src/stores/auth.ts:32-46 | as written every call fails, with the TypeError's message for a successful response, and the session is untouched |
| AuthStore.AuthStore.Login | frontend/src/stores/auth.ts:32-46 | reading the body: token set and user fetched on success; `loading` ends false; `error` set exactly on failure |
| AuthStore.AuthStore.Logout | frontend/src/stores/auth.ts:48-56 | the session is cleared whatever the request does |
| Router.RouteTableGuards | frontend/src/router/index.ts:24-122 | no route needs an admin; the pages that hide the navbar are exactly those open without login; only create and edit need a teacher or admin |
| Router.PageTitle | frontend/src/router/index.ts:131-132 | the route's title, or the site name, followed by " - AI平台" |
| Router.Decide | frontend/src/router/index.ts:135-181 | to /login exactly when the matched record needs login and it is missing; to /dashboard exactly when a role check fails or a signed-in user's URL path is "/login" or "/register"; otherwise on |
| Router.SignInPagesOnlyWhenSignedOut | frontend/src/router/index.ts:176-179 | on any URL that reaches a sign-in page, it opens when signed out; a signed-in user is sent to the dashboard exactly when the URL path is "/login" or "/register" |
| Router.SignInPageVariantsStayOpen | frontend/src/router/index.ts:176-179 | "/login/" and "/LOGIN" reach the Login record, and there a signed-in user is not redirected |
| Router.RolesCheckedBeforeProfileLoads | frontend/src/router/index.ts:143-163 | a signed-in user whose profile is not loaded is turned away from create and edit |
| Router.BeforeEach | frontend/src/router/index.ts:127-182 | sets the title, decides as `Decide` on the URL path and the starting state, and fetches the profile exactly when the matched record needs login, passes the role checks and no profile is loaded; a fetched profile is saved along with the token; the token is kept (the request layer's logout on 401/403 is outside the model) |
| Like.SubstringPatternIsContains | backend/app/crud/problem.py:290-301 | for a keyword without wildcards, `LIKE '%kw%'` is substring search |
| Like.ILikeSubstring | backend/app/crud/problem.py:290-301 | for a keyword without wildcards, `ILIKE '%kw%'` is case-insensitive substring search |

## Left out

- Rounding. `accuracy_rate` (2 decimals), `avg_accuracy`, `calculateSuccessRate` (4 decimals) and `toFixed(1)` are left out; the model computes exact ratios. `toFixed(1)` is passed to the display helper as a parameter.
- ProblemLabels.SuccessRate: states the ratio before `Math.round(... * 10000) / 10000`, not the rounded value.
- ProblemModel.AccuracyRate: states the percentage before `round(..., 2)`.
- `avg_accuracy` of `get_problem_stats`: left out, since it is a floating-point SQL average.
- Floating-point weights: the weights are `real`, so the model does not capture NaN weights or rounding in the weight total.
- E-mail validation: `EmailStr` is reduced to "one `@` with text on both sides".
- UserModel.ToDict: `created_at` and `last_login_at` are given as the instant in whole seconds, not as the `isoformat()` text; the model has no calendar.
- Security.Decode: claim values are strings or integers only. `int()` is taken to read an optional sign and ASCII digits; its whitespace stripping, `_` separators and non-ASCII digits, and floats are not modelled. `at_hash` is refused outright, since `verify_token` passes no access token to check it against; `iss` is not checked at all, since no issuer is passed. The leeway is 0, as the code leaves it.
- Security.VerifyToken: pydantic's reading of a string `user_id` is taken to be the same as `int()`'s above.
- Router.MatchesStatic: only static record paths are matched, as the sign-in pages need; parameterised paths such as "/problems/:id" are not matched against URLs.
- `ILIKE`: the model keeps ASCII case folding and the `%`/`_` wildcards. Escaping, collation and non-ASCII case folding are not modelled.
- UserCrud.SearchUsersOrdered: `ORDER BY username` is stated as code-point order. PostgreSQL orders text by the database collation, which the model does not define.
- ProblemCrud.ListProblemsOrdered: text sort columns are ordered by code point rather than by the database collation. Also, the four columns listed under ProblemCrud.ColumnNamed sort as `created_at`.
- KnowledgeTree.ValidateCode: Python's Unicode `isalnum` is taken as a parameter rather than defined.
- Explicit `null` in an update body: an update field is either sent with a value or not sent at all.
- UserSchemas.ValidateUserCreate: an explicit `"role": null` in a registration body is not represented. The program runs no validator on it and stores no role; the model's role is either sent as a string or omitted (and then defaults to "student").
- Unknown `sort_by`: a name that `getattr` does not find falls back to `created_at`, which is modelled. Non-column attributes of the class that `getattr` would also find are not modelled.
- Unmodelled columns: `updated_at` (on problems, users and knowledge points), `success_rate` and `reviewed_by` are not part of the records. Nor is the `onupdate=func.now()` stamping of `updated_at` on every write. So the "nothing else changes" contracts of the update, delete and publish operations say nothing about that column.
- ProblemModel.ToDict: the map has no `"updated_at"` key, which `to_dict` always emits. `created_at` is the instant in whole seconds, not the `isoformat()` text.
- KnowledgeTree.ToDict: `created_at` is the instant in whole seconds (or none), not the `isoformat()` text.
- Text.Utf16Prefix: a cut that falls inside a surrogate pair leaves a lone high surrogate at the end in the program. The model's characters are Unicode scalar values, so it stops before the pair and the cut text is one code unit shorter. This is what `KnowledgePointHelpers.FormatDisplay` and `KnowledgePointHelpers.DisplayLengthBound` inherit.
- ProblemCrud.ColumnNamed: `sort_by` set to `updated_at`, `success_rate`, `reviewed_by` or `options` names a real column that `getattr` finds. The model sends these four names to `created_at`.
- `skip` and `limit`: they are natural numbers, so negative values are not modelled.
- Ties under `ORDER BY`: rows with equal keys keep their table order (a stable sort). The database leaves that order unspecified.
- `ORDER BY random()`: the random order is a sort by caller-supplied keys, not by a random source.
- `get_user_stats`, the `/health` and `/logout` routes, and the debug `print` in login are not modelled.
- Salts and clocks: bcrypt's random salt and the clock are parameters, and times are whole seconds.
- `response_model` serialisation of the route responses is not modelled.
- The order of the `knowledge_points` relationship in practice items is link order.
- `PracticeSession.to_dict` and the `AnswerRecord` table are not part of this model.
- Unreachable error branches: the `ValueError` → 400 branches of the problem routes cannot fire after schema validation, so the model does not include them. The same holds for the router's `catch` branch, because `fetchUserInfo` never rejects.
- Pinia's `persist` option on the user store (key `user-store`) is not part of this model.
- `ElMessage` notifications, `console` logging and `document.title` as a side effect are left out.
- Property names inherited from the JavaScript object prototype (such as `toString`), used as keys of the label tables, are not modelled.
- The request layer's interceptors (frontend/src/utils/request.ts) are not part of this model. On every 401 response, and on a 403 while a token is held, they call the user store's `logout()`: the token and the profile are cleared and both storage keys removed. The store operations below are modelled as the store's own code handles a failed request, so on those two answers their "a failure keeps the state" clauses do not hold in the program.
- UserStore.UserStore.FetchUserInfo: a failure keeps the token and profile only for answers other than 401, and 403 with a token; on those the interceptor logs out.
- UserStore.UserStore.Login: a failed login keeps the state only for answers other than 401; a 401 (wrong credentials) logs out through the interceptor.
- UserStore.UserStore.constructor: a 401 on the initial profile fetch leaves the store logged out, not with the stored token.
- UserStore.UserStore.Register, UserStore.UserStore.ChangePassword: a 401, or a 403 with a token, also logs out.
- Router.BeforeEach: `store.token == old(store.token)` does not hold in the program when the profile fetch gets a 401, or a 403 with a token.
- AuthStore.AuthStore.FetchCurrentUser, AuthStore.AuthStore.Login, AuthStore.AuthStore.Logout, AuthStore.AuthStore.constructor: their requests go through the same interceptor, whose logout clears the user store's state, which the auth store's contracts do not mention.
- The timing of the asynchronous calls and the interleaving of concurrent navigations are not modelled. Each call runs to completion with its outcome passed in.

## Findings

| source | as written | input that shows it | evidently intended | confidence | as-written member | corrected member |
|---|---|---|---|---|---|---|
| backend/app/crud/user.py:89-90 | `setattr(db_user, "metadata", v)` targets the attribute name, not the mapped `user_metadata` column, so the update is not stored | an update whose body sets only `metadata` | the new metadata is stored | not executed | UserCrud.ApplyUpdateAsWritten | UserCrud.ApplyUpdate |
| backend/app/api/routes/auth.py:251-262 | the route calls `get_user_by_email`, which the module never imports, so every request ends in a 500 | any `GET /check-email/{email}` | availability of the address | not executed | AuthRoutes.CheckEmailAvailableAsWritten | AuthRoutes.CheckEmailAvailable |
| backend/app/crud/problem.py:262-268 | `LIMIT count` is applied to the rows of the join, before the ORM drops duplicate problems | problem 1 linked to points 10 and 20, problem 2 linked to 10, ids [10, 20], count 2 (ProblemCrud.RandomSelectionComesBackShort) | `count` different problems when that many exist | not executed | ProblemCrud.RandomProblemsAsWritten | ProblemCrud.RandomProblems |
| backend/app/api/routes/problems.py:278 | `increment_attempts` is not imported by the routes module, so every signed-in attempt ends in a 500 | a signed-in `POST /{id}/attempt` on an existing problem (ProblemRoutes.AttemptNeverRecorded) | the counters move and the recorded message is returned | not executed | ProblemRoutes.RecordAttemptAsWritten | ProblemRoutes.RecordAttempt |
| frontend/src/stores/auth.ts:37-61 | the request layer resolves with the response body, but the store reads `response.data.token` and `response.data` | any successful login | the token and user are taken from the body | not executed | AuthStore.AuthStore.LoginAsWritten | AuthStore.AuthStore.Login |

=== FILE: auth_routes.dfy ===
/** The authentication endpoints of backend/app/api/routes/auth.py. Endpoints that only read are
    functions of the `users` rows; endpoints that commit are methods on the `UserStore`, each
    specified by the function of the old rows that gives its response. The signing key and the
    clock are parameters; the hasher's salt is passed in. */
module AuthRoutes {
  import opened Wrappers
  import opened Json
  import opened Http
  import opened Security
  import opened UserModel
  import opened UserSchemas
  import opened UserCrud
  import opened Dependencies

  const BadLogin: HttpError := HttpError(401, "用户名或密码错误", true)
  const RegistrationClosed: HttpError := HttpError(403, "注册功能已关闭", false)
  const RefreshRejected: HttpError := HttpError(401, "用户不存在或已被禁用", false)
  const WrongCurrentPassword: HttpError := HttpError(400, "当前密码错误", false)

  /** Lifetime the token responses announce, in seconds. */
  const EXPIRES_IN: int := ACCESS_TOKEN_EXPIRE_MINUTES * 60

  /** The token every login and refresh issues for an account. */
  function SessionToken(u: User, now: int, key: string): Token {
    CreateAccessToken(SessionClaims(u.username, u.id, u.role), None, now, key)
  }

  // ---------------------------------------------------------------- register

  /** The `403` gate of `register`: with registration closed, only an administrator may create
      accounts. `openRegistration` is the `USERS_OPEN_REGISTRATION` setting, true unless the
      deployment configures otherwise (backend/app/core/config.py). */
  predicate RegistrationAllowed(openRegistration: bool, currentUser: Option<User>) {
    openRegistration || (currentUser.Some? && IsAdmin(currentUser.value))
  }

  /** `POST /register`. The optional caller is resolved first and never fails; a body that fails
      the schema is refused with 422 before the route runs; then the registration gate; then
      `create_user`, whose `ValueError` becomes a 400 carrying its message. */
  method Register(store: UserStore, input: UserCreateInput, credentials: Option<Token>,
                  openRegistration: bool, salt: int, key: string, now: int)
    returns (r: Result<User, HttpError>)
    requires store.Valid()
    modifies store
    ensures store.Valid()
    ensures ValidateUserCreate(input).Failure? ==> r == Failure(ValidationFailed)
    ensures ValidateUserCreate(input).Success?
            && !RegistrationAllowed(openRegistration, OptionalCurrentUser(old(store.rows), credentials, key, now))
            ==> r == Failure(RegistrationClosed)
    ensures r.Success? <==>
              && ValidateUserCreate(input).Success?
              && RegistrationAllowed(openRegistration, OptionalCurrentUser(old(store.rows), credentials, key, now))
              && GetUserByUsername(old(store.rows), input.username).None?
              && (input.email.Some? ==> GetUserByEmail(old(store.rows), input.email.value).None?)
    ensures r.Failure? ==> store.rows == old(store.rows) && store.nextId == old(store.nextId)
    ensures r.Failure? && ValidateUserCreate(input).Success?
            && RegistrationAllowed(openRegistration, OptionalCurrentUser(old(store.rows), credentials, key, now))
            ==> r.error.status == 400
    ensures r.Success? ==> && r.value == NewRow(old(store.nextId), ValidateUserCreate(input).value, salt, now)
                           && store.rows == old(store.rows) + [r.value]
  {
    var currentUser := OptionalCurrentUser(store.rows, credentials, key, now);
    var validated := ValidateUserCreate(input);
    if validated.Failure? {
      return Failure(ValidationFailed);
    }
    if !RegistrationAllowed(openRegistration, currentUser) {
      return Failure(RegistrationClosed);
    }
    var created := store.CreateUser(validated.value, salt, now);
    match created
    case Failure(message) =>
      r := Failure(HttpError(400, message, false));
    case Success(u) =>
      r := Success(u);
  }

  // ---------------------------------------------------------------- login

  /** The response of `POST /login` and `POST /login/json` for the rows before the call: a
      failed authentication is a 401 with the Bearer challenge and is checked before the
      account's activity, which is a 400. */
  function LoginResponse(rows: seq<User>, username: string, password: string, key: string, now: int)
    : (r: Result<TokenResponse, HttpError>)
    ensures AuthenticateUser(rows, username, password).None? ==> r == Failure(BadLogin)
    ensures r.Success? <==> AuthenticateUser(rows, username, password).Some?
                            && AuthenticateUser(rows, username, password).value.isActive
    ensures AuthenticateUser(rows, username, password).Some? && r.Failure? ==> r == Failure(UserDisabled)
    ensures r.Success? ==>
              r.value == BearerToken(SessionToken(AuthenticateUser(rows, username, password).value, now, key), 604800)
  {
    match AuthenticateUser(rows, username, password)
    case None => Failure(BadLogin)
    case Some(u) =>
      if !u.isActive then Failure(UserDisabled)
      else Success(BearerToken(SessionToken(u, now, key), EXPIRES_IN))
  }

  /** `POST /login` (and `POST /login/json`, which has the same body): on success the account's
      `last_login_at` is stamped; any failure leaves the table as it was. */
  method Login(store: UserStore, username: string, password: string, key: string, now: int)
    returns (r: Result<TokenResponse, HttpError>)
    requires store.Valid()
    modifies store
    ensures store.Valid() && store.nextId == old(store.nextId)
    ensures r == LoginResponse(old(store.rows), username, password, key, now)
    ensures r.Failure? ==> store.rows == old(store.rows)
    ensures r.Success? ==>
              var u := AuthenticateUser(old(store.rows), username, password).value;
              store.rows == SetRow(old(store.rows), u.id, UpdateLastLogin(u, now))
  {
    var found := AuthenticateUser(store.rows, username, password);
    if found.None? {
      return Failure(BadLogin);
    }
    var u := found.value;
    if !u.isActive {
      return Failure(UserDisabled);
    }
    var token := SessionToken(u, now, key);
    GetUserExact(store.rows, u.id, u);
    store.TouchLastLogin(u.id, now);
    r := Success(BearerToken(token, EXPIRES_IN));
  }

  /** Logging in and presenting the returned token: for the token's seven days the request acts
      for the account that logged in, as stored after the login. */
  lemma LoginTokenAuthenticates(rows: seq<User>, nextId: int, username: string, password: string,
                                key: string, now: int, later: int)
    requires TableConstraints(rows, nextId)
    requires LoginResponse(rows, username, password, key, now).Success?
    requires later <= now + ACCESS_TOKEN_EXPIRE_MINUTES * 60
    ensures var u := AuthenticateUser(rows, username, password).value;
            var after := SetRow(rows, u.id, UpdateLastLogin(u, now));
            GetCurrentUser(after, Some(LoginResponse(rows, username, password, key, now).value.accessToken), key, later)
              == Success(UpdateLastLogin(u, now))
  {
    var u := AuthenticateUser(rows, username, password).value;
    var v := UpdateLastLogin(u, now);
    GetUserExact(rows, u.id, u);
    ReplacePreservesConstraints(rows, nextId, u.id, v);
    var after := SetRow(rows, u.id, v);
    var k :| 0 <= k < |rows| && rows[k] == u;
    assert after[k] == v;
    SessionTokenAuthenticates(after, v, now, key, later);
  }

  /** An account created by registration can log in at once with its password. */
  lemma RegisteredAccountCanLogIn(rows: seq<User>, id: int, uc: UserCreate, salt: int, now: int,
                                  key: string, later: int)
    requires GetUserByUsername(rows, uc.username).None?
    ensures LoginResponse(rows + [NewRow(id, uc, salt, now)], uc.username, uc.password, key, later).Success?
  {
    CreatedUserAuthenticates(rows, id, uc, salt, now);
  }

  // ---------------------------------------------------------------- refresh

  /** `POST /refresh`. `verify_token` raises rather than returning nothing, so its own 401 (or
      500) is what a bad token gets; an unknown or deactivated account is a 401 without the
      challenge. The new token carries the stored username, id and role. */
  function Refresh(rows: seq<User>, refreshToken: Token, key: string, now: int)
    : (r: Result<TokenResponse, HttpError>)
    ensures VerifyToken(refreshToken, key, now).Failure? ==> r == Failure(VerifyToken(refreshToken, key, now).error)
    ensures r.Success? <==>
              && VerifyToken(refreshToken, key, now).Success?
              && var found := GetUserByUsername(rows, VerifyToken(refreshToken, key, now).value.username.value);
                 found.Some? && found.value.isActive
    ensures r.Success? ==>
              var u := GetUserByUsername(rows, VerifyToken(refreshToken, key, now).value.username.value).value;
              r.value == BearerToken(SessionToken(u, now, key), 604800)
    ensures VerifyToken(refreshToken, key, now).Success? && r.Failure? ==> r == Failure(RefreshRejected)
  {
    match VerifyToken(refreshToken, key, now)
    case Failure(e) => Failure(e)
    case Success(data) =>
      match GetUserByUsername(rows, data.username.value)
      case None => Failure(RefreshRejected)
      case Some(u) =>
        if !u.isActive then Failure(RefreshRejected)
        else Success(BearerToken(SessionToken(u, now, key), EXPIRES_IN))
  }

  /** Refreshing an unexpired session token yields a token for the same account that lives seven
      days from the refresh. */
  lemma RefreshExtendsSession(rows: seq<User>, u: User, issuedAt: int, key: string, now: int)
    requires UniqueUsernames(rows) && u in rows && u.isActive
    requires now <= issuedAt + ACCESS_TOKEN_EXPIRE_MINUTES * 60
    ensures var r := Refresh(rows, SessionToken(u, issuedAt, key), key, now);
            && r.Success?
            && r.value.accessToken == SessionToken(u, now, key)
            && r.value.accessToken.payload["exp"] == Int(now + 604800)
  {
    SessionTokenRoundTrip(u.username, u.id, u.role, issuedAt, key, now);
    GetUserByUsernameExact(rows, u.username, u);
  }

  /** A deactivated account cannot refresh its way back in. */
  lemma RefreshRefusesDeactivated(rows: seq<User>, u: User, issuedAt: int, key: string, now: int)
    requires UniqueUsernames(rows) && u in rows && !u.isActive
    requires now <= issuedAt + ACCESS_TOKEN_EXPIRE_MINUTES * 60
    ensures Refresh(rows, SessionToken(u, issuedAt, key), key, now) == Failure(RefreshRejected)
  {
    SessionTokenRoundTrip(u.username, u.id, u.role, issuedAt, key, now);
    GetUserByUsernameExact(rows, u.username, u);
  }

  // ---------------------------------------------------------------- change password, me

  /** `POST /change-password`: the caller is authenticated first, then the body is validated,
      then the current password is checked; only a full success replaces the digest. */
  method ChangePasswordRoute(store: UserStore, credentials: Option<Token>, currentPassword: string,
                             newPassword: string, salt: int, key: string, now: int)
    returns (r: Result<string, HttpError>)
    requires store.Valid()
    modifies store
    ensures store.Valid() && store.nextId == old(store.nextId)
    ensures GetCurrentUser(old(store.rows), credentials, key, now).Failure? ==>
              r == Failure(GetCurrentUser(old(store.rows), credentials, key, now).error)
    ensures (GetCurrentUser(old(store.rows), credentials, key, now).Success?
             && !ValidChangePassword(currentPassword, newPassword)) ==> r == Failure(ValidationFailed)
    ensures r.Success? <==>
              && GetCurrentUser(old(store.rows), credentials, key, now).Success?
              && ValidChangePassword(currentPassword, newPassword)
              && VerifyPassword(currentPassword, GetCurrentUser(old(store.rows), credentials, key, now).value.hashedPassword)
    ensures r.Success? ==> r.value == "密码修改成功"
    ensures r.Failure? ==> store.rows == old(store.rows)
    ensures (r.Failure? && GetCurrentUser(old(store.rows), credentials, key, now).Success?
             && ValidChangePassword(currentPassword, newPassword)) ==> r == Failure(WrongCurrentPassword)
    ensures r.Success? ==>
              var u := GetCurrentUser(old(store.rows), credentials, key, now).value;
              store.rows == SetRow(old(store.rows), u.id, u.(hashedPassword := GetPasswordHash(newPassword, salt)))
  {
    var caller := GetCurrentUser(store.rows, credentials, key, now);
    if caller.Failure? {
      return Failure(caller.error);
    }
    if !ValidChangePassword(currentPassword, newPassword) {
      return Failure(ValidationFailed);
    }
    var u := caller.value;
    GetUserExact(store.rows, u.id, u);
    var changed := store.ChangePassword(u.id, currentPassword, newPassword, salt);
    if !changed {
      return Failure(WrongCurrentPassword);
    }
    r := Success("密码修改成功");
  }

  /** After a password change the account logs in with the new password. */
  lemma NewPasswordLogsIn(rows: seq<User>, nextId: int, u: User, newPassword: string, salt: int,
                          key: string, now: int)
    requires TableConstraints(rows, nextId) && u in rows && u.isActive
    ensures var after := SetRow(rows, u.id, u.(hashedPassword := GetPasswordHash(newPassword, salt)));
            LoginResponse(after, u.username, newPassword, key, now).Success?
  {
    var v := u.(hashedPassword := GetPasswordHash(newPassword, salt));
    GetUserExact(rows, u.id, u);
    ReplacePreservesConstraints(rows, nextId, u.id, v);
    var after := SetRow(rows, u.id, v);
    var k :| 0 <= k < |rows| && rows[k] == u;
    assert after[k] == v;
    AuthenticateUserIff(after, u.username, newPassword, v);
  }

  /** `GET /me`: the caller's public fields, which are exactly the fields `UserResponse`
      declares; neither the digest nor the metadata is exposed. */
  function Me(rows: seq<User>, credentials: Option<Token>, key: string, now: int)
    : (r: Result<map<string, Json>, HttpError>)
    ensures r.Success? <==> GetCurrentUser(rows, credentials, key, now).Success?
    ensures r.Success? ==> "hashed_password" !in r.value && "metadata" !in r.value
    ensures r.Success? ==> "username" in r.value && r.value["username"] == JStr(GetCurrentUser(rows, credentials, key, now).value.username)
    ensures r.Success? ==> r.value.Keys == PUBLIC_FIELDS
    ensures r.Success? ==> forall k :: k in PUBLIC_FIELDS ==>
              r.value[k] == PublicColumns(GetCurrentUser(rows, credentials, key, now).value)[k]
    ensures r.Failure? ==> r.error == GetCurrentUser(rows, credentials, key, now).error
  {
    match GetCurrentUser(rows, credentials, key, now)
    case Failure(e) => Failure(e)
    case Success(u) => Success(ToDict(u, false))
  }

  // ---------------------------------------------------------------- availability checks

  /** `GET /check-username/{username}`. */
  function CheckUsernameAvailable(rows: seq<User>, username: string): (available: bool)
    ensures available <==> forall j :: 0 <= j < |rows| ==> rows[j].username != username
  {
    GetUserByUsername(rows, username).None?
  }

  /** `GET /check-email/{email}` as written: the route calls `get_user_by_email`, which the
      module never imports, so every request fails with a `NameError`. */
  function CheckEmailAvailableAsWritten(rows: seq<User>, email: string): (r: Result<bool, HttpError>)
    ensures r == Failure(InternalError)
  {
    Failure(InternalError)
  }

  /** `GET /check-email/{email}` with the lookup imported. */
  function CheckEmailAvailable(rows: seq<User>, email: string): (r: Result<bool, HttpError>)
    ensures r.Success?
    ensures r.value <==> forall j :: 0 <= j < |rows| ==> rows[j].email != Some(email)
  {
    Success(GetUserByEmail(rows, email).None?)
  }

  /** As written, an address no account uses is never reported available. */
  lemma CheckEmailNeverAnswers(rows: seq<User>, email: string)
    requires forall j :: 0 <= j < |rows| ==> rows[j].email != Some(email)
    ensures CheckEmailAvailableAsWritten(rows, email).Failure?
    ensures CheckEmailAvailable(rows, email) == Success(true)
  {
  }
}

=== FILE: auth_store.dfy ===
/** The `auth` store of frontend/src/stores/auth.ts: a nullable token mirrored in `localStorage`
    under "token", the signed-in user, and the `loading`/`error` flags of the login request. The
    outcomes of the HTTP calls are parameters.

    The request layer (frontend/src/utils/request.ts:65-66) resolves every call with the
    response BODY, but this store reads `response.data` of it: `login` dereferences
    `response.data.token`, which throws, and `fetchCurrentUser` stores `response.data`, which is
    `undefined`. `LoginAsWritten` and `FetchCurrentUserAsWritten` model that code;
    `Login` and `FetchCurrentUser` read the body itself, as the response types declare. */
module AuthStore {
  import opened Wrappers
  import opened BrowserStorage

  const TOKEN_KEY: string := "token"
  const DEFAULT_ROLE: string := "user"
  const LOGIN_FAILED: string := "登录失败"

  /** The message of the `TypeError` that reading `token` of `undefined` throws (V8's wording). */
  const UNDEFINED_DATA_ERROR: string := "Cannot read properties of undefined (reading 'token')"

  /** `!!token`. */
  predicate Truthy(token: Option<string>) {
    token.Some? && token.value != ""
  }

  /** `user?.username || ''`. */
  function UsernameOf(user: Option<UserInfo>): (name: string)
    ensures user.None? ==> name == ""
    ensures user.Some? ==> name == user.value.username
  {
    if user.Some? && user.value.username != "" then user.value.username else ""
  }

  /** `user?.role || 'user'`: never empty. */
  function RoleOf(user: Option<UserInfo>): (role: string)
    ensures role != ""
    ensures user.None? ==> role == DEFAULT_ROLE
    ensures user.Some? && user.value.role != "" ==> role == user.value.role
  {
    if user.Some? && user.value.role != "" then user.value.role else DEFAULT_ROLE
  }

  /** `err.message || '登录失败'`. */
  function ErrorText(message: string): (text: string)
    ensures text != ""
    ensures message != "" ==> text == message
  {
    if message != "" then message else LOGIN_FAILED
  }

  class AuthStore {
    var token: Option<string>
    var user: Option<UserInfo>
    var loading: bool
    var error: Option<string>
    const storage: LocalStorage

    predicate IsAuthenticated()
      reads this
    {
      Truthy(token)
    }

    /** The store's setup, corrected like `FetchCurrentUser`: the token saved under "token"
        (`null` when absent), no user, and, with a truthy token, `fetchCurrentUser`, whose
        outcome is `initialFetch`. As written the successful fetch stores `response.data`, which
        is `undefined`, so the user stays empty (`FetchCurrentUserAsWritten`). */
    constructor(storage: LocalStorage, initialFetch: Result<UserInfo, string>)
      modifies storage
      ensures this.storage == storage && !loading && error.None?
      ensures !Truthy(old(storage.GetItem(TOKEN_KEY))) ==>
                token == old(storage.GetItem(TOKEN_KEY)) && user.None? && storage.items == old(storage.items)
      ensures Truthy(old(storage.GetItem(TOKEN_KEY))) && initialFetch.Success? ==>
                token == old(storage.GetItem(TOKEN_KEY)) && user == Some(initialFetch.value)
                && storage.items == old(storage.items)
      ensures Truthy(old(storage.GetItem(TOKEN_KEY))) && initialFetch.Failure? ==>
                token.None? && user.None? && storage.items == old(storage.items) - {TOKEN_KEY}
    {
      token := storage.GetItem(TOKEN_KEY);
      user := None;
      loading := false;
      error := None;
      this.storage := storage;
      new;
      if Truthy(token) {
        FetchCurrentUser(initialFetch);
      }
    }

    /** `setToken`: a truthy token is stored, anything else removes the key. */
    method SetToken(newToken: Option<string>)
      modifies this, storage
      ensures token == newToken && user == old(user) && loading == old(loading) && error == old(error)
      ensures Truthy(newToken) ==> storage.items == old(storage.items)[TOKEN_KEY := newToken.value]
      ensures !Truthy(newToken) ==> storage.items == old(storage.items) - {TOKEN_KEY}
      ensures IsAuthenticated() <==> TOKEN_KEY in storage.items
    {
      token := newToken;
      if Truthy(newToken) {
        storage.SetItem(TOKEN_KEY, newToken.value);
      } else {
        storage.RemoveItem(TOKEN_KEY);
      }
    }

    /** `setUser`. */
    method SetUser(userData: Option<UserInfo>)
      modifies this
      ensures user == userData && token == old(token) && loading == old(loading) && error == old(error)
    {
      user := userData;
    }

    /** `clearAuth`: no token, no user, no "token" key; nothing else changes. */
    method ClearAuth()
      modifies this, storage
      ensures token.None? && user.None? && !IsAuthenticated()
      ensures loading == old(loading) && error == old(error)
      ensures storage.items == old(storage.items) - {TOKEN_KEY}
    {
      SetToken(None);
      SetUser(None);
    }

    /** `fetchCurrentUser` as written: a successful request stores `response.data`, which is
        `undefined`, so no user is ever set; a failed one clears the session. */
    method FetchCurrentUserAsWritten(me: Result<UserInfo, string>)
      modifies this, storage
      ensures user.None?
      ensures me.Success? ==> token == old(token) && storage.items == old(storage.items)
      ensures me.Failure? ==> token.None? && storage.items == old(storage.items) - {TOKEN_KEY}
      ensures loading == old(loading) && error == old(error)
    {
      if me.Success? {
        SetUser(None);
      } else {
        ClearAuth();
      }
    }

    /** `fetchCurrentUser` reading the body: the user on success; a failed request clears the
        session, unlike the `user` store's `fetchUserInfo`. */
    method FetchCurrentUser(me: Result<UserInfo, string>)
      modifies this, storage
      ensures me.Success? ==> user == Some(me.value) && token == old(token) && storage.items == old(storage.items)
      ensures me.Failure? ==> token.None? && user.None? && storage.items == old(storage.items) - {TOKEN_KEY}
      ensures loading == old(loading) && error == old(error)
    {
      if me.Success? {
        SetUser(Some(me.value));
      } else {
        ClearAuth();
      }
    }

    /** `login` as written: whatever the server answers, the call fails, `error` holds the
        message and the token, user and storage are untouched. */
    method LoginAsWritten(response: Result<TokenResponse, string>) returns (outcome: Result<TokenResponse, string>)
      modifies this
      ensures outcome.Failure?
      ensures !loading && error.Some? && error.value != ""
      ensures response.Success? ==> error == Some(UNDEFINED_DATA_ERROR)
      ensures token == old(token) && user == old(user)
    {
      loading := true;
      error := None;
      if response.Failure? {
        error := Some(ErrorText(response.error));
        outcome := Failure(response.error);
      } else {
        error := Some(ErrorText(UNDEFINED_DATA_ERROR));
        outcome := Failure(UNDEFINED_DATA_ERROR);
      }
      loading := false;
    }

    /** `login` reading the body: the token is set and the user fetched; `loading` ends false
        on both paths and `error` is set exactly when the call failed. */
    method Login(response: Result<TokenResponse, string>, me: Result<UserInfo, string>)
      returns (outcome: Result<TokenResponse, string>)
      modifies this, storage
      ensures outcome == response
      ensures !loading
      ensures error.Some? <==> outcome.Failure?
      ensures response.Failure? ==> error == Some(ErrorText(response.error))
      ensures response.Failure? ==> token == old(token) && user == old(user) && storage.items == old(storage.items)
      ensures response.Success? && me.Success? ==>
                token == Some(response.value.accessToken) && user == Some(me.value)
      ensures response.Success? && me.Success? && response.value.accessToken != "" ==>
                IsAuthenticated() && storage.items == old(storage.items)[TOKEN_KEY := response.value.accessToken]
      ensures response.Success? && me.Failure? ==>
                token.None? && user.None? && storage.items == old(storage.items) - {TOKEN_KEY}
    {
      loading := true;
      error := None;
      if response.Failure? {
        error := Some(ErrorText(response.error));
        outcome := response;
      } else {
        SetToken(Some(response.value.accessToken));
        FetchCurrentUser(me);
        outcome := response;
      }
      loading := false;
    }

    /** `logout`: the session is cleared whether or not the logout request succeeds. */
    method Logout()
      modifies this, storage
      ensures token.None? && user.None? && !IsAuthenticated()
      ensures storage.items == old(storage.items) - {TOKEN_KEY}
      ensures loading == old(loading) && error == old(error)
    {
      ClearAuth();
    }
  }
}

=== FILE: browser_storage.dfy ===
/** What the two frontend stores work on: the browser's `localStorage`, a string-to-string map
    shared by every store of the page, and the response shapes of frontend/src/types/auth.ts. */
module BrowserStorage {
  import opened Wrappers

  /** `localStorage`. */
  class LocalStorage {
    var items: map<string, string>

    constructor(items: map<string, string>)
      ensures this.items == items
    {
      this.items := items;
    }

    /** `getItem`: `null` for an absent key. */
    function GetItem(key: string): (r: Option<string>)
      reads this
      ensures r.Some? <==> key in items
      ensures r.Some? ==> r.value == items[key]
    {
      if key in items then Some(items[key]) else None
    }

    /** `setItem`: the key now holds `value`; every other key is as it was. */
    method SetItem(key: string, value: string)
      modifies this
      ensures items == old(items)[key := value]
    {
      items := items[key := value];
    }

    /** `removeItem`: the key is gone; every other key is as it was. */
    method RemoveItem(key: string)
      modifies this
      ensures items == old(items) - {key}
    {
      items := items - {key};
    }
  }

  /** `UserInfo`, with the fields the stores and the router read. */
  datatype UserInfo = UserInfo(id: int, username: string, role: string, isActive: bool)

  /** `TokenResponse`: the body of a successful login, as the request layer hands it over. */
  datatype TokenResponse = TokenResponse(accessToken: string, tokenType: string, expiresIn: int)

  /** `JSON.stringify` and `JSON.parse` on user records. Parsing any text may give any JSON value,
      `null` included, or throw: `Success(None)` is a parsed `null`, `Failure` a thrown error. */
  datatype JsonCodec = JsonCodec(stringify: UserInfo -> string, parse: string -> Result<Option<UserInfo>, string>)

  /** The platform's guarantee: the text of a record is never empty (it is at least "{}"), and
      parsing it gives the record back. */
  ghost predicate RoundTrips(json: JsonCodec) {
    forall u :: json.stringify(u) != "" && json.parse(json.stringify(u)) == Success(Some(u))
  }
}

=== FILE: dependencies.dfy ===
/** The authentication and authorisation dependencies of backend/app/api/dependencies.py: from an
    optional bearer credential to the account the request acts for, and the role gates built on
    it. The database session is the `users` table, passed as its rows. */
module Dependencies {
  import opened Wrappers
  import opened Http
  import opened Security
  import opened UserModel
  import opened UserSchemas
  import opened UserCrud

  /** `get_current_user`: no credential, a token `verify_token` rejects and an unknown username
      all give the same 401; a known but deactivated account gives 400. The account returned is
      the stored row, whatever the token's `user_id` and `role` claims say. */
  function GetCurrentUser(rows: seq<User>, credentials: Option<Token>, key: string, now: int)
    : (r: Result<User, HttpError>)
    ensures credentials.None? ==> r == Failure(CredentialsRejected)
    ensures credentials.Some? && VerifyToken(credentials.value, key, now).Failure? ==>
              r == Failure(VerifyToken(credentials.value, key, now).error)
    ensures r.Success? ==> && r.value in rows && r.value.isActive && credentials.Some?
                           && VerifyToken(credentials.value, key, now).Success?
                           && VerifyToken(credentials.value, key, now).value.username == Some(r.value.username)
    ensures r.Failure? ==> r.error in {CredentialsRejected, UserDisabled, InternalError}
  {
    match credentials
    case None => Failure(CredentialsRejected)
    case Some(token) =>
      match VerifyToken(token, key, now)
      case Failure(e) => Failure(e)
      case Success(data) =>
        match GetUserByUsername(rows, data.username.value)
        case None => Failure(CredentialsRejected)
        case Some(u) => if !u.isActive then Failure(UserDisabled) else Success(u)
  }

  /** `get_current_active_user`: repeats the activity check `get_current_user` has already made. */
  function GetCurrentActiveUser(rows: seq<User>, credentials: Option<Token>, key: string, now: int)
    : (r: Result<User, HttpError>)
    ensures r.Success? ==> r.value.isActive
  {
    match GetCurrentUser(rows, credentials, key, now)
    case Failure(e) => Failure(e)
    case Success(u) => if !u.isActive then Failure(UserDisabled) else Success(u)
  }

  /** The second activity check never fires: the two dependencies agree on every request. */
  lemma ActiveUserIsCurrentUser(rows: seq<User>, credentials: Option<Token>, key: string, now: int)
    ensures GetCurrentActiveUser(rows, credentials, key, now) == GetCurrentUser(rows, credentials, key, now)
  {
  }

  /** `get_current_admin_user`. */
  function GetCurrentAdminUser(rows: seq<User>, credentials: Option<Token>, key: string, now: int)
    : (r: Result<User, HttpError>)
    ensures r.Success? <==> GetCurrentUser(rows, credentials, key, now).Success?
                            && IsAdmin(GetCurrentUser(rows, credentials, key, now).value)
    ensures r.Success? ==> r == GetCurrentUser(rows, credentials, key, now)
    ensures GetCurrentUser(rows, credentials, key, now).Failure? ==> r == GetCurrentUser(rows, credentials, key, now)
    ensures GetCurrentUser(rows, credentials, key, now).Success? && r.Failure? ==> r.error == AdminRequired
  {
    match GetCurrentUser(rows, credentials, key, now)
    case Failure(e) => Failure(e)
    case Success(u) => if !IsAdmin(u) then Failure(AdminRequired) else Success(u)
  }

  /** `get_current_teacher_or_admin`. */
  function GetCurrentTeacherOrAdmin(rows: seq<User>, credentials: Option<Token>, key: string, now: int)
    : (r: Result<User, HttpError>)
    ensures r.Success? <==> GetCurrentUser(rows, credentials, key, now).Success?
                            && var u := GetCurrentUser(rows, credentials, key, now).value;
                               IsTeacher(u) || IsAdmin(u)
    ensures r.Success? ==> r == GetCurrentUser(rows, credentials, key, now)
    ensures GetCurrentUser(rows, credentials, key, now).Failure? ==> r == GetCurrentUser(rows, credentials, key, now)
    ensures GetCurrentUser(rows, credentials, key, now).Success? && r.Failure? ==> r.error == TeacherOrAdminRequired
  {
    match GetCurrentUser(rows, credentials, key, now)
    case Failure(e) => Failure(e)
    case Success(u) => if !(IsTeacher(u) || IsAdmin(u)) then Failure(TeacherOrAdminRequired) else Success(u)
  }

  /** `optional_current_user`: every failure, including the 500 a malformed claim would raise,
      becomes "anonymous". */
  function OptionalCurrentUser(rows: seq<User>, credentials: Option<Token>, key: string, now: int)
    : (r: Option<User>)
    ensures r.Some? <==> GetCurrentUser(rows, credentials, key, now).Success?
    ensures r.Some? ==> r.value == GetCurrentUser(rows, credentials, key, now).value
  {
    if credentials.None? then None
    else
      match VerifyToken(credentials.value, key, now)
      case Failure(_) => None
      case Success(data) =>
        match GetUserByUsername(rows, data.username.value)
        case Some(u) => if u.isActive then Some(u) else None
        case None => None
  }

  // ---------------------------------------------------------------- properties

  /** With unique usernames, a request is served as account `u` exactly when it presents a token
      that verifies to `u`'s username and `u` is active. */
  lemma CurrentUserIff(rows: seq<User>, credentials: Option<Token>, key: string, now: int, u: User)
    requires UniqueUsernames(rows)
    ensures GetCurrentUser(rows, credentials, key, now) == Success(u) <==>
            && credentials.Some? && VerifyToken(credentials.value, key, now).Success?
            && VerifyToken(credentials.value, key, now).value.username == Some(u.username)
            && u in rows && u.isActive
  {
    if credentials.Some? && VerifyToken(credentials.value, key, now).Success? {
      GetUserByUsernameExact(rows, VerifyToken(credentials.value, key, now).value.username.value, u);
    }
  }

  /** The session token login issues authenticates its account for the token's seven days. */
  lemma SessionTokenAuthenticates(rows: seq<User>, u: User, issuedAt: int, key: string, now: int)
    requires UniqueUsernames(rows) && u in rows && u.isActive
    requires now <= issuedAt + ACCESS_TOKEN_EXPIRE_MINUTES * 60
    ensures GetCurrentUser(rows, Some(CreateAccessToken(SessionClaims(u.username, u.id, u.role), None, issuedAt, key)),
                           key, now) == Success(u)
  {
    SessionTokenRoundTrip(u.username, u.id, u.role, issuedAt, key, now);
    CurrentUserIff(rows, Some(CreateAccessToken(SessionClaims(u.username, u.id, u.role), None, issuedAt, key)),
                   key, now, u);
  }

  /** Deactivating an account locks out every token naming it at once, however long the token
      still has to live. */
  lemma DeactivatedAccountRejected(rows: seq<User>, u: User, token: Token, key: string, now: int)
    requires UniqueUsernames(rows) && u in rows && !u.isActive
    requires VerifyToken(token, key, now).Success? && VerifyToken(token, key, now).value.username == Some(u.username)
    ensures GetCurrentUser(rows, Some(token), key, now) == Failure(UserDisabled)
  {
    GetUserByUsernameExact(rows, u.username, u);
  }

  /** Privileges come from the stored row: a token claiming `role: "admin"` gets no further than
      the stored role allows. */
  lemma StoredRoleDecides(rows: seq<User>, u: User, userId: int, issuedAt: int, key: string, now: int)
    requires UniqueUsernames(rows) && u in rows && u.isActive && !IsAdmin(u)
    requires now <= issuedAt + ACCESS_TOKEN_EXPIRE_MINUTES * 60
    ensures GetCurrentAdminUser(rows, Some(CreateAccessToken(SessionClaims(u.username, userId, ROLE_ADMIN), None, issuedAt, key)),
                                key, now) == Failure(AdminRequired)
  {
    var token := CreateAccessToken(SessionClaims(u.username, userId, ROLE_ADMIN), None, issuedAt, key);
    SessionTokenRoundTrip(u.username, userId, ROLE_ADMIN, issuedAt, key, now);
    CurrentUserIff(rows, Some(token), key, now, u);
  }

  /** The role tiers: admin passes both gates, teacher only the teacher-or-admin gate, and
      student, parent and any other role neither. */
  lemma RoleTiers(rows: seq<User>, credentials: Option<Token>, key: string, now: int)
    requires GetCurrentUser(rows, credentials, key, now).Success?
    ensures var u := GetCurrentUser(rows, credentials, key, now).value;
      && (GetCurrentAdminUser(rows, credentials, key, now).Success? <==> u.role == "admin")
      && (GetCurrentTeacherOrAdmin(rows, credentials, key, now).Success? <==> u.role in {"teacher", "admin"})
      && (GetCurrentAdminUser(rows, credentials, key, now).Success? ==>
            GetCurrentTeacherOrAdmin(rows, credentials, key, now).Success?)
  {
  }

  /** `verify_token` ignores the `type` claim, so a password-reset token would pass it; it is
      still refused, because its subject is an e-mail, which contains `@`, and no username that
      passed the registration schema does. */
  lemma ResetTokenNotASession(rows: seq<User>, email: string, issuedAt: int, key: string, now: int)
    requires SchemaUsernames(rows) && ValidEmail(email)
    requires now <= issuedAt + RESET_TOKEN_LIFETIME_SECONDS
    ensures GetCurrentUser(rows, Some(GeneratePasswordResetToken(email, issuedAt, key)), key, now)
            == Failure(CredentialsRejected)
  {
    ResetTokenPassesVerifyToken(email, issuedAt, key, now);
    assert '@' in multiset(email);
    var k :| 0 <= k < |email| && email[k] == '@';
    forall j | 0 <= j < |rows| ensures rows[j].username != email {
      if |rows[j].username| == |email| {
        assert !UsernameChar(email[k]);
      }
    }
  }
}

=== FILE: http.dfy ===
/** The HTTP errors the core raises, as status code, detail text and whether the response carries
    the `WWW-Authenticate: Bearer` challenge of section 3 of RFC 6750. */
module Http {

  datatype HttpError = HttpError(status: int, detail: string, bearerChallenge: bool)

  /** The single 401 every token failure collapses to. */
  const CredentialsRejected: HttpError := HttpError(401, "无效的认证凭证", true)
  /** 400 for a known but deactivated account. */
  const UserDisabled: HttpError := HttpError(400, "用户已被禁用", false)
  const AdminRequired: HttpError := HttpError(403, "需要管理员权限", false)
  const TeacherOrAdminRequired: HttpError := HttpError(403, "需要老师或管理员权限", false)
  /** A request body or query parameter the schema refuses. */
  const ValidationFailed: HttpError := HttpError(422, "Unprocessable Entity", false)
  /** An exception that no handler in the core catches surfaces as a plain 500. */
  const InternalError: HttpError := HttpError(500, "Internal Server Error", false)

  predicate IsUnauthorized(e: HttpError) {
    e.status == 401
  }
}

=== FILE: json.dfy ===
/** JSON values, the shape of the dictionaries the models' `to_dict` methods return. */
module Json {
  import opened Wrappers

  datatype Json =
    | JNull
    | JBool(b: bool)
    | JInt(i: int)
    | JReal(r: real)
    | JStr(s: string)
    | JArr(items: seq<Json>)
    | JObj(fields: map<string, Json>)

  function OptStr(s: Option<string>): Json {
    match s
    case Some(v) => JStr(v)
    case None => JNull
  }

  function OptInt(n: Option<int>): Json {
    match n
    case Some(v) => JInt(v)
    case None => JNull
  }
}

=== FILE: knowledge_tree.dfy ===
/** The `KnowledgePoint` tree of backend/app/models/knowledge_point.py. The table's `parent`
    links are a finite tree: `Node` holds a knowledge point's columns and its children, and a
    node inside a tree is reached from the root by the positions of its children along the way
    (`path`), so a node's parent sits at the path without its last step. Over this tree: the
    code validator, the dotted `full_path`, `to_dict` with its depth bound, the ancestor list
    and the pre-order descendant list. */
module KnowledgeTree {
  import opened Wrappers
  import opened Text
  import opened Query

  /** The columns of one `knowledge_points` row that `to_dict` reports. */
  datatype Info = Info(
    id: int,
    name: string,
    code: string,
    parentId: Option<int>,
    level: int,
    description: Option<string>,
    weight: real,
    problemCount: int,
    createdAt: Option<int>)

  datatype Node = Node(info: Info, children: seq<Node>)

  /** The dictionary `to_dict` returns; `children` is `Absent` when the key is absent. */
  datatype KpDict = KpDict(
    id: int,
    name: string,
    code: string,
    parentId: Option<int>,
    level: int,
    description: Option<string>,
    weight: real,
    problemCount: int,
    fullPath: string,
    createdAt: Option<int>,
    children: Children)

  datatype Children = Absent | Present(items: seq<KpDict>)

  const CODE_ERROR: string := "知识点编码只能包含字母、数字、点和下划线"
  const DEFAULT_MAX_DEPTH: int := 2

  // ---------------------------------------------------------------- validate_code

  /** `code.replace('.', '').replace('_', '')`. */
  function StripSeparators(code: string): (r: string)
    ensures forall c :: c in r <==> c in code && c != '.' && c != '_'
  {
    Filter(code, (c: char) => c != '.' && c != '_')
  }

  /** `validate_code`: what is left after removing dots and underscores must be non-empty and
      alphanumeric. Python's `isalnum` is Unicode-aware, so the character class is a parameter. */
  function ValidateCode(code: string, isAlnum: char -> bool): (r: Result<string, string>)
    ensures r.Success? <==> (exists c :: c in code && c != '.' && c != '_')
                            && forall c :: c in code && c != '.' && c != '_' ==> isAlnum(c)
    ensures r.Success? ==> r.value == code
    ensures r.Failure? ==> r.error == CODE_ERROR
  {
    var rest := StripSeparators(code);
    if rest == [] || exists c :: c in rest && !isAlnum(c) then
      assert rest != [] ==> rest[0] in rest;
      Failure(CODE_ERROR)
    else
      assert rest[0] in rest;
      Success(code)
  }

  /** Joining valid codes with dots gives a valid code. */
  lemma DottedCodesStayValid(a: string, b: string, isAlnum: char -> bool)
    requires ValidateCode(a, isAlnum).Success? && ValidateCode(b, isAlnum).Success?
    ensures ValidateCode(a + "." + b, isAlnum).Success?
  {
    var c :| c in a && c != '.' && c != '_';
    assert c in a + "." + b;
  }

  // ---------------------------------------------------------------- positions in the tree

  /** `path` leads from `root` to a node: each step names one of the current node's children. */
  predicate ValidPath(root: Node, path: seq<nat>)
    decreases |path|, 1
  {
    path == [] || (ValidPath(root, path[..|path| - 1]) && path[|path| - 1] < |At(root, path[..|path| - 1]).children|)
  }

  /** The node `path` leads to. */
  function At(root: Node, path: seq<nat>): Node
    requires ValidPath(root, path)
    decreases |path|, 2
  {
    if path == [] then root else At(root, path[..|path| - 1]).children[path[|path| - 1]]
  }

  /** Every prefix of a path is a path: each node on the way exists. */
  lemma {:induction false} PrefixValid(root: Node, path: seq<nat>, k: nat)
    requires ValidPath(root, path) && k <= |path|
    ensures ValidPath(root, path[..k])
    decreases |path|
  {
    if k < |path| {
      var parent := path[..|path| - 1];
      assert path[..k] == parent[..k];
      PrefixValid(root, parent, k);
    } else {
      assert path[..k] == path;
    }
  }

  lemma PrefixesValid(root: Node, path: seq<nat>)
    requires ValidPath(root, path)
    ensures forall k :: 0 <= k <= |path| ==> ValidPath(root, path[..k])
  {
    forall k | 0 <= k <= |path| ensures ValidPath(root, path[..k]) {
      PrefixValid(root, path, k);
    }
  }

  /** `full_path`: a root's code; below the root, the parent's `full_path`, a dot, and the code. */
  function FullPath(root: Node, path: seq<nat>): (p: string)
    requires ValidPath(root, path)
    ensures |p| >= |At(root, path).info.code|
    decreases |path|
  {
    if path == [] then root.info.code
    else FullPath(root, path[..|path| - 1]) + "." + At(root, path).info.code
  }

  /** The codes on the way from the root to the node at `path`, root first. */
  function CodesTo(root: Node, path: seq<nat>): (codes: seq<string>)
    requires ValidPath(root, path)
    ensures |codes| == |path| + 1
  {
    seq(|path| + 1, i requires 0 <= i <= |path| =>
      PrefixValid(root, path, i);
      At(root, path[..i]).info.code)
  }

  lemma {:induction false} JoinSnoc(parts: seq<string>, x: string, sep: string)
    requires parts != []
    ensures Join(parts + [x], sep) == Join(parts, sep) + sep + x
    decreases |parts|
  {
    if |parts| == 1 {
      assert (parts + [x])[1..] == [x];
    } else {
      assert (parts + [x])[1..] == parts[1..] + [x];
      JoinSnoc(parts[1..], x, sep);
    }
  }

  /** The recursive `full_path` is the codes from the root down to the node, joined by dots. */
  lemma {:induction false} FullPathIsJoinedCodes(root: Node, path: seq<nat>)
    requires ValidPath(root, path)
    ensures FullPath(root, path) == Join(CodesTo(root, path), ".")
    decreases |path|
  {
    if path != [] {
      var parent := path[..|path| - 1];
      FullPathIsJoinedCodes(root, parent);
      forall i | 0 <= i <= |parent| ensures CodesTo(root, path)[i] == CodesTo(root, parent)[i] {
        assert path[..i] == parent[..i];
      }
      assert path[..|path|] == path;
      assert CodesTo(root, path) == CodesTo(root, parent) + [At(root, path).info.code];
      JoinSnoc(CodesTo(root, parent), At(root, path).info.code, ".");
    }
  }

  /** When every code on the way is valid, so is the full path. */
  lemma {:induction false} FullPathIsValidCode(root: Node, path: seq<nat>, isAlnum: char -> bool)
    requires ValidPath(root, path)
    requires forall k :: 0 <= k <= |path| ==>
               ValidPath(root, path[..k]) && ValidateCode(At(root, path[..k]).info.code, isAlnum).Success?
    ensures ValidateCode(FullPath(root, path), isAlnum).Success?
    decreases |path|
  {
    assert path[..0] == [];
    if path != [] {
      var parent := path[..|path| - 1];
      forall k | 0 <= k <= |parent|
        ensures ValidPath(root, parent[..k]) && ValidateCode(At(root, parent[..k]).info.code, isAlnum).Success?
      {
        assert parent[..k] == path[..k];
      }
      FullPathIsValidCode(root, parent, isAlnum);
      assert path[..|path|] == path;
      DottedCodesStayValid(FullPath(root, parent), At(root, path).info.code, isAlnum);
    }
  }

  // ---------------------------------------------------------------- to_dict

  /** The longest chain of children below a node: 0 for a leaf. */
  function Height(n: Node): nat
    decreases n
  {
    if |n.children| == 0 then 0
    else 1 + MaxOf(seq(|n.children|, i requires 0 <= i < |n.children| => Height(n.children[i])))
  }

  /** How many levels of `children` a dictionary nests. */
  function NestingDepth(d: KpDict): nat
    decreases d
  {
    match d.children
    case Absent => 0
    case Present(kids) =>
      1 + MaxOf(seq(|kids|, i requires 0 <= i < |kids| => NestingDepth(kids[i])))
  }

  function MaxOf(s: seq<nat>): (m: nat)
    ensures forall i :: 0 <= i < |s| ==> s[i] <= m
  {
    if s == [] then 0 else var rest := MaxOf(s[1..]); if s[0] > rest then s[0] else rest
  }

  function Min(a: int, b: int): int {
    if a <= b then a else b
  }

  /** The dictionary reports every column of the row as it is. */
  predicate CopiesColumns(d: KpDict, info: Info) {
    && d.id == info.id && d.name == info.name && d.code == info.code && d.parentId == info.parentId
    && d.level == info.level && d.description == info.description && d.weight == info.weight
    && d.problemCount == info.problemCount && d.createdAt == info.createdAt
  }

  /** `to_dict`: the node's columns and its full path; the children, each with one level less,
      only when asked for, some level is left and the node has children. */
  function ToDict(n: Node, fullPath: string, includeChildren: bool, maxDepth: int): (d: KpDict)
    ensures d.id == n.info.id && d.code == n.info.code && d.fullPath == fullPath
    ensures d.children.Present? <==> includeChildren && maxDepth > 0 && |n.children| > 0
    decreases n
  {
    var children :=
      if includeChildren && maxDepth > 0 && |n.children| > 0 then
        Present(seq(|n.children|, i requires 0 <= i < |n.children| =>
          ToDict(n.children[i], fullPath + "." + n.children[i].info.code, true, maxDepth - 1)))
      else Absent;
    KpDict(n.info.id, n.info.name, n.info.code, n.info.parentId, n.info.level, n.info.description,
           n.info.weight, n.info.problemCount, fullPath, n.info.createdAt, children)
  }

  /** What `to_dict` reports: every column of the row as it is, the full path, and, when
      `children` is present, one item per child in order, each that child's own `to_dict` one
      level shallower under the node's path extended by the child's code. */
  lemma {:induction false} ToDictReportsNode(n: Node, fullPath: string, includeChildren: bool, maxDepth: int)
    ensures var d := ToDict(n, fullPath, includeChildren, maxDepth);
            CopiesColumns(d, n.info) && d.fullPath == fullPath
    ensures var d := ToDict(n, fullPath, includeChildren, maxDepth);
            d.children.Present? ==>
              && |d.children.items| == |n.children|
              && forall i :: 0 <= i < |n.children| ==>
                   && d.children.items[i] == ToDict(n.children[i], fullPath + "." + n.children[i].info.code, true, maxDepth - 1)
                   && CopiesColumns(d.children.items[i], n.children[i].info)
                   && d.children.items[i].fullPath == fullPath + "." + n.children[i].info.code
  {
    var d := ToDict(n, fullPath, includeChildren, maxDepth);
    if d.children.Present? {
      forall i | 0 <= i < |n.children|
        ensures CopiesColumns(d.children.items[i], n.children[i].info)
      {
        ToDictReportsNode(n.children[i], fullPath + "." + n.children[i].info.code, true, maxDepth - 1);
      }
    }
  }

  /** The maximum of pointwise minima with `m` is the minimum of the maximum with `m`. */
  lemma {:induction false} MaxOfMins(s: seq<nat>, t: seq<nat>, m: nat)
    requires |s| == |t| && forall i :: 0 <= i < |s| ==> t[i] == Min(s[i], m)
    ensures MaxOf(t) == Min(MaxOf(s), m)
    decreases |s|
  {
    if s != [] {
      MaxOfMins(s[1..], t[1..], m);
    }
  }

  /** The nesting is never deeper than `max_depth`, and reaches it unless the tree is shallower:
      exactly the smaller of the node's height and `max_depth`. */
  lemma {:induction false} ToDictDepth(n: Node, fullPath: string, maxDepth: int)
    ensures NestingDepth(ToDict(n, fullPath, true, maxDepth)) == Min(Height(n), if maxDepth < 0 then 0 else maxDepth)
    decreases n
  {
    var d := ToDict(n, fullPath, true, maxDepth);
    if maxDepth > 0 && |n.children| > 0 {
      var kids := d.children.items;
      var heights := seq(|n.children|, i requires 0 <= i < |n.children| => Height(n.children[i]));
      var depths := seq(|kids|, i requires 0 <= i < |kids| => NestingDepth(kids[i]));
      forall i | 0 <= i < |kids| ensures depths[i] == Min(heights[i], maxDepth - 1) {
        ToDictDepth(n.children[i], fullPath + "." + n.children[i].info.code, maxDepth - 1);
      }
      MaxOfMins(heights, depths, maxDepth - 1);
      assert NestingDepth(d) == 1 + MaxOf(depths);
      assert Height(n) == 1 + MaxOf(heights);
    }
  }

  // ---------------------------------------------------------------- get_ancestors

  /** `to_dict()` of the node at `path`, with the default arguments: no children. */
  function NodeDict(root: Node, path: seq<nat>): KpDict
    requires ValidPath(root, path)
  {
    ToDict(At(root, path), FullPath(root, path), false, DEFAULT_MAX_DEPTH)
  }

  /** `get_ancestors`: the walk up the parent links, each ancestor put in front of those found
      so far. The ancestor at position `i` is the node `i` steps below the root. */
  method GetAncestors(root: Node, path: seq<nat>) returns (ancestors: seq<KpDict>)
    requires ValidPath(root, path)
    ensures |ancestors| == |path|
    ensures forall i :: 0 <= i < |path| ==> ValidPath(root, path[..i]) && ancestors[i] == NodeDict(root, path[..i])
  {
    PrefixesValid(root, path);
    ancestors := [];
    var k := |path|;
    while k > 0
      invariant 0 <= k <= |path| && |ancestors| == |path| - k
      invariant forall j :: k <= j < |path| ==> ancestors[j - k] == NodeDict(root, path[..j])
    {
      k := k - 1;
      ancestors := [NodeDict(root, path[..k])] + ancestors;
    }
  }

  /** The `parent_id` columns agree with the tree: every child names its parent. */
  predicate ParentLinks(n: Node)
    decreases n
  {
    forall i :: 0 <= i < |n.children| ==>
      n.children[i].info.parentId == Some(n.info.id) && ParentLinks(n.children[i])
  }

  lemma {:induction false} ParentLinksBelow(root: Node, path: seq<nat>)
    requires ParentLinks(root) && ValidPath(root, path)
    ensures ParentLinks(At(root, path))
    decreases |path|
  {
    if path != [] {
      ParentLinksBelow(root, path[..|path| - 1]);
    }
  }

  /** Each ancestor is the parent of the next one, and the last is the parent of the node
      itself: the node at `path[..i + 1]` names the one at `path[..i]` as its parent. With
      `GetAncestors`, the list is the chain of `parent` links, root first. */
  lemma AncestorsFollowParentLinks(root: Node, path: seq<nat>, i: nat)
    requires ParentLinks(root) && ValidPath(root, path) && i < |path|
    ensures ValidPath(root, path[..i]) && ValidPath(root, path[..i + 1])
    ensures At(root, path[..i + 1]).info.parentId == Some(NodeDict(root, path[..i]).id)
  {
    PrefixValid(root, path, i + 1);
    var step := path[..i + 1];
    assert step[..i] == path[..i];
    ParentLinksBelow(root, path[..i]);
  }

  // ---------------------------------------------------------------- get_descendants

  /** The proper descendants of `n` in pre-order, each as `to_dict` without children. */
  function Descendants(n: Node, fullPath: string): seq<KpDict>
    decreases n, |n.children| + 1
  {
    DescendantsOfFirst(n, fullPath, |n.children|)
  }

  /** The part of `Descendants` that the first `k` children contribute: each child, then its
      own descendants. */
  function DescendantsOfFirst(n: Node, fullPath: string, k: nat): seq<KpDict>
    requires k <= |n.children|
    decreases n, k
  {
    if k == 0 then []
    else
      var c := n.children[k - 1];
      var childPath := fullPath + "." + c.info.code;
      DescendantsOfFirst(n, fullPath, k - 1) + [ToDict(c, childPath, false, DEFAULT_MAX_DEPTH)]
      + Descendants(c, childPath)
  }

  /** `get_descendants`: the loop over the children, each followed by its own descendants.
      `include_self` puts the node in front and changes nothing else. */
  method GetDescendants(n: Node, fullPath: string, includeSelf: bool) returns (ds: seq<KpDict>)
    ensures ds == (if includeSelf then [ToDict(n, fullPath, false, DEFAULT_MAX_DEPTH)] else [])
                  + Descendants(n, fullPath)
    decreases n
  {
    var head := if includeSelf then [ToDict(n, fullPath, false, DEFAULT_MAX_DEPTH)] else [];
    ds := head;
    var k := 0;
    while k < |n.children|
      invariant 0 <= k <= |n.children|
      invariant ds == head + DescendantsOfFirst(n, fullPath, k)
    {
      var c := n.children[k];
      var childPath := fullPath + "." + c.info.code;
      ds := ds + [ToDict(c, childPath, false, DEFAULT_MAX_DEPTH)];
      var below := GetDescendants(c, childPath, false);
      ds := ds + below;
      k := k + 1;
    }
  }

  /** The number of nodes in a tree. */
  function Size(n: Node): nat
    decreases n, |n.children| + 1
  {
    1 + SizeOfFirst(n, |n.children|)
  }

  function SizeOfFirst(n: Node, k: nat): nat
    requires k <= |n.children|
    decreases n, k
  {
    if k == 0 then 0 else SizeOfFirst(n, k - 1) + Size(n.children[k - 1])
  }

  /** Every node below `n` is listed exactly once: as many entries as the subtree has nodes
      besides `n`. */
  lemma {:induction false} DescendantsCount(n: Node, fullPath: string)
    ensures |Descendants(n, fullPath)| == Size(n) - 1
    decreases n, |n.children| + 1
  {
    DescendantsOfFirstCount(n, fullPath, |n.children|);
  }

  lemma {:induction false} DescendantsOfFirstCount(n: Node, fullPath: string, k: nat)
    requires k <= |n.children|
    ensures |DescendantsOfFirst(n, fullPath, k)| == SizeOfFirst(n, k)
    decreases n, k
  {
    if k > 0 {
      var c := n.children[k - 1];
      DescendantsOfFirstCount(n, fullPath, k - 1);
      DescendantsCount(c, fullPath + "." + c.info.code);
    }
  }
}

=== FILE: kp_helpers.dfy ===
/** The helper functions of frontend/src/types/problem-knowledge-point.ts over the knowledge points
    attached to a problem: the weight total, the primary selection, the weight-ordered copy, the
    one-line display text and the link-request validator. */
module KnowledgePointHelpers {
  import opened Wrappers
  import opened Text
  import opened Query
  import opened Sorting

  /** `problem_relation`: how the point is attached to the problem. */
  datatype Relation = Relation(isPrimary: bool, weight: real)

  /** `KnowledgePointWithRelation`, with the fields the helpers read. */
  datatype LinkedPoint = LinkedPoint(id: int, name: string, relation: Option<Relation>)

  // ---------------------------------------------------------------- calculateTotalWeight

  /** `kp.problem_relation?.weight || 1.0`: a missing or zero weight counts as 1. */
  function CountedWeight(kp: LinkedPoint): real {
    if kp.relation.Some? && kp.relation.value.weight != 0.0 then kp.relation.value.weight else 1.0
  }

  /** `calculateTotalWeight`: the `reduce` from the left, starting at 0. */
  function TotalWeight(kps: seq<LinkedPoint>): real {
    if kps == [] then 0.0 else TotalWeight(kps[..|kps| - 1]) + CountedWeight(kps[|kps| - 1])
  }

  /** Without any relation every point counts once, so the total is the number of points. */
  lemma {:induction false} TotalWeightUnlinked(kps: seq<LinkedPoint>)
    requires forall i :: 0 <= i < |kps| ==> kps[i].relation.None?
    ensures TotalWeight(kps) == |kps| as real
  {
    if kps != [] {
      TotalWeightUnlinked(kps[..|kps| - 1]);
    }
  }

  /** Every point counts at least its own weight when that weight is positive, and at least 1
      otherwise unless the weight is negative: with non-negative weights the total is positive
      for a non-empty list. */
  lemma {:induction false} TotalWeightPositive(kps: seq<LinkedPoint>)
    requires forall i :: 0 <= i < |kps| ==> kps[i].relation.None? || kps[i].relation.value.weight >= 0.0
    ensures kps != [] ==> TotalWeight(kps) > 0.0
    ensures kps == [] ==> TotalWeight(kps) == 0.0
  {
    if kps != [] {
      TotalWeightPositive(kps[..|kps| - 1]);
    }
  }

  lemma {:induction false} TotalWeightAppend(a: seq<LinkedPoint>, b: seq<LinkedPoint>)
    ensures TotalWeight(a + b) == TotalWeight(a) + TotalWeight(b)
    decreases |b|
  {
    if b != [] {
      var init := b[..|b| - 1];
      assert (a + b)[..|a + b| - 1] == a + init;
      TotalWeightAppend(a, init);
    } else {
      assert a + b == a;
    }
  }

  /** Taking out the point at `j` takes its weight out of the total. */
  lemma RemovePointWeight(b: seq<LinkedPoint>, j: nat)
    requires j < |b|
    ensures TotalWeight(b) == TotalWeight(b[..j] + b[j + 1..]) + CountedWeight(b[j])
  {
    var left, x, right := b[..j], b[j], b[j + 1..];
    calc {
      TotalWeight(b);
      { SplitAround(b, j); }
      TotalWeight((left + [x]) + right);
      { TotalWeightAppend(left + [x], right); }
      TotalWeight(left + [x]) + TotalWeight(right);
      { TotalWeightSnoc(left, x); }
      TotalWeight(left) + CountedWeight(x) + TotalWeight(right);
      { TotalWeightAppend(left, right); }
      TotalWeight(left + right) + CountedWeight(x);
    }
  }

  lemma SplitAround(b: seq<LinkedPoint>, j: nat)
    requires j < |b|
    ensures b == (b[..j] + [b[j]]) + b[j + 1..]
  {
  }

  lemma TotalWeightSnoc(a: seq<LinkedPoint>, x: LinkedPoint)
    ensures TotalWeight(a + [x]) == TotalWeight(a) + CountedWeight(x)
  {
    assert (a + [x])[..|a|] == a;
  }

  lemma RemovePointMultiset(b: seq<LinkedPoint>, j: nat)
    requires j < |b|
    ensures multiset(b) == multiset(b[..j] + b[j + 1..]) + multiset{b[j]}
  {
    var left, x, right := b[..j], b[j], b[j + 1..];
    assert b == (left + [x]) + right;
  }

  /** The total does not depend on the order of the points. */
  lemma {:induction false} TotalWeightOfPermutation(a: seq<LinkedPoint>, b: seq<LinkedPoint>)
    requires multiset(a) == multiset(b)
    ensures TotalWeight(a) == TotalWeight(b)
    decreases |a|
  {
    if a != [] {
      var x, init := a[|a| - 1], a[..|a| - 1];
      assert multiset(a) == multiset(init) + multiset{x} by {
        assert a == init + [x];
      }
      var j :| 0 <= j < |b| && b[j] == x by {
        assert x in multiset(b);
      }
      var rest := b[..j] + b[j + 1..];
      RemovePointWeight(b, j);
      RemovePointMultiset(b, j);
      assert multiset(init) == multiset(a) - multiset{x};
      assert multiset(rest) == multiset(b) - multiset{x};
      TotalWeightOfPermutation(init, rest);
      assert TotalWeight(a) == TotalWeight(init) + CountedWeight(x);
    }
  }

  // ---------------------------------------------------------------- getPrimaryKnowledgePoints

  predicate IsPrimary(kp: LinkedPoint) {
    kp.relation.Some? && kp.relation.value.isPrimary
  }

  /** `getPrimaryKnowledgePoints`: the points flagged primary, in their original order. */
  function PrimaryPoints(kps: seq<LinkedPoint>): (r: seq<LinkedPoint>)
    ensures forall kp :: kp in r <==> kp in kps && IsPrimary(kp)
    ensures forall k :: 0 <= k <= |kps| ==> PrimaryPoints(kps[..k]) <= r
  {
    var r := Filter(kps, IsPrimary);
    forall k | 0 <= k <= |kps| ensures Filter(kps[..k], IsPrimary) <= r {
      assert kps == kps[..k] + kps[k..];
      FilterConcat(kps[..k], kps[k..], IsPrimary);
    }
    r
  }

  /** The points `formatKnowledgePointDisplay` lists as related: all the others. */
  function SecondaryPoints(kps: seq<LinkedPoint>): (r: seq<LinkedPoint>)
    ensures forall kp :: kp in r <==> kp in kps && !IsPrimary(kp)
  {
    Filter(kps, (kp: LinkedPoint) => !IsPrimary(kp))
  }

  lemma {:induction false} FilterConcat<T(!new)>(a: seq<T>, b: seq<T>, p: T -> bool)
    ensures Filter(a + b, p) == Filter(a, p) + Filter(b, p)
    decreases |a|
  {
    if a == [] {
      assert a + b == b;
    } else {
      assert (a + b)[1..] == a[1..] + b;
      FilterConcat(a[1..], b, p);
    }
  }

  /** Primary and related points split the list: every point is in exactly one of them, as
      often as in the list. */
  lemma PrimaryAndSecondaryPartition(kps: seq<LinkedPoint>)
    ensures multiset(PrimaryPoints(kps)) + multiset(SecondaryPoints(kps)) == multiset(kps)
    ensures |PrimaryPoints(kps)| + |SecondaryPoints(kps)| == |kps|
  {
    forall x ensures (multiset(PrimaryPoints(kps)) + multiset(SecondaryPoints(kps)))[x] == multiset(kps)[x] {
      FilterCount(kps, IsPrimary, x);
      FilterCount(kps, (kp: LinkedPoint) => !IsPrimary(kp), x);
    }
    assert multiset(PrimaryPoints(kps)) + multiset(SecondaryPoints(kps)) == multiset(kps);
    assert |multiset(kps)| == |kps|;
  }

  // ---------------------------------------------------------------- sortByWeight

  /** `kp.problem_relation?.weight || 0`. */
  function SortKey(kp: LinkedPoint): real {
    if kp.relation.Some? then kp.relation.value.weight else 0.0
  }

  /** The comparator: `a` may stay before `b` when the comparator does not ask to swap them. */
  function WeightOrder(descending: bool): (le: (LinkedPoint, LinkedPoint) -> bool)
    ensures TotalPreorder(le)
  {
    var le := (a: LinkedPoint, b: LinkedPoint) => if descending then SortKey(b) <= SortKey(a) else SortKey(a) <= SortKey(b);
    assert TotalPreorder(le);
    le
  }

  /** `sortByWeight`: a sorted copy, heaviest first unless `order` is 'asc'. The caller's list is
      a value here, so it is untouched by construction. */
  function SortByWeight(kps: seq<LinkedPoint>, descending: bool): (r: seq<LinkedPoint>)
    ensures multiset(r) == multiset(kps)
    ensures descending ==> forall i, j :: 0 <= i < j < |r| ==> SortKey(r[i]) >= SortKey(r[j])
    ensures !descending ==> forall i, j :: 0 <= i < j < |r| ==> SortKey(r[i]) <= SortKey(r[j])
  {
    SortBySorted(kps, WeightOrder(descending));
    SortBy(kps, WeightOrder(descending))
  }

  /** Reordering keeps the weight total. */
  lemma SortKeepsTotalWeight(kps: seq<LinkedPoint>, descending: bool)
    ensures TotalWeight(SortByWeight(kps, descending)) == TotalWeight(kps)
  {
    TotalWeightOfPermutation(SortByWeight(kps, descending), kps);
  }

  // ---------------------------------------------------------------- formatKnowledgePointDisplay

  const NO_POINTS_TEXT: string := "暂无知识点"
  const PRIMARY_PREFIX: string := "主要: "
  const SECONDARY_PREFIX: string := "相关: "
  const SECTION_SEPARATOR: string := "; "
  const NAME_SEPARATOR: string := "、"
  const ELLIPSIS: string := "..."

  /** The `options` argument; a missing object or field takes the default. */
  datatype DisplayOptions = DisplayOptions(showWeight: bool, showPrimary: bool, maxLength: Option<int>)

  const DEFAULT_DISPLAY_OPTIONS: DisplayOptions := DisplayOptions(false, true, None)

  /** A primary point's label: its name, then its weight in parentheses when weights are shown
      and the weight is non-zero. `toFixed(1)` is the parameter `fixed1`. */
  function PrimaryLabel(kp: LinkedPoint, showWeight: bool, fixed1: real -> string): string {
    if showWeight && kp.relation.Some? && kp.relation.value.weight != 0.0 then
      kp.name + "(" + fixed1(kp.relation.value.weight) + ")"
    else kp.name
  }

  function PrimaryText(kps: seq<LinkedPoint>, showWeight: bool, fixed1: real -> string): string {
    var primary := PrimaryPoints(kps);
    Join(seq(|primary|, i requires 0 <= i < |primary| => PrimaryLabel(primary[i], showWeight, fixed1)), NAME_SEPARATOR)
  }

  function SecondaryText(kps: seq<LinkedPoint>): string {
    var secondary := SecondaryPoints(kps);
    Join(seq(|secondary|, i requires 0 <= i < |secondary| => secondary[i].name), NAME_SEPARATOR)
  }

  predicate ShowsPrimary(kps: seq<LinkedPoint>, opts: DisplayOptions) {
    opts.showPrimary && |PrimaryPoints(kps)| > 0
  }

  predicate ShowsSecondary(kps: seq<LinkedPoint>) {
    |SecondaryPoints(kps)| > 0
  }

  /** The sections shown: the primary one when asked for and non-empty, then the related one
      when non-empty. */
  function Sections(kps: seq<LinkedPoint>, opts: DisplayOptions, fixed1: real -> string): seq<string> {
    (if ShowsPrimary(kps, opts) then [PRIMARY_PREFIX + PrimaryText(kps, opts.showWeight, fixed1)] else [])
    + (if ShowsSecondary(kps) then [SECONDARY_PREFIX + SecondaryText(kps)] else [])
  }

  /** `maxLength && result.length > maxLength`: a set, non-zero limit that the text's length in
      UTF-16 code units exceeds. */
  predicate Truncates(maxLength: Option<int>, length: nat) {
    maxLength.Some? && maxLength.value != 0 && length > maxLength.value
  }

  /** The display text: the sections joined by "; ", cut to `maxLength` UTF-16 code units followed
      by "..." when longer, and the placeholder when there is nothing to show. A negative limit
      keeps nothing, as `substring` clamps it to 0. */
  function Display(kps: seq<LinkedPoint>, opts: DisplayOptions, fixed1: real -> string): string {
    var body := Join(Sections(kps, opts, fixed1), SECTION_SEPARATOR);
    if Truncates(opts.maxLength, Utf16Length(body)) then
      Utf16Prefix(body, opts.maxLength.value) + ELLIPSIS
    else if body == "" then NO_POINTS_TEXT
    else body
  }

  /** `formatKnowledgePointDisplay`: the text accumulated section by section. */
  method FormatDisplay(kps: seq<LinkedPoint>, opts: DisplayOptions, fixed1: real -> string) returns (text: string)
    ensures text == Display(kps, opts, fixed1)
  {
    var primary := PrimaryPoints(kps);
    var secondary := SecondaryPoints(kps);
    var result := "";
    if opts.showPrimary && |primary| > 0 {
      result := result + PRIMARY_PREFIX + PrimaryText(kps, opts.showWeight, fixed1);
    }
    if |secondary| > 0 {
      if result != "" {
        result := result + SECTION_SEPARATOR;
      }
      result := result + SECONDARY_PREFIX + SecondaryText(kps);
    }
    assert result == Join(Sections(kps, opts, fixed1), SECTION_SEPARATOR) by {
      var sections := Sections(kps, opts, fixed1);
      if |sections| == 2 {
        assert sections[1..] == [sections[1]];
      }
    }
    if opts.maxLength.Some? && opts.maxLength.value != 0 && Utf16Length(result) > opts.maxLength.value {
      return Utf16Prefix(result, opts.maxLength.value) + ELLIPSIS;
    }
    text := if result == "" then NO_POINTS_TEXT else result;
  }

  /** Without a limit (or with a non-negative one) the placeholder appears exactly when no section
      is shown. */
  lemma PlaceholderIffNothingShown(kps: seq<LinkedPoint>, opts: DisplayOptions, fixed1: real -> string)
    requires opts.maxLength.None? || opts.maxLength.value >= 0
    ensures Display(kps, opts, fixed1) == NO_POINTS_TEXT <==> !ShowsPrimary(kps, opts) && !ShowsSecondary(kps)
  {
    var sections := Sections(kps, opts, fixed1);
    var body := Join(sections, SECTION_SEPARATOR);
    if sections != [] {
      assert IsPrefix(sections[0][..3], body) by {
        if |sections| > 1 {
          assert body == sections[0] + SECTION_SEPARATOR + Join(sections[1..], SECTION_SEPARATOR);
        }
      }
      assert body[0] == sections[0][0];
      assert body[0] != NO_POINTS_TEXT[0];
      var text := Display(kps, opts, fixed1);
      if Truncates(opts.maxLength, Utf16Length(body)) {
        assert text[|text| - 1] == '.';
      }
    }
  }

  /** Without truncation the primary section comes first exactly when it is shown. */
  lemma PrimaryComesFirst(kps: seq<LinkedPoint>, opts: DisplayOptions, fixed1: real -> string)
    requires opts.maxLength.None?
    ensures IsPrefix(PRIMARY_PREFIX, Display(kps, opts, fixed1)) <==> ShowsPrimary(kps, opts)
  {
    var sections := Sections(kps, opts, fixed1);
    var body := Join(sections, SECTION_SEPARATOR);
    var text := Display(kps, opts, fixed1);
    if sections != [] {
      if |sections| > 1 {
        assert body == sections[0] + SECTION_SEPARATOR + Join(sections[1..], SECTION_SEPARATOR);
      }
      assert body[..|sections[0]|] == sections[0];
      if ShowsPrimary(kps, opts) {
        assert body[..|PRIMARY_PREFIX|] == sections[0][..|PRIMARY_PREFIX|];
      } else {
        assert text[0] == SECONDARY_PREFIX[0];
      }
    } else {
      assert text[0] == NO_POINTS_TEXT[0];
    }
  }

  /** A positive limit bounds the text to that many UTF-16 code units and the ellipsis; only the
      placeholder may be longer. A cut text keeps the start of the full one, and on text of one
      code unit per character it is the first `maxLength` characters. */
  lemma DisplayLengthBound(kps: seq<LinkedPoint>, opts: DisplayOptions, fixed1: real -> string)
    requires opts.maxLength.Some? && opts.maxLength.value > 0
    ensures var text := Display(kps, opts, fixed1);
            Utf16Length(text) <= opts.maxLength.value + Utf16Length(ELLIPSIS) || text == NO_POINTS_TEXT
    ensures var body := Join(Sections(kps, opts, fixed1), SECTION_SEPARATOR);
            Truncates(opts.maxLength, Utf16Length(body)) ==>
              Display(kps, opts, fixed1) == Utf16Prefix(body, opts.maxLength.value) + ELLIPSIS
    ensures var body := Join(Sections(kps, opts, fixed1), SECTION_SEPARATOR);
            Truncates(opts.maxLength, Utf16Length(body)) && Utf16Length(body) == |body| ==>
              Display(kps, opts, fixed1) == body[..opts.maxLength.value] + ELLIPSIS
  {
    var body := Join(Sections(kps, opts, fixed1), SECTION_SEPARATOR);
    if Truncates(opts.maxLength, Utf16Length(body)) {
      Utf16LengthAppend(Utf16Prefix(body, opts.maxLength.value), ELLIPSIS);
      if Utf16Length(body) == |body| {
        Utf16PrefixOfOneUnitText(body, opts.maxLength.value);
      }
    }
  }

  // ---------------------------------------------------------------- validateProblemKnowledgePoint

  /** `CreateProblemKnowledgePointRequest`. */
  datatype LinkRequest = LinkRequest(problemId: int, knowledgePointId: int, isPrimary: Option<bool>, weight: Option<real>)

  const INVALID_PROBLEM_ID: string := "题目ID无效"
  const INVALID_KNOWLEDGE_POINT_ID: string := "知识点ID无效"
  const WEIGHT_OUT_OF_RANGE: string := "权重必须在0-2之间"

  /** The three messages in the order the checks run. */
  const LINK_MESSAGES: seq<string> := [INVALID_PROBLEM_ID, INVALID_KNOWLEDGE_POINT_ID, WEIGHT_OUT_OF_RANGE]

  predicate WeightInRange(weight: Option<real>) {
    weight.None? || 0.0 <= weight.value <= 2.0
  }

  /** Whether the check behind `message` fails for `req`. */
  predicate CheckFails(req: LinkRequest, message: string) {
    (message == INVALID_PROBLEM_ID && req.problemId <= 0)
    || (message == INVALID_KNOWLEDGE_POINT_ID && req.knowledgePointId <= 0)
    || (message == WEIGHT_OUT_OF_RANGE && !WeightInRange(req.weight))
  }

  /** `validateProblemKnowledgePoint`: one message per failed check, in the order of the checks;
      valid exactly when no check fails. */
  method ValidateLink(req: LinkRequest) returns (isValid: bool, errors: seq<string>)
    ensures errors == Filter(LINK_MESSAGES, m => CheckFails(req, m))
    ensures isValid <==> errors == []
    ensures isValid <==> req.problemId > 0 && req.knowledgePointId > 0 && WeightInRange(req.weight)
  {
    errors := [];
    if req.problemId <= 0 {
      errors := errors + [INVALID_PROBLEM_ID];
    }
    if req.knowledgePointId <= 0 {
      errors := errors + [INVALID_KNOWLEDGE_POINT_ID];
    }
    if req.weight.Some? && (req.weight.value < 0.0 || req.weight.value > 2.0) {
      errors := errors + [WEIGHT_OUT_OF_RANGE];
    }
    isValid := |errors| == 0;
    LinkErrorsInOrder(req);
  }

  /** The reference list, unfolded check by check. */
  lemma LinkErrorsInOrder(req: LinkRequest)
    ensures Filter(LINK_MESSAGES, m => CheckFails(req, m))
            == (if req.problemId <= 0 then [INVALID_PROBLEM_ID] else [])
               + (if req.knowledgePointId <= 0 then [INVALID_KNOWLEDGE_POINT_ID] else [])
               + (if WeightInRange(req.weight) then [] else [WEIGHT_OUT_OF_RANGE])
  {
    var p := m => CheckFails(req, m);
    assert INVALID_PROBLEM_ID != INVALID_KNOWLEDGE_POINT_ID by {
      assert INVALID_PROBLEM_ID[0] != INVALID_KNOWLEDGE_POINT_ID[0];
    }
    assert INVALID_PROBLEM_ID != WEIGHT_OUT_OF_RANGE by {
      assert INVALID_PROBLEM_ID[0] != WEIGHT_OUT_OF_RANGE[0];
    }
    assert INVALID_KNOWLEDGE_POINT_ID != WEIGHT_OUT_OF_RANGE by {
      assert INVALID_KNOWLEDGE_POINT_ID[0] != WEIGHT_OUT_OF_RANGE[0];
    }
    assert p(INVALID_PROBLEM_ID) <==> req.problemId <= 0;
    assert p(INVALID_KNOWLEDGE_POINT_ID) <==> req.knowledgePointId <= 0;
    assert p(WEIGHT_OUT_OF_RANGE) <==> !WeightInRange(req.weight);
    var all := LINK_MESSAGES;
    assert all[1..] == [INVALID_KNOWLEDGE_POINT_ID, WEIGHT_OUT_OF_RANGE];
    assert all[1..][1..] == [WEIGHT_OUT_OF_RANGE];
    assert all[1..][1..][1..] == [];
    assert Filter(all[1..][1..], p) == (if WeightInRange(req.weight) then [] else [WEIGHT_OUT_OF_RANGE]);
    assert Filter(all[1..], p)
           == (if req.knowledgePointId <= 0 then [INVALID_KNOWLEDGE_POINT_ID] else []) + Filter(all[1..][1..], p);
    assert Filter(all, p) == (if req.problemId <= 0 then [INVALID_PROBLEM_ID] else []) + Filter(all[1..], p);
  }
}

=== FILE: like.dfy ===
/** SQL `LIKE` / `ILIKE` pattern matching, as the search queries use it with the pattern
    `'%' + keyword + '%'`. */
module Like {
  import opened Text

  /** `s LIKE p`: `%` matches any run of characters, `_` any single character, and every other
      character itself. */
  predicate LikeMatch(s: string, p: string)
    decreases |p|, |s|
  {
    if p == [] then s == []
    else if p[0] == '%' then LikeMatch(s, p[1..]) || (s != [] && LikeMatch(s[1..], p))
    else s != [] && (p[0] == '_' || p[0] == s[0]) && LikeMatch(s[1..], p[1..])
  }

  /** `s ILIKE p`: both sides case-folded first. */
  predicate ILikeMatch(s: string, p: string) {
    LikeMatch(LowerStr(s), LowerStr(p))
  }

  /** The pattern the search queries build from a user keyword. */
  function SubstringPattern(keyword: string): (p: string)
    ensures |p| == |keyword| + 2 && p[0] == '%' && p[|p| - 1] == '%'
  {
    "%" + keyword + "%"
  }

  predicate NoWildcards(k: string) {
    forall i :: 0 <= i < |k| ==> k[i] != '%' && k[i] != '_' && k[i] != '\\'
  }

  lemma {:induction false} PercentMatchesAll(s: string)
    ensures LikeMatch(s, "%")
    decreases |s|
  {
    if s != [] {
      PercentMatchesAll(s[1..]);
    }
  }

  /** A wildcard-free `k` followed by `%` matches exactly the strings that start with `k`. */
  lemma {:induction false} LiteralPrefix(s: string, k: string)
    requires NoWildcards(k)
    ensures LikeMatch(s, k + "%") <==> IsPrefix(k, s)
    decreases |k|
  {
    if k == [] {
      assert k + "%" == "%";
      PercentMatchesAll(s);
    } else {
      assert (k + "%")[1..] == k[1..] + "%";
      if s != [] {
        LiteralPrefix(s[1..], k[1..]);
      }
      if s != [] && s[0] == k[0] && IsPrefix(k[1..], s[1..]) {
        assert s[..|k|] == [s[0]] + s[1..][..|k| - 1];
        assert k == [k[0]] + k[1..];
      }
      if IsPrefix(k, s) {
        assert s[0] == s[..|k|][0] == k[0];
        assert s[1..][..|k| - 1] == s[..|k|][1..];
      }
    }
  }

  /** A leading `%` lets the rest of the pattern match any suffix. */
  predicate SuffixMatches(s: string, q: string, i: int) {
    0 <= i <= |s| && LikeMatch(s[i..], q)
  }

  lemma {:induction false} LeadingPercent(s: string, q: string)
    ensures LikeMatch(s, "%" + q) <==> exists i :: SuffixMatches(s, q, i)
    decreases |s|
  {
    var p := "%" + q;
    assert p[1..] == q;
    if LikeMatch(s, q) {
      assert s[0..] == s;
      assert SuffixMatches(s, q, 0);
    }
    if s == [] {
      if exists i :: SuffixMatches(s, q, i) {
        var i :| SuffixMatches(s, q, i);
        assert s[i..] == s;
      }
    } else {
      LeadingPercent(s[1..], q);
      if exists i :: SuffixMatches(s[1..], q, i) {
        var i :| SuffixMatches(s[1..], q, i);
        assert s[1..][i..] == s[i + 1..];
        assert SuffixMatches(s, q, i + 1);
      }
      if exists i :: SuffixMatches(s, q, i) {
        var i :| SuffixMatches(s, q, i);
        if i > 0 {
          assert s[1..][i - 1..] == s[i..];
          assert SuffixMatches(s[1..], q, i - 1);
        } else {
          assert s[0..] == s;
        }
      }
    }
  }

  /** For a keyword without wildcard characters, `LIKE '%keyword%'` is substring search. */
  lemma {:induction false} SubstringPatternIsContains(s: string, k: string)
    requires NoWildcards(k)
    ensures LikeMatch(s, SubstringPattern(k)) <==> Contains(s, k)
  {
    assert SubstringPattern(k) == "%" + (k + "%");
    LeadingPercent(s, k + "%");
    ContainsIff(s, k);
    if exists i :: SuffixMatches(s, k + "%", i) {
      var i :| SuffixMatches(s, k + "%", i);
      LiteralPrefix(s[i..], k);
      assert s[i..][..|k|] == s[i..i + |k|];
      assert OccursAt(s, k, i);
    }
    if exists i :: OccursAt(s, k, i) {
      var i :| OccursAt(s, k, i);
      LiteralPrefix(s[i..], k);
      assert s[i..][..|k|] == s[i..i + |k|];
      assert SuffixMatches(s, k + "%", i);
    }
  }

  lemma LowerKeepsNoWildcards(k: string)
    requires NoWildcards(k)
    ensures NoWildcards(LowerStr(k))
  {
  }

  /** ... and `ILIKE '%keyword%'` is case-insensitive substring search. */
  lemma ILikeSubstring(s: string, k: string)
    requires NoWildcards(k)
    ensures ILikeMatch(s, SubstringPattern(k)) <==> ContainsIgnoringCase(s, k)
  {
    var lk := LowerStr(k);
    assert LowerStr(SubstringPattern(k)) == SubstringPattern(lk);
    LowerKeepsNoWildcards(k);
    SubstringPatternIsContains(LowerStr(s), lk);
  }
}

=== FILE: practice.dfy ===
/** The `PracticeSession` record of backend/app/models/practice.py: its defaults, the completion
    test, the completion rate, and `complete_session`, a one-shot transition that stamps the end
    time and derives the session's statistics. Times are whole seconds since the epoch; the
    clock is the `now` parameter. */
module Practice {
  import opened Wrappers

  const STATUS_IN_PROGRESS: string := "in_progress"
  const STATUS_COMPLETED: string := "completed"
  const DEFAULT_SESSION_TYPE: string := "random"

  /** The columns `complete_session` reads or writes. */
  datatype SessionState = SessionState(
    status: string,
    totalQuestions: int,
    completedQuestions: int,
    correctQuestions: int,
    startedAt: Option<int>,
    completedAt: Option<int>,
    totalDuration: Option<int>,
    averageTimePerQuestion: Option<real>,
    accuracyRate: Option<real>)

  /** `is_completed`. */
  predicate IsCompleted(s: SessionState) {
    s.status == STATUS_COMPLETED
  }

  /** `completion_rate`: a percentage, 0 for a session without questions. */
  function CompletionRate(s: SessionState): (rate: real)
    ensures s.totalQuestions == 0 ==> rate == 0.0
    ensures s.totalQuestions != 0 ==> rate * s.totalQuestions as real == s.completedQuestions as real * 100.0
    ensures 0 <= s.completedQuestions <= s.totalQuestions ==> 0.0 <= rate <= 100.0
  {
    if s.totalQuestions == 0 then 0.0
    else
      var rate := s.completedQuestions as real / s.totalQuestions as real * 100.0;
      assert 0 <= s.completedQuestions <= s.totalQuestions ==> 0.0 <= rate <= 100.0 by {
        if 0 <= s.completedQuestions <= s.totalQuestions {
          PercentBounds(s.completedQuestions, s.totalQuestions);
        }
      }
      rate
  }

  lemma PercentBounds(part: int, whole: int)
    requires 0 <= part <= whole && whole > 0
    ensures 0.0 <= part as real / whole as real * 100.0 <= 100.0
  {
    assert part as real / whole as real <= 1.0 by {
      assert part as real <= whole as real;
    }
  }

  /** The state `complete_session` leaves behind. An open session becomes "completed" at `now`;
      its duration is measured when it has a start time; the time per question is derived when
      some question was completed and the duration is set and non-zero; the accuracy when some
      question was completed. A completed session is left as it is. */
  function Complete(s: SessionState, now: int): (t: SessionState)
    ensures IsCompleted(s) ==> t == s
    ensures IsCompleted(t)
    ensures !IsCompleted(s) ==> t.completedAt == Some(now)
    ensures !IsCompleted(s) ==>
              t.totalDuration == (if s.startedAt.Some? then Some(now - s.startedAt.value) else s.totalDuration)
    ensures !IsCompleted(s) && s.completedQuestions > 0 ==>
              t.accuracyRate.Some? && t.accuracyRate.value * s.completedQuestions as real == s.correctQuestions as real * 100.0
    ensures s.completedQuestions <= 0 ==> t.accuracyRate == s.accuracyRate
    ensures !IsCompleted(s) && s.completedQuestions > 0 && t.totalDuration.Some? && t.totalDuration.value != 0 ==>
              t.averageTimePerQuestion.Some?
              && t.averageTimePerQuestion.value * s.completedQuestions as real == t.totalDuration.value as real
    ensures (s.completedQuestions <= 0 || t.totalDuration.None? || t.totalDuration.value == 0) ==>
              t.averageTimePerQuestion == s.averageTimePerQuestion
    ensures t.totalQuestions == s.totalQuestions && t.completedQuestions == s.completedQuestions
    ensures t.correctQuestions == s.correctQuestions && t.startedAt == s.startedAt
  {
    if IsCompleted(s) then s
    else
      var duration := if s.startedAt.Some? then Some(now - s.startedAt.value) else s.totalDuration;
      var average :=
        if s.completedQuestions > 0 && duration.Some? && duration.value != 0 then
          Some(duration.value as real / s.completedQuestions as real)
        else s.averageTimePerQuestion;
      var accuracy :=
        if s.completedQuestions > 0 then Some(s.correctQuestions as real / s.completedQuestions as real * 100.0)
        else s.accuracyRate;
      s.(status := STATUS_COMPLETED, completedAt := Some(now), totalDuration := duration,
         averageTimePerQuestion := average, accuracyRate := accuracy)
  }

  /** Completing is one-shot: a second call, at whatever time, changes nothing. */
  lemma CompleteIdempotent(s: SessionState, now: int, later: int)
    ensures Complete(Complete(s, now), later) == Complete(s, now)
  {
  }

  /** With consistent counters the derived accuracy is a percentage. */
  lemma CompletedAccuracyIsPercentage(s: SessionState, now: int)
    requires !IsCompleted(s) && 0 <= s.correctQuestions <= s.completedQuestions && s.completedQuestions > 0
    ensures var t := Complete(s, now); t.accuracyRate.Some? && 0.0 <= t.accuracyRate.value <= 100.0
  {
    PercentBounds(s.correctQuestions, s.completedQuestions);
  }

  /** One row of `practice_sessions`. */
  class PracticeSession {
    var id: int
    var userId: int
    var sessionType: string
    var status: string
    var totalQuestions: int
    var completedQuestions: int
    var correctQuestions: int
    var startedAt: Option<int>
    var completedAt: Option<int>
    var totalDuration: Option<int>
    var averageTimePerQuestion: Option<real>
    var accuracyRate: Option<real>

    function State(): SessionState
      reads this
    {
      SessionState(status, totalQuestions, completedQuestions, correctQuestions, startedAt, completedAt,
                   totalDuration, averageTimePerQuestion, accuracyRate)
    }

    /** A new session: type "random", in progress, all counters 0, nothing derived yet. The start
        time is the database's `now()` at insertion, absent until then. */
    constructor(id: int, userId: int, startedAt: Option<int>)
      ensures this.id == id && this.userId == userId && sessionType == DEFAULT_SESSION_TYPE
      ensures status == STATUS_IN_PROGRESS && !IsCompleted(State())
      ensures totalQuestions == 0 && completedQuestions == 0 && correctQuestions == 0
      ensures this.startedAt == startedAt && completedAt.None? && totalDuration.None?
      ensures averageTimePerQuestion.None? && accuracyRate.None?
      ensures CompletionRate(State()) == 0.0
    {
      this.id := id;
      this.userId := userId;
      sessionType := DEFAULT_SESSION_TYPE;
      status := STATUS_IN_PROGRESS;
      totalQuestions := 0;
      completedQuestions := 0;
      correctQuestions := 0;
      this.startedAt := startedAt;
      completedAt := None;
      totalDuration := None;
      averageTimePerQuestion := None;
      accuracyRate := None;
    }

    /** `complete_session`: the assignments in the order the source makes them, each guarded as
        there; a completed session is not touched. */
    method CompleteSession(now: int)
      modifies this
      ensures State() == Complete(old(State()), now)
      ensures id == old(id) && userId == old(userId) && sessionType == old(sessionType)
      ensures old(IsCompleted(State())) ==> unchanged(this)
    {
      if status == STATUS_COMPLETED {
        return;
      }
      status := STATUS_COMPLETED;
      completedAt := Some(now);
      if startedAt.Some? {
        totalDuration := Some(now - startedAt.value);
      }
      if completedQuestions > 0 && totalDuration.Some? && totalDuration.value != 0 {
        averageTimePerQuestion := Some(totalDuration.value as real / completedQuestions as real);
      }
      if completedQuestions > 0 {
        accuracyRate := Some(correctQuestions as real / completedQuestions as real * 100.0);
      }
    }
  }
}

=== FILE: problem_crud.dfy ===
/** The problem-bank data-access layer of backend/app/crud/problem.py. The `problems` and
    `problem_knowledge_points` tables and the set of existing knowledge-point ids live in a
    `ProblemBank`; the queries are functions over its rows, and the operations that write are its
    methods. */
module ProblemCrud {
  import opened Wrappers
  import opened Json
  import opened Text
  import opened Like
  import opened Sorting
  import opened Query
  import opened ProblemModel
  import opened ProblemSchemas

  /** A flush that fails on a second link with the same (problem, knowledge point) primary key.
      Whether the session reports it from its identity map or the database rejects the insert,
      the exception escapes the CRUD function and the route answers 500. */
  datatype DbError = DuplicateLinkKey

  // ---------------------------------------------------------------- lookups

  /** `get_problem`: by id, soft-deleted rows included. */
  function GetProblem(rows: seq<Problem>, id: int): (r: Option<Problem>)
    ensures r.Some? ==> r.value in rows && r.value.id == id
    ensures r.None? <==> forall j :: 0 <= j < |rows| ==> rows[j].id != id
  {
    First(rows, (p: Problem) => p.id == id)
  }

  function IndexOfProblem(rows: seq<Problem>, id: int): (i: int)
    ensures -1 <= i < |rows|
    ensures i >= 0 ==> rows[i].id == id
    ensures i < 0 <==> forall j :: 0 <= j < |rows| ==> rows[j].id != id
  {
    IndexWhere(rows, (p: Problem) => p.id == id)
  }

  predicate UniqueProblemIds(rows: seq<Problem>) {
    forall i, j :: 0 <= i < j < |rows| ==> rows[i].id != rows[j].id
  }

  function ProblemIds(rows: seq<Problem>): set<int> {
    set p | p in rows :: p.id
  }

  /** The problem `id` is linked to knowledge point `kpId`. */
  predicate Linked(links: seq<Link>, id: int, kpId: int) {
    exists i :: 0 <= i < |links| && links[i].problemId == id && links[i].knowledgePointId == kpId
  }

  /** The composite primary key of `problem_knowledge_points`. */
  predicate UniqueLinks(links: seq<Link>) {
    forall i, j :: 0 <= i < j < |links| ==>
      links[i].problemId != links[j].problemId || links[i].knowledgePointId != links[j].knowledgePointId
  }

  // ---------------------------------------------------------------- ORDER BY

  /** The sortable columns of `problems`. */
  datatype Column =
    | IdColumn | TitleColumn | ContentColumn | ContentTypeColumn | CorrectAnswerColumn | SolutionColumn
    | SolutionTypeColumn | DifficultyColumn | SourceTypeColumn | SourceYearColumn | SourceDetailColumn
    | EstimatedTimeColumn | IsPublishedColumn | IsDeletedColumn | ReviewedAtColumn | ReviewStatusColumn
    | TotalAttemptsColumn | CorrectAttemptsColumn | CreatedByColumn | CreatedAtColumn

  function ColumnName(c: Column): string {
    match c
    case IdColumn => "id"
    case TitleColumn => "title"
    case ContentColumn => "content"
    case ContentTypeColumn => "content_type"
    case CorrectAnswerColumn => "correct_answer"
    case SolutionColumn => "solution"
    case SolutionTypeColumn => "solution_type"
    case DifficultyColumn => "difficulty"
    case SourceTypeColumn => "source_type"
    case SourceYearColumn => "source_year"
    case SourceDetailColumn => "source_detail"
    case EstimatedTimeColumn => "estimated_time"
    case IsPublishedColumn => "is_published"
    case IsDeletedColumn => "is_deleted"
    case ReviewedAtColumn => "reviewed_at"
    case ReviewStatusColumn => "review_status"
    case TotalAttemptsColumn => "total_attempts"
    case CorrectAttemptsColumn => "correct_attempts"
    case CreatedByColumn => "created_by"
    case CreatedAtColumn => "created_at"
  }

  /** `getattr(Problem, sort_by, Problem.created_at)`: a modelled column by its name, and
      `created_at` for any other name. That includes `updated_at`, `success_rate`,
      `reviewed_by` and `options`, real columns the records leave out. */
  function ColumnNamed(name: string): (c: Column)
    ensures ColumnName(c) == name || c == CreatedAtColumn
  {
    if name == "id" then IdColumn
    else if name == "title" then TitleColumn
    else if name == "content" then ContentColumn
    else if name == "content_type" then ContentTypeColumn
    else if name == "correct_answer" then CorrectAnswerColumn
    else if name == "solution" then SolutionColumn
    else if name == "solution_type" then SolutionTypeColumn
    else if name == "difficulty" then DifficultyColumn
    else if name == "source_type" then SourceTypeColumn
    else if name == "source_year" then SourceYearColumn
    else if name == "source_detail" then SourceDetailColumn
    else if name == "estimated_time" then EstimatedTimeColumn
    else if name == "is_published" then IsPublishedColumn
    else if name == "is_deleted" then IsDeletedColumn
    else if name == "reviewed_at" then ReviewedAtColumn
    else if name == "review_status" then ReviewStatusColumn
    else if name == "total_attempts" then TotalAttemptsColumn
    else if name == "correct_attempts" then CorrectAttemptsColumn
    else if name == "created_by" then CreatedByColumn
    else CreatedAtColumn
  }

  /** Every column is found under its own name. */
  lemma ColumnNamedRoundTrip(c: Column)
    ensures ColumnNamed(ColumnName(c)) == c
  {
    match c
    case IdColumn =>
    case TitleColumn =>
    case ContentColumn =>
    case ContentTypeColumn =>
    case CorrectAnswerColumn =>
    case SolutionColumn =>
    case SolutionTypeColumn =>
    case DifficultyColumn =>
    case SourceTypeColumn =>
    case SourceYearColumn =>
    case SourceDetailColumn =>
    case EstimatedTimeColumn =>
    case IsPublishedColumn =>
    case IsDeletedColumn =>
    case ReviewedAtColumn =>
    case ReviewStatusColumn =>
    case TotalAttemptsColumn =>
    case CorrectAttemptsColumn =>
    case CreatedByColumn =>
    case CreatedAtColumn =>
  }

  /** A cell as `ORDER BY` sees it. */
  datatype SortValue = NullValue | IntValue(i: int) | TextValue(s: string) | BoolValue(b: bool)

  function OptText(s: Option<string>): SortValue {
    if s.Some? then TextValue(s.value) else NullValue
  }

  function OptInteger(n: Option<int>): SortValue {
    if n.Some? then IntValue(n.value) else NullValue
  }

  function SortKey(p: Problem, c: Column): SortValue {
    match c
    case IdColumn => IntValue(p.id)
    case TitleColumn => TextValue(p.title)
    case ContentColumn => TextValue(p.content)
    case ContentTypeColumn => TextValue(p.contentType)
    case CorrectAnswerColumn => TextValue(p.correctAnswer)
    case SolutionColumn => OptText(p.solution)
    case SolutionTypeColumn => OptText(p.solutionType)
    case DifficultyColumn => IntValue(p.difficulty)
    case SourceTypeColumn => OptText(p.sourceType)
    case SourceYearColumn => OptInteger(p.sourceYear)
    case SourceDetailColumn => OptText(p.sourceDetail)
    case EstimatedTimeColumn => OptInteger(p.estimatedTime)
    case IsPublishedColumn => BoolValue(p.isPublished)
    case IsDeletedColumn => BoolValue(p.isDeleted)
    case ReviewedAtColumn => OptInteger(p.reviewedAt)
    case ReviewStatusColumn => TextValue(p.reviewStatus)
    case TotalAttemptsColumn => IntValue(p.totalAttempts)
    case CorrectAttemptsColumn => IntValue(p.correctAttempts)
    case CreatedByColumn => IntValue(p.createdBy)
    case CreatedAtColumn => IntValue(p.createdAt)
  }

  /** Values of one column compare among themselves; NULL sorts after every value, as in
      PostgreSQL's ascending order. Mixed kinds never meet within a column and are ranked only
      to keep the order total. */
  function Rank(v: SortValue): nat {
    match v
    case IntValue(_) => 0
    case TextValue(_) => 1
    case BoolValue(_) => 2
    case NullValue => 3
  }

  predicate ValueLe(a: SortValue, b: SortValue) {
    || Rank(a) < Rank(b)
    || (a.NullValue? && b.NullValue?)
    || (a.IntValue? && b.IntValue? && a.i <= b.i)
    || (a.TextValue? && b.TextValue? && LexLe(a.s, b.s))
    || (a.BoolValue? && b.BoolValue? && (!a.b || b.b))
  }

  lemma ValueLeIsPreorder()
    ensures forall a, b :: ValueLe(a, b) || ValueLe(b, a)
    ensures forall a, b, c :: ValueLe(a, b) && ValueLe(b, c) ==> ValueLe(a, c)
  {
    forall a, b ensures ValueLe(a, b) || ValueLe(b, a) {
      if a.TextValue? && b.TextValue? {
        LexLeTotal(a.s, b.s);
      }
    }
    forall a, b, c | ValueLe(a, b) && ValueLe(b, c) ensures ValueLe(a, c) {
      if a.TextValue? && b.TextValue? && c.TextValue? && LexLe(a.s, b.s) && LexLe(b.s, c.s) {
        LexLeTrans(a.s, b.s, c.s);
      }
    }
  }

  /** `order_by(column.asc())` or `order_by(column.desc())`. Descending reverses the order, so
      NULLs come first there. */
  function Order(c: Column, descending: bool): (Problem, Problem) -> bool {
    if descending then (p: Problem, q: Problem) => ValueLe(SortKey(q, c), SortKey(p, c))
    else (p: Problem, q: Problem) => ValueLe(SortKey(p, c), SortKey(q, c))
  }

  lemma OrderIsPreorder(c: Column, descending: bool)
    ensures TotalPreorder(Order(c, descending))
  {
    ValueLeIsPreorder();
  }

  function Arrange(rows: seq<Problem>, order: Option<(Column, bool)>): (r: seq<Problem>)
    ensures forall x :: x in r <==> x in rows
  {
    if order.None? then rows
    else
      var r := SortBy(rows, Order(order.value.0, order.value.1));
      assert forall x :: x in r <==> x in rows by {
        forall x ensures x in r <==> x in rows {
          SortByMember(rows, Order(order.value.0, order.value.1), x);
        }
      }
      r
  }

  // ---------------------------------------------------------------- WHERE

  /** The keyword filter `title ILIKE '%kw%' OR content ILIKE '%kw%' OR solution ILIKE '%kw%'`;
      a NULL solution matches nothing. */
  predicate Mentions(p: Problem, keyword: string) {
    var pattern := SubstringPattern(keyword);
    || ILikeMatch(p.title, pattern)
    || ILikeMatch(p.content, pattern)
    || (p.solution.Some? && ILikeMatch(p.solution.value, pattern))
  }

  /** A keyword without LIKE wildcards is searched for as a case-insensitive substring. */
  lemma MentionsPlainKeyword(p: Problem, keyword: string)
    requires NoWildcards(keyword)
    ensures Mentions(p, keyword) <==>
              || ContainsIgnoringCase(p.title, keyword)
              || ContainsIgnoringCase(p.content, keyword)
              || (p.solution.Some? && ContainsIgnoringCase(p.solution.value, keyword))
  {
    ILikeSubstring(p.title, keyword);
    ILikeSubstring(p.content, keyword);
    if p.solution.Some? {
      ILikeSubstring(p.solution.value, keyword);
    }
  }

  /** One `query.filter(...)` clause. */
  datatype Condition =
    | DifficultyIn(levels: seq<int>)
    | SourceTypeIs(sourceType: string)
    | SourceYearIs(year: int)
    | LinkedTo(knowledgePointId: int)
    | PublishedIs(published: bool)
    | MentionsKeyword(keyword: string)
    | NotDeleted

  predicate Holds(c: Condition, p: Problem, links: seq<Link>) {
    match c
    case DifficultyIn(levels) => p.difficulty in levels
    case SourceTypeIs(t) => p.sourceType == Some(t)
    case SourceYearIs(y) => p.sourceYear == Some(y)
    case LinkedTo(kp) => Linked(links, p.id, kp)
    case PublishedIs(b) => p.isPublished == b
    case MentionsKeyword(k) => Mentions(p, k)
    case NotDeleted => !p.isDeleted
  }

  predicate AllHold(conds: seq<Condition>, p: Problem, links: seq<Link>) {
    conds == [] || (Holds(conds[0], p, links) && AllHold(conds[1..], p, links))
  }

  /** The rows `get_problems` selects with filter `f`: every filter field that is set and truthy
      constrains the row (an empty list, an empty string and 0 do not). */
  predicate PassesFilter(p: Problem, f: ProblemFilter, links: seq<Link>) {
    && (f.difficulty.Some? && f.difficulty.value != [] ==> p.difficulty in f.difficulty.value)
    && (f.sourceType.Some? && f.sourceType.value != "" ==> p.sourceType == f.sourceType)
    && (f.sourceYear.Some? && f.sourceYear.value != 0 ==> p.sourceYear == f.sourceYear)
    && (f.knowledgePointId.Some? && f.knowledgePointId.value != 0 ==> Linked(links, p.id, f.knowledgePointId.value))
    && (f.isPublished.Some? ==> p.isPublished == f.isPublished.value)
    && (f.search.Some? && f.search.value != "" ==> Mentions(p, f.search.value))
  }

  /** One `if filters.x: query = query.filter(...)` step: the clause, when the filter value is set. */
  function ClauseIf(set_: bool, c: Condition): (r: seq<Condition>)
    ensures forall d :: d in r <==> set_ && d == c
  {
    if set_ then [c] else []
  }

  /** The clauses `get_problems` adds for a filter, in the order it adds them. */
  function FilterClauses(f: ProblemFilter): seq<Condition> {
    DifficultyClause(f) + SourceTypeClause(f) + SourceYearClause(f) + KnowledgePointClause(f)
    + PublishedClause(f) + SearchClause(f)
  }

  function QueryClauses(filter: Option<ProblemFilter>): seq<Condition> {
    (if filter.Some? then FilterClauses(filter.value) else []) + [NotDeleted]
  }

  lemma {:induction false} AllHoldAppend(a: seq<Condition>, b: seq<Condition>, p: Problem, links: seq<Link>)
    ensures AllHold(a + b, p, links) <==> AllHold(a, p, links) && AllHold(b, p, links)
  {
    if a != [] {
      AllHoldAppend(a[1..], b, p, links);
      assert (a + b)[1..] == a[1..] + b;
    } else {
      assert a + b == b;
    }
  }

  lemma AllHoldClauseIf(set_: bool, c: Condition, p: Problem, links: seq<Link>)
    ensures AllHold(ClauseIf(set_, c), p, links) <==> (set_ ==> Holds(c, p, links))
  {
    if set_ {
      assert AllHold([c][1..], p, links);
    }

  }

  function DifficultyClause(f: ProblemFilter): seq<Condition> {
    ClauseIf(f.difficulty.Some? && f.difficulty.value != [], DifficultyIn(f.difficulty.GetOr([])))
  }
  function SourceTypeClause(f: ProblemFilter): seq<Condition> {
    ClauseIf(f.sourceType.Some? && f.sourceType.value != "", SourceTypeIs(f.sourceType.GetOr("")))
  }
  function SourceYearClause(f: ProblemFilter): seq<Condition> {
    ClauseIf(f.sourceYear.Some? && f.sourceYear.value != 0, SourceYearIs(f.sourceYear.GetOr(0)))
  }
  function KnowledgePointClause(f: ProblemFilter): seq<Condition> {
    ClauseIf(f.knowledgePointId.Some? && f.knowledgePointId.value != 0, LinkedTo(f.knowledgePointId.GetOr(0)))
  }
  function PublishedClause(f: ProblemFilter): seq<Condition> {
    ClauseIf(f.isPublished.Some?, PublishedIs(f.isPublished.GetOr(false)))
  }
  function SearchClause(f: ProblemFilter): seq<Condition> {
    ClauseIf(f.search.Some? && f.search.value != "", MentionsKeyword(f.search.GetOr("")))
  }

  lemma FilterClausesSplit(f: ProblemFilter, links: seq<Link>, p: Problem)
    ensures AllHold(FilterClauses(f), p, links) <==>
              && AllHold(DifficultyClause(f), p, links) && AllHold(SourceTypeClause(f), p, links)
              && AllHold(SourceYearClause(f), p, links) && AllHold(KnowledgePointClause(f), p, links)
              && AllHold(PublishedClause(f), p, links) && AllHold(SearchClause(f), p, links)
  {
    var c1, c2, c3 := DifficultyClause(f), SourceTypeClause(f), SourceYearClause(f);
    var c4, c5, c6 := KnowledgePointClause(f), PublishedClause(f), SearchClause(f);
    AllHoldAppend(c1 + c2 + c3 + c4 + c5, c6, p, links);
    AllHoldAppend(c1 + c2 + c3 + c4, c5, p, links);
    AllHoldAppend(c1 + c2 + c3, c4, p, links);
    AllHoldAppend(c1 + c2, c3, p, links);
    AllHoldAppend(c1, c2, p, links);
  }

  lemma FilterClausesMeanPasses(f: ProblemFilter, links: seq<Link>, p: Problem)
    ensures AllHold(FilterClauses(f), p, links) <==> PassesFilter(p, f, links)
  {
    FilterClausesSplit(f, links, p);
    assert AllHold(DifficultyClause(f), p, links) <==> (f.difficulty.Some? && f.difficulty.value != [] ==> p.difficulty in f.difficulty.value) by {
      AllHoldClauseIf(f.difficulty.Some? && f.difficulty.value != [], DifficultyIn(f.difficulty.GetOr([])), p, links);
    }
    assert AllHold(SourceTypeClause(f), p, links) <==> (f.sourceType.Some? && f.sourceType.value != "" ==> p.sourceType == f.sourceType) by {
      AllHoldClauseIf(f.sourceType.Some? && f.sourceType.value != "", SourceTypeIs(f.sourceType.GetOr("")), p, links);
    }
    assert AllHold(SourceYearClause(f), p, links) <==> (f.sourceYear.Some? && f.sourceYear.value != 0 ==> p.sourceYear == f.sourceYear) by {
      AllHoldClauseIf(f.sourceYear.Some? && f.sourceYear.value != 0, SourceYearIs(f.sourceYear.GetOr(0)), p, links);
    }
    assert AllHold(KnowledgePointClause(f), p, links) <==> (f.knowledgePointId.Some? && f.knowledgePointId.value != 0 ==> Linked(links, p.id, f.knowledgePointId.value)) by {
      AllHoldClauseIf(f.knowledgePointId.Some? && f.knowledgePointId.value != 0, LinkedTo(f.knowledgePointId.GetOr(0)), p, links);
    }
    assert AllHold(PublishedClause(f), p, links) <==> (f.isPublished.Some? ==> p.isPublished == f.isPublished.value) by {
      AllHoldClauseIf(f.isPublished.Some?, PublishedIs(f.isPublished.GetOr(false)), p, links);
    }
    assert AllHold(SearchClause(f), p, links) <==> (f.search.Some? && f.search.value != "" ==> Mentions(p, f.search.value)) by {
      AllHoldClauseIf(f.search.Some? && f.search.value != "", MentionsKeyword(f.search.GetOr("")), p, links);
    }
  }

  /** The query's clauses select exactly the listed rows. */
  lemma QueryClausesMeanListed(filter: Option<ProblemFilter>, links: seq<Link>, p: Problem)
    ensures AllHold(QueryClauses(filter), p, links) <==> Listed(p, filter, links)
  {
    if filter.Some? {
      FilterClausesMeanPasses(filter.value, links, p);
    }
    AllHoldClauseIf(true, NotDeleted, p, links);
    AllHoldAppend(if filter.Some? then FilterClauses(filter.value) else [], [NotDeleted], p, links);
  }

  predicate Listed(p: Problem, filter: Option<ProblemFilter>, links: seq<Link>) {
    !p.isDeleted && (filter.Some? ==> PassesFilter(p, filter.value, links))
  }

  function OrderOf(filter: Option<ProblemFilter>): Option<(Column, bool)> {
    if filter.None? then None
    else Some((ColumnNamed(filter.value.sortBy), filter.value.sortOrder == "desc"))
  }

  /** What `get_problems` returns: the listed rows, ordered as the filter asks (table order
      without a filter), then `offset(skip).limit(limit)`. */
  function ListProblems(rows: seq<Problem>, links: seq<Link>, skip: nat, limit: nat, filter: Option<ProblemFilter>)
    : (r: seq<Problem>)
    ensures |r| <= limit
    ensures forall x :: x in r ==> x in rows && !x.isDeleted
    ensures forall x :: x in r && filter.Some? ==> PassesFilter(x, filter.value, links)
  {
    var matching := Filter(rows, (p: Problem) => Listed(p, filter, links));
    var arranged := Arrange(matching, OrderOf(filter));
    var r := Page(arranged, skip, limit);
    forall x | x in r ensures x in matching {
      PageMember(arranged, skip, limit, x);
    }
    r
  }

  /** `get_problems` returns its rows in the order the filter names: by `sort_by` (falling back
      to `created_at`), descending exactly when `sort_order` is "desc". */
  lemma ListProblemsOrdered(rows: seq<Problem>, links: seq<Link>, skip: nat, limit: nat, f: ProblemFilter)
    ensures SortedBy(ListProblems(rows, links, skip, limit, Some(f)),
                     Order(ColumnNamed(f.sortBy), f.sortOrder == "desc"))
  {
    var le := Order(ColumnNamed(f.sortBy), f.sortOrder == "desc");
    var matching := Filter(rows, (p: Problem) => Listed(p, Some(f), links));
    OrderIsPreorder(ColumnNamed(f.sortBy), f.sortOrder == "desc");
    SortBySorted(matching, le);
    PageSorted(SortBy(matching, le), skip, limit, le);
  }

  /** A first page at least as large as the number of listed rows misses none of them. */
  lemma ListProblemsComplete(rows: seq<Problem>, links: seq<Link>, limit: nat, filter: Option<ProblemFilter>, p: Problem)
    requires |Filter(rows, (q: Problem) => Listed(q, filter, links))| <= limit
    requires p in rows && Listed(p, filter, links)
    ensures p in ListProblems(rows, links, 0, limit, filter)
  {
    var matching := Filter(rows, (q: Problem) => Listed(q, filter, links));
    assert p in matching;
    var arranged := Arrange(matching, OrderOf(filter));
    PageWhole(arranged, limit);
  }

  // ---------------------------------------------------------------- search_problems

  predicate Searchable(p: Problem, keyword: string) {
    !p.isDeleted && p.isPublished && Mentions(p, keyword)
  }

  /** `search_problems`: published, not deleted, mentioning the keyword; newest first. */
  function SearchProblems(rows: seq<Problem>, keyword: string, skip: nat, limit: nat): (r: seq<Problem>)
    ensures |r| <= limit
    ensures forall x :: x in r ==> x in rows && x.isPublished && !x.isDeleted && Mentions(x, keyword)
  {
    var matching := Filter(rows, (p: Problem) => Searchable(p, keyword));
    var ordered := SortBy(matching, Order(CreatedAtColumn, true));
    var r := Page(ordered, skip, limit);
    forall x | x in r ensures x in matching {
      PageMember(ordered, skip, limit, x);
      SortByMember(matching, Order(CreatedAtColumn, true), x);
    }
    r
  }

  /** A first search page at least as large as the number of hits misses none of them. */
  lemma SearchProblemsComplete(rows: seq<Problem>, keyword: string, limit: nat, p: Problem)
    requires |Filter(rows, (q: Problem) => Searchable(q, keyword))| <= limit
    requires p in rows && p.isPublished && !p.isDeleted && Mentions(p, keyword)
    ensures p in SearchProblems(rows, keyword, 0, limit)
  {
    var matching := Filter(rows, (q: Problem) => Searchable(q, keyword));
    assert p in matching;
    SortByMember(matching, Order(CreatedAtColumn, true), p);
    PageWhole(SortBy(matching, Order(CreatedAtColumn, true)), limit);
  }

  lemma SearchProblemsNewestFirst(rows: seq<Problem>, keyword: string, skip: nat, limit: nat)
    ensures SortedBy(SearchProblems(rows, keyword, skip, limit), Order(CreatedAtColumn, true))
    ensures forall i, j :: 0 <= i < j < |SearchProblems(rows, keyword, skip, limit)| ==>
              SearchProblems(rows, keyword, skip, limit)[i].createdAt >= SearchProblems(rows, keyword, skip, limit)[j].createdAt
  {
    var le := Order(CreatedAtColumn, true);
    var matching := Filter(rows, (p: Problem) => Searchable(p, keyword));
    OrderIsPreorder(CreatedAtColumn, true);
    SortBySorted(matching, le);
    PageSorted(SortBy(matching, le), skip, limit, le);
  }

  // ---------------------------------------------------------------- get_random_problems

  predicate Drawable(p: Problem, difficultyRange: Option<seq<int>>) {
    && !p.isDeleted && p.isPublished
    && (difficultyRange.Some? && difficultyRange.value != [] ==> p.difficulty in difficultyRange.value)
  }

  /** The rows of the join with `problem_knowledge_points`: a problem appears once per link to
      one of the requested knowledge points; without knowledge points there is no join. */
  function JoinedRows(rows: seq<Problem>, links: seq<Link>, difficultyRange: Option<seq<int>>,
                      kpIds: Option<seq<int>>): (r: seq<Problem>)
    ensures forall x :: x in r ==> x in rows && Drawable(x, difficultyRange)
    ensures forall x :: x in r ==> kpIds.None? || kpIds.value == [] || exists k :: k in kpIds.value && Linked(links, x.id, k)
    ensures forall x :: x in rows && Drawable(x, difficultyRange)
                        && (kpIds.None? || kpIds.value == [] || exists k :: k in kpIds.value && Linked(links, x.id, k))
                        ==> x in r
  {
    if rows == [] then []
    else
      var p := rows[0];
      var hits := if !Drawable(p, difficultyRange) then 0
                  else if kpIds.None? || kpIds.value == [] then 1
                  else |Filter(links, (l: Link) => l.problemId == p.id && l.knowledgePointId in kpIds.value)|;
      var rest := JoinedRows(rows[1..], links, difficultyRange, kpIds);
      var r := seq(hits, _ => p) + rest;
      forall x | x in rows && Drawable(x, difficultyRange)
                 && (kpIds.None? || kpIds.value == [] || exists k :: k in kpIds.value && Linked(links, x.id, k))
        ensures x in r
      {
        if x == p && kpIds.Some? && kpIds.value != [] {
          var k :| k in kpIds.value && Linked(links, x.id, k);
          var i :| 0 <= i < |links| && links[i].problemId == x.id && links[i].knowledgePointId == k;
          assert links[i] in Filter(links, (l: Link) => l.problemId == p.id && l.knowledgePointId in kpIds.value);
          assert r[0] == p;
        } else if x == p {
          assert r[0] == p;
        } else {
          assert x in rows[1..];
        }
      }
      forall x | x in r && kpIds.Some? && kpIds.value != []
        ensures exists k :: k in kpIds.value && Linked(links, x.id, k)
      {
        if x !in rest {
          var l := Filter(links, (l: Link) => l.problemId == p.id && l.knowledgePointId in kpIds.value)[0];
          var i :| 0 <= i < |links| && links[i] == l;
          assert l.knowledgePointId in kpIds.value && Linked(links, x.id, l.knowledgePointId);
        }
      }
      r
  }

  /** `ORDER BY random()`: each joined row gets a key (missing keys count as 0) and rows are
      ordered by key. The keys are the randomness, passed in. */
  function Shuffle<T>(rows: seq<T>, keys: seq<int>): (r: seq<T>)
    ensures |r| == |rows|
    ensures multiset(r) == multiset(rows)
  {
    var tagged := Tag(rows, keys);
    var sorted := SortBy(tagged, ByKey);
    FirstsMultiset(sorted, tagged);
    Firsts(sorted)
  }

  predicate ByKey<T>(a: (T, int), b: (T, int)) {
    a.1 <= b.1
  }

  /** Each row paired with its key. */
  function Tag<T>(rows: seq<T>, keys: seq<int>): (r: seq<(T, int)>)
    ensures |r| == |rows|
    ensures Firsts(r) == rows
  {
    seq(|rows|, i requires 0 <= i < |rows| => (rows[i], if i < |keys| then keys[i] else 0))
  }

  /** The rows of a keyed sequence, keys dropped. */
  function Firsts<T>(s: seq<(T, int)>): (r: seq<T>)
    ensures |r| == |s|
    ensures forall i :: 0 <= i < |s| ==> r[i] == s[i].0
  {
    if s == [] then [] else [s[0].0] + Firsts(s[1..])
  }

  /** Dropping the keys of two sequences holding the same keyed rows leaves the same rows. */
  lemma {:induction false} FirstsMultiset<T>(a: seq<(T, int)>, b: seq<(T, int)>)
    requires multiset(a) == multiset(b)
    ensures multiset(Firsts(a)) == multiset(Firsts(b))
    decreases |a|
  {
    if a == [] {
      assert b == [] by {
        assert |multiset(b)| == 0;
      }
    } else {
      assert a[0] in multiset(b);
      var k :| 0 <= k < |b| && b[k] == a[0];
      var rest := b[..k] + b[k + 1..];
      RemoveAt(a, 0);
      RemoveAt(b, k);
      assert a[..0] + a[1..] == a[1..];
      MultisetCancel(multiset{a[0]}, multiset(a[1..]), multiset(rest));
      FirstsMultiset(a[1..], rest);
      FirstsRemoveAt(a, 0);
      FirstsRemoveAt(b, k);
    }
  }

  lemma MultisetCancel<T>(x: multiset<T>, m: multiset<T>, n: multiset<T>)
    requires x + m == x + n
    ensures m == n
  {
    forall y ensures m[y] == n[y] {
      assert (x + m)[y] == (x + n)[y];
    }
  }

  lemma RemoveAt<T>(s: seq<T>, k: int)
    requires 0 <= k < |s|
    ensures multiset(s) == multiset{s[k]} + multiset(s[..k] + s[k + 1..])
  {
    assert s == s[..k] + [s[k]] + s[k + 1..];
  }

  lemma FirstsRemoveAt<T>(s: seq<(T, int)>, k: int)
    requires 0 <= k < |s|
    ensures multiset(Firsts(s)) == multiset{s[k].0} + multiset(Firsts(s[..k] + s[k + 1..]))
  {
    FirstsOmit(s, k);
    RemoveAt(Firsts(s), k);
  }

  lemma FirstsOmit<T>(s: seq<(T, int)>, k: int)
    requires 0 <= k < |s|
    ensures Firsts(s[..k] + s[k + 1..]) == Firsts(s)[..k] + Firsts(s)[k + 1..]
  {
    FirstsAppend(s[..k], s[k + 1..]);
    FirstsSlice(s, 0, k);
    FirstsSlice(s, k + 1, |s|);
  }

  lemma FirstsSlice<T>(s: seq<(T, int)>, lo: int, hi: int)
    requires 0 <= lo <= hi <= |s|
    ensures Firsts(s[lo..hi]) == Firsts(s)[lo..hi]
  {
    var f, g := Firsts(s[lo..hi]), Firsts(s)[lo..hi];
    assert |f| == |g|;
    forall i | 0 <= i < |f| ensures f[i] == g[i] {
      assert f[i] == s[lo..hi][i].0 == s[lo + i].0;
    }
  }

  lemma FirstsAppend<T>(a: seq<(T, int)>, b: seq<(T, int)>)
    ensures Firsts(a + b) == Firsts(a) + Firsts(b)
  {
    var l, r := Firsts(a + b), Firsts(a) + Firsts(b);
    forall i | 0 <= i < |l| ensures l[i] == r[i] {
      if i < |a| {
        assert (a + b)[i] == a[i];
      } else {
        assert (a + b)[i] == b[i - |a|];
      }
    }
  }

  /** A sequence holding the same rows as one without repeats has none either. */
  lemma SameMultisetNoRepeats<T>(s: seq<T>, t: seq<T>)
    requires NoRepeats(s) && multiset(s) == multiset(t)
    ensures NoRepeats(t)
  {
    forall i, j | 0 <= i < j < |t| ensures t[i] != t[j] {
      assert t[i] in multiset(s);
      var k :| 0 <= k < |s| && s[k] == t[i];
      NoRepeatsCount(s, k);
      if t[i] == t[j] {
        TwoCopies(t, i, j);
      }
    }
  }

  lemma {:induction false} NoRepeatsCount<T>(s: seq<T>, k: int)
    requires NoRepeats(s) && 0 <= k < |s|
    ensures multiset(s)[s[k]] == 1
  {
    assert s == s[..k] + [s[k]] + s[k + 1..];
    assert s[k] !in s[..k] && s[k] !in s[k + 1..];
    assert multiset(s[..k])[s[k]] == 0;
    assert multiset(s[k + 1..])[s[k]] == 0;
  }

  lemma TwoCopies<T>(s: seq<T>, i: int, j: int)
    requires 0 <= i < j < |s| && s[i] == s[j]
    ensures multiset(s)[s[i]] >= 2
  {
    assert s == s[..i] + [s[i]] + s[i + 1..j] + [s[j]] + s[j + 1..];
  }

  /** `get_random_problems` as written: `LIMIT count` applies to the joined rows, and the ORM
      then drops the repeats, so a problem linked to two requested knowledge points can take
      two of the `count` places. */
  function RandomProblemsAsWritten(rows: seq<Problem>, links: seq<Link>, count: nat, difficultyRange: Option<seq<int>>,
                                   kpIds: Option<seq<int>>, keys: seq<int>): (r: seq<Problem>)
    ensures |r| <= count && NoRepeats(r)
    ensures forall x :: x in r ==> x in rows && Drawable(x, difficultyRange)
    ensures forall x :: x in r ==> x in JoinedRows(rows, links, difficultyRange, kpIds)
    ensures forall x :: x in r ==> kpIds.None? || kpIds.value == [] || exists k :: k in kpIds.value && Linked(links, x.id, k)
  {
    var joined := JoinedRows(rows, links, difficultyRange, kpIds);
    var shuffled := Shuffle(joined, keys);
    var page := Page(shuffled, 0, count);
    var r := Distinct(page);
    forall x | x in r ensures x in joined {
      PageMember(shuffled, 0, count, x);
      assert x in multiset(shuffled);
    }
    r
  }

  /** The selection evidently meant: `count` different problems, as many as there are. */
  function RandomProblems(rows: seq<Problem>, links: seq<Link>, count: nat, difficultyRange: Option<seq<int>>,
                          kpIds: Option<seq<int>>, keys: seq<int>): (r: seq<Problem>)
    ensures NoRepeats(r)
    ensures forall x :: x in r ==> x in rows && Drawable(x, difficultyRange)
    ensures forall x :: x in r ==> x in JoinedRows(rows, links, difficultyRange, kpIds)
    ensures forall x :: x in r ==> kpIds.None? || kpIds.value == [] || exists k :: k in kpIds.value && Linked(links, x.id, k)
    ensures |r| == if count < |Distinct(JoinedRows(rows, links, difficultyRange, kpIds))| then count
                   else |Distinct(JoinedRows(rows, links, difficultyRange, kpIds))|
  {
    var candidates := Distinct(JoinedRows(rows, links, difficultyRange, kpIds));
    var shuffled := Shuffle(candidates, keys);
    SameMultisetNoRepeats(candidates, shuffled);
    var r := Page(shuffled, 0, count);
    forall x | x in r ensures x in candidates {
      PageMember(shuffled, 0, count, x);
      assert x in multiset(shuffled);
    }
    r
  }

  /** The selection as written can come back short: two published problems, the first linked
      to both requested knowledge points, two places asked for, and a random order that puts
      the first problem's two joined rows first; only one problem is returned, where the
      corrected selection returns both. */
  lemma RandomSelectionComesBackShort()
    ensures var p1 := ExampleProblem(1);
            var p2 := ExampleProblem(2);
            && |Distinct(JoinedRows([p1, p2], ExampleLinks(), None, Some([10, 20])))| == 2
            && |RandomProblemsAsWritten([p1, p2], ExampleLinks(), 2, None, Some([10, 20]), [])| == 1
            && |RandomProblems([p1, p2], ExampleLinks(), 2, None, Some([10, 20]), [])| == 2
  {
    ExampleJoin();
    ExampleDistinct();
    ExampleAsWritten();
  }

  lemma ExampleAsWritten()
    ensures RandomProblemsAsWritten([ExampleProblem(1), ExampleProblem(2)], ExampleLinks(), 2, None, Some([10, 20]), [])
            == [ExampleProblem(1)]
  {
    var p1, p2 := ExampleProblem(1), ExampleProblem(2);
    calc {
      RandomProblemsAsWritten([p1, p2], ExampleLinks(), 2, None, Some([10, 20]), []);
      { RandomProblemsAsWrittenSteps([p1, p2], ExampleLinks(), 2, None, Some([10, 20]), []); }
      Distinct(Page(Shuffle(JoinedRows([p1, p2], ExampleLinks(), None, Some([10, 20])), []), 0, 2));
      { ExampleJoin(); }
      Distinct(Page(Shuffle([p1, p1, p2], []), 0, 2));
      { ShuffleWithoutKeys([p1, p1, p2]); }
      Distinct(Page([p1, p1, p2], 0, 2));
      { assert Page([p1, p1, p2], 0, 2) == [p1, p1]; }
      Distinct([p1, p1]);
      { ExampleDistinct(); }
      [p1];
    }
  }

  /** The stages of the selection as written, one after the other. */
  lemma RandomProblemsAsWrittenSteps(rows: seq<Problem>, links: seq<Link>, count: nat, difficultyRange: Option<seq<int>>,
                                     kpIds: Option<seq<int>>, keys: seq<int>)
    ensures RandomProblemsAsWritten(rows, links, count, difficultyRange, kpIds, keys)
            == Distinct(Page(Shuffle(JoinedRows(rows, links, difficultyRange, kpIds), keys), 0, count))
  {
  }

  lemma ExampleDistinct()
    ensures Distinct([ExampleProblem(1), ExampleProblem(1), ExampleProblem(2)]) == [ExampleProblem(1), ExampleProblem(2)]
    ensures Distinct([ExampleProblem(1), ExampleProblem(1)]) == [ExampleProblem(1)]
  {
    var p1, p2 := ExampleProblem(1), ExampleProblem(2);
    assert Filter([p1], (x: Problem) => x != p1) == [];
    assert Filter([p1, p2], (x: Problem) => x != p1) == [p2] by {
      assert Filter([p2], (x: Problem) => x != p1) == [p2];
    }
    assert Distinct([p2]) == [p2] by {
      assert Filter([p2][1..], (x: Problem) => x != p2) == [];
    }
  }

  function ExampleProblem(id: int): Problem {
    Problem(id, "t", "c", "text", map[], "A", None, None, 3, None, None, None, None,
            true, false, None, REVIEW_APPROVED, 0, 0, 1, 0)
  }

  function ExampleLinks(): seq<Link> {
    [Link(1, 10, true, 1.0), Link(1, 20, false, 1.0), Link(2, 10, true, 1.0)]
  }

  lemma ExampleJoin()
    ensures JoinedRows([ExampleProblem(1), ExampleProblem(2)], ExampleLinks(), None, Some([10, 20]))
            == [ExampleProblem(1), ExampleProblem(1), ExampleProblem(2)]
  {
    var links, kps := ExampleLinks(), [10, 20];
    var p1, p2 := ExampleProblem(1), ExampleProblem(2);
    assert Filter(links, (l: Link) => l.problemId == p1.id && l.knowledgePointId in kps) == links[..2] by {
      assert Filter(links[2..], (l: Link) => l.problemId == p1.id && l.knowledgePointId in kps) == [];
    }
    assert Filter(links, (l: Link) => l.problemId == p2.id && l.knowledgePointId in kps) == links[2..] by {
      assert Filter(links[1..], (l: Link) => l.problemId == p2.id && l.knowledgePointId in kps) == links[2..];
    }
    assert [p1, p2][1..] == [p2];
    assert JoinedRows([p2], links, None, Some(kps)) == [p2] by {
      assert [p2][1..] == [];
    }
  }

  /** With no keys every row has key 0 and the order is the join's own. */
  lemma {:induction false} ShuffleWithoutKeys<T>(rows: seq<T>)
    ensures Shuffle(rows, []) == rows
  {
    var tagged := Tag(rows, []);
    SortAllZero(tagged);
  }

  lemma {:induction false} SortAllZero<T>(s: seq<(T, int)>)
    requires forall i :: 0 <= i < |s| ==> s[i].1 == 0
    ensures SortBy(s, ByKey) == s
  {
    if s != [] {
      SortAllZero(s[1..]);
      assert s == [s[0]] + s[1..];
    }
  }

  // ---------------------------------------------------------------- get_problem_stats

  function TotalProblems(rows: seq<Problem>): nat {
    |Filter(rows, (p: Problem) => !p.isDeleted)|
  }

  function PublishedProblems(rows: seq<Problem>): nat {
    |Filter(rows, (p: Problem) => !p.isDeleted && p.isPublished)|
  }

  /** `by_difficulty[d]`: published problems of difficulty `d`. */
  function DifficultyCount(rows: seq<Problem>, d: int): nat {
    |Filter(rows, (p: Problem) => !p.isDeleted && p.isPublished && p.difficulty == d)|
  }

  /** `by_source[s]`: published problems from source `s`. */
  function SourceCount(rows: seq<Problem>, s: string): nat {
    |Filter(rows, (p: Problem) => !p.isDeleted && p.isPublished && p.sourceType == Some(s))|
  }

  /** The counts nest: per-difficulty and per-source counts within the published count, the
      published count within the total of non-deleted problems. */
  lemma StatsNest(rows: seq<Problem>, d: int, s: string)
    ensures PublishedProblems(rows) <= TotalProblems(rows) <= |rows|
    ensures DifficultyCount(rows, d) <= PublishedProblems(rows)
    ensures SourceCount(rows, s) <= PublishedProblems(rows)
  {
    FilterStricter(rows, (p: Problem) => !p.isDeleted && p.isPublished, (p: Problem) => !p.isDeleted);
    FilterStricter(rows, (p: Problem) => !p.isDeleted && p.isPublished && p.difficulty == d,
                   (p: Problem) => !p.isDeleted && p.isPublished);
    FilterStricter(rows, (p: Problem) => !p.isDeleted && p.isPublished && p.sourceType == Some(s),
                   (p: Problem) => !p.isDeleted && p.isPublished);
  }

  // ---------------------------------------------------------------- rows written by the bank

  /** What every stored problem satisfies: the ORM validators held when it was written, and the
      attempt counters are consistent. */
  predicate ValidRow(p: Problem) {
    && CountersConsistent(p)
    && 1 <= p.difficulty <= 5
    && forall k :: k in REQUIRED_OPTION_KEYS ==> k in p.options
  }

  /** The JSON column a `Dict[str, str]` of options is stored as. */
  function OptionsJson(options: map<string, string>): (m: map<string, Json>)
    ensures m.Keys == options.Keys
    ensures forall k :: k in m ==> m[k] == JStr(options[k])
  {
    map k | k in options :: JStr(options[k])
  }

  /** The options of a validated create or update body pass the ORM's own option validator. */
  lemma SchemaOptionsPassOrmValidator(options: map<string, string>, parseJson: string -> Option<Json>)
    requires REQUIRED_OPTION_KEYS <= options.Keys
    ensures ValidateOptions(JObj(OptionsJson(options)), parseJson) == Success(OptionsJson(options))
  {
    assert forall k :: k in OPTION_KEYS ==> k in REQUIRED_OPTION_KEYS;
  }

  /** The row `create_problem` adds, with the column defaults for what the body does not set. */
  function NewProblem(id: int, pc: ProblemCreate, createdBy: int, now: int): (p: Problem)
    requires WellFormedCreate(pc)
    ensures ValidRow(p) && p.id == id && p.createdBy == createdBy && p.createdAt == now
    ensures !p.isDeleted && p.reviewStatus == REVIEW_PENDING && p.reviewedAt.None?
    ensures p.totalAttempts == 0 && p.correctAttempts == 0
    ensures p.isPublished == pc.isPublished && p.difficulty == pc.difficulty && p.title == pc.title
    ensures p.content == pc.content && p.contentType == pc.contentType && p.options == OptionsJson(pc.options)
    ensures p.correctAnswer == pc.correctAnswer && p.solution == pc.solution
    ensures p.solutionType == Some(pc.solutionType) && p.sourceType == pc.sourceType
    ensures p.sourceYear == pc.sourceYear && p.sourceDetail == pc.sourceDetail
    ensures p.estimatedTime == pc.estimatedTime
  {
    Problem(id, pc.title, pc.content, pc.contentType, OptionsJson(pc.options), pc.correctAnswer, pc.solution,
            Some(pc.solutionType), pc.difficulty, pc.sourceType, pc.sourceYear, pc.sourceDetail, pc.estimatedTime,
            pc.isPublished, false, None, REVIEW_PENDING, 0, 0, createdBy, now)
  }

  /** `update_problem`'s `setattr` loop: each field the body sets is overwritten, every other
      column keeps its value. */
  function ApplyProblemUpdate(p: Problem, upd: ProblemUpdate): (q: Problem)
    ensures q.id == p.id && q.createdBy == p.createdBy && q.createdAt == p.createdAt
    ensures q.isDeleted == p.isDeleted && q.reviewStatus == p.reviewStatus && q.reviewedAt == p.reviewedAt
    ensures q.totalAttempts == p.totalAttempts && q.correctAttempts == p.correctAttempts
    ensures upd.title.Some? ==> q.title == upd.title.value
    ensures upd.title.None? ==> q.title == p.title
    ensures upd.difficulty.Some? ==> q.difficulty == upd.difficulty.value
    ensures upd.difficulty.None? ==> q.difficulty == p.difficulty
    ensures upd.isPublished.Some? ==> q.isPublished == upd.isPublished.value
    ensures upd.isPublished.None? ==> q.isPublished == p.isPublished
    ensures upd.options.Some? ==> q.options == OptionsJson(upd.options.value)
    ensures upd.options.None? ==> q.options == p.options
    ensures upd.content.Some? ==> q.content == upd.content.value
    ensures upd.content.None? ==> q.content == p.content
    ensures upd.contentType.Some? ==> q.contentType == upd.contentType.value
    ensures upd.contentType.None? ==> q.contentType == p.contentType
    ensures upd.correctAnswer.Some? ==> q.correctAnswer == upd.correctAnswer.value
    ensures upd.correctAnswer.None? ==> q.correctAnswer == p.correctAnswer
    ensures upd.solution.Some? ==> q.solution == upd.solution
    ensures upd.solution.None? ==> q.solution == p.solution
    ensures upd.solutionType.Some? ==> q.solutionType == upd.solutionType
    ensures upd.solutionType.None? ==> q.solutionType == p.solutionType
    ensures upd.sourceType.Some? ==> q.sourceType == upd.sourceType
    ensures upd.sourceType.None? ==> q.sourceType == p.sourceType
    ensures upd.sourceYear.Some? ==> q.sourceYear == upd.sourceYear
    ensures upd.sourceYear.None? ==> q.sourceYear == p.sourceYear
    ensures upd.sourceDetail.Some? ==> q.sourceDetail == upd.sourceDetail
    ensures upd.sourceDetail.None? ==> q.sourceDetail == p.sourceDetail
    ensures upd.estimatedTime.Some? ==> q.estimatedTime == upd.estimatedTime
    ensures upd.estimatedTime.None? ==> q.estimatedTime == p.estimatedTime
  {
    Problem(p.id, upd.title.GetOr(p.title), upd.content.GetOr(p.content), upd.contentType.GetOr(p.contentType),
            UpdatedOptions(p.options, upd.options), upd.correctAnswer.GetOr(p.correctAnswer),
            SentOr(upd.solution, p.solution), SentOr(upd.solutionType, p.solutionType),
            upd.difficulty.GetOr(p.difficulty), SentOr(upd.sourceType, p.sourceType),
            SentOr(upd.sourceYear, p.sourceYear), SentOr(upd.sourceDetail, p.sourceDetail),
            SentOr(upd.estimatedTime, p.estimatedTime), upd.isPublished.GetOr(p.isPublished),
            p.isDeleted, p.reviewedAt, p.reviewStatus, p.totalAttempts, p.correctAttempts, p.createdBy, p.createdAt)
  }

  /** A nullable column after an update: the value sent, or the old one. */
  function SentOr<T>(sent: Option<T>, current: Option<T>): Option<T> {
    if sent.Some? then sent else current
  }

  function UpdatedOptions(current: map<string, Json>, sent: Option<map<string, string>>): map<string, Json> {
    if sent.Some? then OptionsJson(sent.value) else current
  }

  /** An update that sends nothing changes nothing. */
  lemma EmptyUpdateIsIdentity(p: Problem)
    ensures ApplyProblemUpdate(p, ProblemUpdate(None, None, None, None, None, None, None, None, None, None,
                                                None, None, None, None)) == p
  {
  }

  lemma UpdateKeepsValidRow(p: Problem, upd: ProblemUpdate)
    requires ValidRow(p) && WellFormedUpdate(upd)
    ensures ValidRow(ApplyProblemUpdate(p, upd))
  {
  }

  /** `publish_problem`'s assignments: publishing approves and stamps the review time,
      withdrawing sends the problem back to "pending" and keeps the last review time. */
  function Publish(p: Problem, publish: bool, now: int): (q: Problem)
    ensures q.isPublished == publish
    ensures q.reviewStatus == (if publish then REVIEW_APPROVED else REVIEW_PENDING)
    ensures q.reviewedAt == (if publish then Some(now) else p.reviewedAt)
    ensures q.(isPublished := p.isPublished, reviewStatus := p.reviewStatus, reviewedAt := p.reviewedAt) == p
  {
    p.(isPublished := publish,
       reviewStatus := if publish then REVIEW_APPROVED else REVIEW_PENDING,
       reviewedAt := if publish then Some(now) else p.reviewedAt)
  }

  /** Publishing twice is publishing once, and so is withdrawing twice; the latest call decides. */
  lemma PublishIdempotent(p: Problem, publish: bool, again: bool, now: int, later: int)
    ensures Publish(Publish(p, publish, now), publish, now) == Publish(p, publish, now)
    ensures Publish(Publish(p, publish, now), again, later).isPublished == again
  {
  }

  /** The links `create_problem` and `update_problem` add: one per listed id that names an
      existing knowledge point, in list order, primary exactly when it is the first listed id. */
  function KnownIds(ids: seq<int>, knowledgePoints: set<int>): (known: seq<int>)
    ensures forall k :: k in known <==> k in ids && k in knowledgePoints
  {
    Filter(ids, (k: int) => k in knowledgePoints)
  }

  function LinksFor(problemId: int, known: seq<int>, first: int): (r: seq<Link>)
    ensures |r| == |known|
  {
    seq(|known|, i requires 0 <= i < |known| => Link(problemId, known[i], known[i] == first, 1.0))
  }

  function NewLinks(problemId: int, ids: seq<int>, knowledgePoints: set<int>): (r: seq<Link>) {
    LinksFor(problemId, KnownIds(ids, knowledgePoints), if ids == [] then 0 else ids[0])
  }

  /** A new link names the problem and a listed, existing knowledge point, weighs 1.0, and is
      primary iff it is for the first id in the list. */
  lemma NewLinksMember(problemId: int, ids: seq<int>, knowledgePoints: set<int>, l: Link)
    requires ids != []
    ensures l in NewLinks(problemId, ids, knowledgePoints) <==>
              && l.problemId == problemId && l.knowledgePointId in ids && l.knowledgePointId in knowledgePoints
              && l.isPrimary == (l.knowledgePointId == ids[0]) && l.weight == 1.0
  {
    var known := KnownIds(ids, knowledgePoints);
    var r := NewLinks(problemId, ids, knowledgePoints);
    if l.problemId == problemId && l.knowledgePointId in ids && l.knowledgePointId in knowledgePoints
       && l.isPrimary == (l.knowledgePointId == ids[0]) && l.weight == 1.0 {
      var i :| 0 <= i < |known| && known[i] == l.knowledgePointId;
      assert r[i] == l;
    }
  }

  /** The primary-key check on the new links: they collide with each other exactly when an
      existing knowledge point is listed twice, and never with links of other problems. */
  lemma {:induction false} AppendLinksUnique(base: seq<Link>, problemId: int, ids: seq<int>, knowledgePoints: set<int>)
    requires UniqueLinks(base)
    requires forall i :: 0 <= i < |base| ==> base[i].problemId != problemId
    ensures UniqueLinks(base + NewLinks(problemId, ids, knowledgePoints)) <==> NoRepeats(KnownIds(ids, knowledgePoints))
  {
    var known := KnownIds(ids, knowledgePoints);
    var added := NewLinks(problemId, ids, knowledgePoints);
    var all := base + added;
    if NoRepeats(known) {
      forall i, j | 0 <= i < j < |all|
        ensures all[i].problemId != all[j].problemId || all[i].knowledgePointId != all[j].knowledgePointId
      {
        if j >= |base| && i >= |base| {
          assert all[i] == added[i - |base|] && all[j] == added[j - |base|];
        } else if j >= |base| {
          assert all[j] == added[j - |base|];
        }
      }
    } else {
      var i, j :| 0 <= i < j < |known| && known[i] == known[j];
      assert all[|base| + i] == added[i] && all[|base| + j] == added[j];
    }
  }

  /** The constraints of the two tables the bank holds. */
  predicate BankConstraints(problems: seq<Problem>, links: seq<Link>, knowledgePoints: set<int>, nextId: int) {
    && UniqueProblemIds(problems)
    && (forall i :: 0 <= i < |problems| ==> 1 <= problems[i].id < nextId && ValidRow(problems[i]))
    && UniqueLinks(links)
    && (forall i :: 0 <= i < |links| ==>
          links[i].problemId in ProblemIds(problems) && links[i].knowledgePointId in knowledgePoints)
  }

  /** The `if filters.x: query = query.filter(...)` steps of `get_problems`. */
  method AddFilterClauses(f: ProblemFilter) returns (conds: seq<Condition>)
    ensures conds == FilterClauses(f)
  {
    conds := [];
    if f.difficulty.Some? && f.difficulty.value != [] {
      conds := conds + [DifficultyIn(f.difficulty.value)];
    }
    assert conds == DifficultyClause(f);
    var before := conds;
    if f.sourceType.Some? && f.sourceType.value != "" {
      conds := conds + [SourceTypeIs(f.sourceType.value)];
    }
    assert conds == before + SourceTypeClause(f);
    before := conds;
    if f.sourceYear.Some? && f.sourceYear.value != 0 {
      conds := conds + [SourceYearIs(f.sourceYear.value)];
    }
    assert conds == before + SourceYearClause(f);
    before := conds;
    if f.knowledgePointId.Some? && f.knowledgePointId.value != 0 {
      conds := conds + [LinkedTo(f.knowledgePointId.value)];
    }
    assert conds == before + KnowledgePointClause(f);
    before := conds;
    if f.isPublished.Some? {
      conds := conds + [PublishedIs(f.isPublished.value)];
    }
    assert conds == before + PublishedClause(f);
    before := conds;
    if f.search.Some? && f.search.value != "" {
      conds := conds + [MentionsKeyword(f.search.value)];
    }
    assert conds == before + SearchClause(f);
  }

  /** The association-building loop of `create_problem` and `update_problem`: each listed id
      that names an existing knowledge point yields a link, primary when it is the first id. */
  method CollectLinks(problemId: int, ids: seq<int>, knowledgePoints: set<int>) returns (added: seq<Link>)
    ensures added == NewLinks(problemId, ids, knowledgePoints)
  {
    added := [];
    var first := if ids == [] then 0 else ids[0];
    var i := 0;
    while i < |ids|
      invariant 0 <= i <= |ids|
      invariant added == LinksFor(problemId, KnownIds(ids[..i], knowledgePoints), first)
    {
      FilterAppend(ids[..i], ids[i], (k: int) => k in knowledgePoints);
      assert ids[..i + 1] == ids[..i] + [ids[i]];
      if ids[i] in knowledgePoints {
        added := added + [Link(problemId, ids[i], ids[i] == first, 1.0)];
      }
      i := i + 1;
    }
    assert ids[..|ids|] == ids;
  }

  /** The problem bank: the two tables and the ids of the knowledge points that exist. */
  class ProblemBank {
    var problems: seq<Problem>
    var links: seq<Link>
    var knowledgePoints: set<int>
    var nextId: int

    ghost predicate Valid()
      reads this
    {
      nextId >= 1 && BankConstraints(problems, links, knowledgePoints, nextId)
    }

    constructor(knowledgePoints: set<int>)
      ensures Valid()
      ensures problems == [] && links == [] && nextId == 1 && this.knowledgePoints == knowledgePoints
    {
      problems := [];
      links := [];
      this.knowledgePoints := knowledgePoints;
      nextId := 1;
    }

    /** `get_problems`: the query is built clause by clause and run once, as SQLAlchemy does. */
    method GetProblems(skip: nat, limit: nat, filter: Option<ProblemFilter>) returns (r: seq<Problem>)
      ensures r == ListProblems(problems, links, skip, limit, filter)
    {
      var conds: seq<Condition> := [];
      var order: Option<(Column, bool)> := None;
      if filter.Some? {
        conds := AddFilterClauses(filter.value);
        order := Some((ColumnNamed(filter.value.sortBy), filter.value.sortOrder == "desc"));
      }
      conds := conds + [NotDeleted];
      var ls := links;
      forall p ensures AllHold(conds, p, ls) == Listed(p, filter, ls) {
        QueryClausesMeanListed(filter, ls, p);
      }
      var matching := Filter(problems, (p: Problem) => AllHold(conds, p, ls));
      FilterExt(problems, (p: Problem) => AllHold(conds, p, ls), (p: Problem) => Listed(p, filter, ls));
      r := Page(Arrange(matching, order), skip, limit);
    }

    /** `create_problem`: the problem is committed first; then one link per listed existing
        knowledge point. A knowledge point listed twice breaks the links' primary key: that
        second commit fails, and the problem stays without links. */
    method CreateProblem(pc: ProblemCreate, createdBy: int, now: int) returns (r: Result<Problem, DbError>)
      requires Valid() && WellFormedCreate(pc)
      modifies this
      ensures Valid()
      ensures problems == old(problems) + [NewProblem(old(nextId), pc, createdBy, now)]
      ensures nextId == old(nextId) + 1 && knowledgePoints == old(knowledgePoints)
      ensures r.Success? <==> NoRepeats(KnownIds(pc.knowledgePointIds, knowledgePoints))
      ensures r.Success? ==> r.value == NewProblem(old(nextId), pc, createdBy, now)
      ensures r.Success? ==> links == old(links) + NewLinks(old(nextId), pc.knowledgePointIds, knowledgePoints)
      ensures r.Failure? ==> links == old(links)
    {
      var p := NewProblem(nextId, pc, createdBy, now);
      NoLinksForNextId(problems, links, knowledgePoints, nextId);
      AppendKeepsConstraints(problems, links, knowledgePoints, nextId, p);
      problems := problems + [p];
      nextId := nextId + 1;
      var added := CollectLinks(p.id, pc.knowledgePointIds, knowledgePoints);
      AppendLinksUnique(links, p.id, pc.knowledgePointIds, knowledgePoints);
      if !UniqueLinks(links + added) {
        r := Failure(DuplicateLinkKey);
        return;
      }
      NewLinksKeepConstraints(problems, links, knowledgePoints, nextId, p.id, pc.knowledgePointIds);
      links := links + added;
      r := Success(p);
    }

    /** `update_problem` for an existing row: the set fields are overwritten, and a list of
        knowledge-point ids, even an empty one, replaces all of the problem's links. A knowledge
        point listed twice makes the single commit fail and nothing changes. */
    method UpdateProblem(id: int, upd: ProblemUpdate) returns (r: Result<Problem, DbError>)
      requires Valid() && WellFormedUpdate(upd)
      requires exists j :: 0 <= j < |problems| && problems[j].id == id
      modifies this
      ensures Valid()
      ensures nextId == old(nextId) && knowledgePoints == old(knowledgePoints)
      ensures r.Success? <==> upd.knowledgePointIds.None? || NoRepeats(KnownIds(upd.knowledgePointIds.value, knowledgePoints))
      ensures var i := IndexOfProblem(old(problems), id);
              r.Success? ==> 0 <= i && problems == old(problems)[i := ApplyProblemUpdate(old(problems)[i], upd)]
                             && r.value == problems[i]
      ensures r.Success? && upd.knowledgePointIds.None? ==> links == old(links)
      ensures r.Success? && upd.knowledgePointIds.Some? ==>
                links == Filter(old(links), (l: Link) => l.problemId != id)
                         + NewLinks(id, upd.knowledgePointIds.value, knowledgePoints)
      ensures r.Failure? ==> problems == old(problems) && links == old(links)
    {
      var i := IndexOfProblem(problems, id);
      var q := ApplyProblemUpdate(problems[i], upd);
      UpdateKeepsValidRow(problems[i], upd);
      var newLinks := links;
      if upd.knowledgePointIds.Some? {
        var ids := upd.knowledgePointIds.value;
        var kept := Filter(links, (l: Link) => l.problemId != id);
        var added := CollectLinks(id, ids, knowledgePoints);
        KeptLinksUnique(links, id);
        AppendLinksUnique(kept, id, ids, knowledgePoints);
        if !UniqueLinks(kept + added) {
          r := Failure(DuplicateLinkKey);
          return;
        }
        newLinks := kept + added;
      }
      ReplaceKeepsConstraints(problems, links, newLinks, knowledgePoints, nextId, i, q, upd.knowledgePointIds);
      problems := problems[i := q];
      links := newLinks;
      r := Success(q);
    }

    /** `delete_problem`: a soft delete. */
    method DeleteProblem(id: int) returns (ok: bool)
      requires Valid()
      modifies this
      ensures Valid()
      ensures ok <==> exists j :: 0 <= j < |old(problems)| && old(problems)[j].id == id
      ensures var i := IndexOfProblem(old(problems), id);
              ok ==> 0 <= i && problems == old(problems)[i := old(problems)[i].(isDeleted := true)]
      ensures !ok ==> problems == old(problems)
      ensures links == old(links) && nextId == old(nextId) && knowledgePoints == old(knowledgePoints)
    {
      var i := IndexOfProblem(problems, id);
      if i < 0 {
        return false;
      }
      OverwriteKeepsConstraints(problems, links, knowledgePoints, nextId, i, problems[i].(isDeleted := true));
      problems := problems[i := problems[i].(isDeleted := true)];
      ok := true;
    }

    /** `publish_problem`. */
    method PublishProblem(id: int, publish: bool, now: int) returns (ok: bool)
      requires Valid()
      modifies this
      ensures Valid()
      ensures ok <==> exists j :: 0 <= j < |old(problems)| && old(problems)[j].id == id
      ensures var i := IndexOfProblem(old(problems), id);
              ok ==> 0 <= i && problems == old(problems)[i := Publish(old(problems)[i], publish, now)]
      ensures !ok ==> problems == old(problems)
      ensures links == old(links) && nextId == old(nextId) && knowledgePoints == old(knowledgePoints)
    {
      var i := IndexOfProblem(problems, id);
      if i < 0 {
        return false;
      }
      OverwriteKeepsConstraints(problems, links, knowledgePoints, nextId, i, Publish(problems[i], publish, now));
      problems := problems[i := Publish(problems[i], publish, now)];
      ok := true;
    }

    /** `increment_attempts`: the problem's counters, through `Problem.increment_attempts`. */
    method IncrementAttemptsOf(id: int, isCorrect: bool) returns (ok: bool)
      requires Valid()
      modifies this
      ensures Valid()
      ensures ok <==> exists j :: 0 <= j < |old(problems)| && old(problems)[j].id == id
      ensures var i := IndexOfProblem(old(problems), id);
              ok ==> 0 <= i && problems == old(problems)[i := IncrementAttempts(old(problems)[i], isCorrect)]
      ensures !ok ==> problems == old(problems)
      ensures links == old(links) && nextId == old(nextId) && knowledgePoints == old(knowledgePoints)
    {
      var i := IndexOfProblem(problems, id);
      if i < 0 {
        return false;
      }
      OverwriteKeepsConstraints(problems, links, knowledgePoints, nextId, i, IncrementAttempts(problems[i], isCorrect));
      problems := problems[i := IncrementAttempts(problems[i], isCorrect)];
      ok := true;
    }
  }

  // ---------------------------------------------------------------- constraint preservation

  /** Rewriting one row in place keeps the tables' constraints when the id stays and the row
      stays valid. */
  lemma {:induction false} OverwriteKeepsConstraints(problems: seq<Problem>, links: seq<Link>, knowledgePoints: set<int>,
                                                    nextId: int, i: int, q: Problem)
    requires BankConstraints(problems, links, knowledgePoints, nextId)
    requires 0 <= i < |problems| && q.id == problems[i].id && ValidRow(q)
    ensures BankConstraints(problems[i := q], links, knowledgePoints, nextId)
  {
    var after := problems[i := q];
    assert ProblemIds(after) == ProblemIds(problems) by {
      forall x | x in ProblemIds(problems) ensures x in ProblemIds(after) {
        var p :| p in problems && p.id == x;
        var j :| 0 <= j < |problems| && problems[j] == p;
        assert after[j].id == x;
      }
      forall x | x in ProblemIds(after) ensures x in ProblemIds(problems) {
        var p :| p in after && p.id == x;
        var j :| 0 <= j < |after| && after[j] == p;
        assert problems[j].id == x;
      }
    }
  }

  /** No link names the id the next problem will get. */
  lemma NoLinksForNextId(problems: seq<Problem>, links: seq<Link>, knowledgePoints: set<int>, nextId: int)
    requires BankConstraints(problems, links, knowledgePoints, nextId)
    ensures forall i :: 0 <= i < |links| ==> links[i].problemId != nextId
  {
    forall i | 0 <= i < |links| ensures links[i].problemId != nextId {
      assert links[i].problemId in ProblemIds(problems);
      var q :| q in problems && q.id == links[i].problemId;
      var j :| 0 <= j < |problems| && problems[j] == q;
    }
  }

  /** Appending a valid row under the next id keeps the constraints. */
  lemma AppendKeepsConstraints(problems: seq<Problem>, links: seq<Link>, knowledgePoints: set<int>, nextId: int, p: Problem)
    requires BankConstraints(problems, links, knowledgePoints, nextId)
    requires nextId >= 1 && p.id == nextId && ValidRow(p)
    ensures BankConstraints(problems + [p], links, knowledgePoints, nextId + 1)
  {
    var after := problems + [p];
    forall i, j | 0 <= i < j < |after| ensures after[i].id != after[j].id {
      if j == |problems| {
        assert after[i] == problems[i];
      }
    }
    assert ProblemIds(problems) <= ProblemIds(after) by {
      forall x | x in ProblemIds(problems) ensures x in ProblemIds(after) {
        var q :| q in problems && q.id == x;
        assert q in after;
      }
    }
  }

  /** Links of a stored problem to existing knowledge points keep the constraints when they
      collide with no other link. */
  lemma NewLinksKeepConstraints(problems: seq<Problem>, links: seq<Link>, knowledgePoints: set<int>, nextId: int,
                                problemId: int, ids: seq<int>)
    requires BankConstraints(problems, links, knowledgePoints, nextId)
    requires problemId in ProblemIds(problems)
    requires UniqueLinks(links + NewLinks(problemId, ids, knowledgePoints))
    ensures BankConstraints(problems, links + NewLinks(problemId, ids, knowledgePoints), knowledgePoints, nextId)
  {
    var added := NewLinks(problemId, ids, knowledgePoints);
    var all := links + added;
    forall j | 0 <= j < |all|
      ensures all[j].problemId in ProblemIds(problems) && all[j].knowledgePointId in knowledgePoints
    {
      if j >= |links| {
        assert all[j] == added[j - |links|];
      } else {
        assert all[j] == links[j];
      }
    }
  }

  /** Dropping every link of one problem leaves no collisions. */
  lemma KeptLinksUnique(links: seq<Link>, id: int)
    requires UniqueLinks(links)
    ensures UniqueLinks(Filter(links, (l: Link) => l.problemId != id))
  {
    FilterKeepsUnique(links, (l: Link) => l.problemId != id);
  }

  lemma {:induction false} FilterKeepsUnique(links: seq<Link>, p: Link -> bool)
    requires UniqueLinks(links)
    ensures UniqueLinks(Filter(links, p))
  {
    if links != [] {
      FilterKeepsUnique(links[1..], p);
      var rest := Filter(links[1..], p);
      if p(links[0]) {
        var r := [links[0]] + rest;
        forall i, j | 0 <= i < j < |r|
          ensures r[i].problemId != r[j].problemId || r[i].knowledgePointId != r[j].knowledgePointId
        {
          if i == 0 {
            assert r[j] in links[1..];
            var k :| 1 <= k < |links| && links[k] == r[j];
          } else {
            assert r[i] == rest[i - 1] && r[j] == rest[j - 1];
          }
        }
      }
    }
  }

  /** The row and link writes of a successful `update_problem` keep the constraints. */
  lemma ReplaceKeepsConstraints(problems: seq<Problem>, links: seq<Link>, newLinks: seq<Link>, knowledgePoints: set<int>,
                                nextId: int, i: int, q: Problem, ids: Option<seq<int>>)
    requires BankConstraints(problems, links, knowledgePoints, nextId)
    requires 0 <= i < |problems| && q.id == problems[i].id && ValidRow(q)
    requires ids.None? ==> newLinks == links
    requires ids.Some? ==> newLinks == Filter(links, (l: Link) => l.problemId != q.id) + NewLinks(q.id, ids.value, knowledgePoints)
    requires UniqueLinks(newLinks)
    ensures BankConstraints(problems[i := q], newLinks, knowledgePoints, nextId)
  {
    OverwriteKeepsConstraints(problems, links, knowledgePoints, nextId, i, q);
    var after := problems[i := q];
    if ids.Some? {
      var kept := Filter(links, (l: Link) => l.problemId != q.id);
      var added := NewLinks(q.id, ids.value, knowledgePoints);
      assert q.id in ProblemIds(after) by {
        assert after[i] == q;
      }
      forall j | 0 <= j < |newLinks|
        ensures newLinks[j].problemId in ProblemIds(after) && newLinks[j].knowledgePointId in knowledgePoints
      {
        if j < |kept| {
          assert newLinks[j] == kept[j] && kept[j] in links;
        } else {
          assert newLinks[j] == added[j - |kept|];
        }
      }
    }
  }

  // ---------------------------------------------------------------- soft delete

  /** A soft-deleted problem is still found by id, but no listing, search or practice draw
      returns it. */
  lemma DeletedProblemHidden(rows: seq<Problem>, links: seq<Link>, p: Problem, skip: nat, limit: nat,
                             filter: Option<ProblemFilter>, keyword: string, count: nat,
                             difficultyRange: Option<seq<int>>, kpIds: Option<seq<int>>, keys: seq<int>)
    requires UniqueProblemIds(rows) && p in rows && p.isDeleted
    ensures GetProblem(rows, p.id) == Some(p)
    ensures p !in ListProblems(rows, links, skip, limit, filter)
    ensures p !in SearchProblems(rows, keyword, skip, limit)
    ensures p !in RandomProblems(rows, links, count, difficultyRange, kpIds, keys)
  {
    var r := GetProblem(rows, p.id);
    var i :| 0 <= i < |rows| && rows[i] == p;
    var j :| 0 <= j < |rows| && rows[j] == r.value;
    assert i == j;
  }
}

=== FILE: problem_labels.dfy ===
/** The display tables and helpers of frontend/src/types/problem.ts: difficulty, review-status and
    source-type labels with their fallbacks, and the success ratio shown next to a problem. */
module ProblemLabels {
  import opened Wrappers
  import opened Text
  import ProblemModel

  const DIFFICULTY_LABELS: map<int, string> :=
    map[1 := "非常简单", 2 := "简单", 3 := "中等", 4 := "困难", 5 := "非常困难"]
  const REVIEW_STATUS_LABELS: map<string, string> :=
    map["pending" := "待审核", "approved" := "已通过", "rejected" := "已拒绝"]
  const SOURCE_TYPE_LABELS: map<string, string> :=
    map["AMC8" := "美国数学竞赛8", "迎春杯" := "迎春杯数学竞赛", "华杯赛" := "华罗庚金杯数学竞赛"]

  const DIFFICULTY_FALLBACK_PREFIX: string := "难度 "
  const UNKNOWN_SOURCE: string := "未知来源"

  /** `LABELS[key] || fallback`: an absent key, like an empty label, falls through. */
  function LabelOr<K>(table: map<K, string>, key: K, fallback: string): string {
    if key in table && table[key] != "" then table[key] else fallback
  }

  /** `getDifficultyText`: the label of a difficulty 1 to 5, and "难度 n" for any other. */
  function DifficultyText(difficulty: int): (text: string)
    ensures 1 <= difficulty <= 5 ==> text == DIFFICULTY_LABELS[difficulty]
    ensures !(1 <= difficulty <= 5) ==> text == DIFFICULTY_FALLBACK_PREFIX + IntToString(difficulty)
  {
    LabelOr(DIFFICULTY_LABELS, difficulty, DIFFICULTY_FALLBACK_PREFIX + IntToString(difficulty))
  }

  lemma {:induction false} NatToStringInjective(a: nat, b: nat)
    requires NatToString(a) == NatToString(b)
    ensures a == b
    decreases a
  {
    var sa, sb := NatToString(a), NatToString(b);
    assert a >= 10 <==> |sa| >= 2;
    assert b >= 10 <==> |sb| >= 2;
    if a >= 10 {
      assert sa[..|sa| - 1] == NatToString(a / 10);
      assert sb[..|sb| - 1] == NatToString(b / 10);
      NatToStringInjective(a / 10, b / 10);
      assert DigitChar(a % 10) == sa[|sa| - 1] == DigitChar(b % 10);
    }
  }

  lemma IntToStringInjective(a: int, b: int)
    requires IntToString(a) == IntToString(b)
    ensures a == b
  {
    var sa, sb := IntToString(a), IntToString(b);
    assert a < 0 <==> sa[0] == '-';
    assert b < 0 <==> sb[0] == '-';
    if a < 0 {
      assert sa[1..] == NatToString(-a) && sb[1..] == NatToString(-b);
      NatToStringInjective(-a, -b);
    } else {
      NatToStringInjective(a, b);
    }
  }

  /** No two difficulties share a text: the labels differ from each other and from every
      fallback, and the fallbacks differ by their number. */
  lemma DifficultyTextInjective(a: int, b: int)
    requires a != b
    ensures DifficultyText(a) != DifficultyText(b)
  {
    var ta, tb := DifficultyText(a), DifficultyText(b);
    if !(1 <= a <= 5) && !(1 <= b <= 5) {
      if ta == tb {
        var n := |DIFFICULTY_FALLBACK_PREFIX|;
        assert ta[n..] == IntToString(a) && tb[n..] == IntToString(b);
        IntToStringInjective(a, b);
      }
    } else if !(1 <= a <= 5) {
      assert ta[0] == '难' && tb[0] != '难';
    } else if !(1 <= b <= 5) {
      assert tb[0] == '难' && ta[0] != '难';
    } else {
      assert ta != tb by {
        if {a, b} == {1, 5} {
          assert ta[2] != tb[2];
        } else {
          assert |ta| != |tb| || ta[0] != tb[0];
        }
      }
    }
  }

  /** `getReviewStatusText`: the label of a known status, else the status itself. */
  function ReviewStatusText(status: string): (text: string)
    ensures status in REVIEW_STATUS_LABELS ==> text == REVIEW_STATUS_LABELS[status]
    ensures status !in REVIEW_STATUS_LABELS ==> text == status
  {
    LabelOr(REVIEW_STATUS_LABELS, status, status)
  }

  /** Both statuses the backend's publish step writes are shown by their label, never raw. */
  lemma BackendStatusesHaveLabels()
    ensures ReviewStatusText(ProblemModel.REVIEW_PENDING) == "待审核"
    ensures ReviewStatusText(ProblemModel.REVIEW_APPROVED) == "已通过"
  {
  }

  /** `getSourceTypeText`: '未知来源' for a missing or empty source, the label of a known one,
      the source itself otherwise. The text is never empty. */
  function SourceTypeText(sourceType: Option<string>): (text: string)
    ensures sourceType.None? || sourceType.value == "" ==> text == UNKNOWN_SOURCE
    ensures sourceType.Some? && sourceType.value in SOURCE_TYPE_LABELS ==> text == SOURCE_TYPE_LABELS[sourceType.value]
    ensures sourceType.Some? && sourceType.value != "" && sourceType.value !in SOURCE_TYPE_LABELS ==>
              text == sourceType.value
    ensures text != ""
  {
    if sourceType.None? || sourceType.value == "" then UNKNOWN_SOURCE
    else LabelOr(SOURCE_TYPE_LABELS, sourceType.value, sourceType.value)
  }

  /** `calculateSuccessRate`, before rounding: a fraction, 0 when nothing was attempted. */
  function SuccessRate(correctAttempts: int, totalAttempts: int): (rate: real)
    ensures totalAttempts == 0 ==> rate == 0.0
    ensures totalAttempts != 0 ==> rate * totalAttempts as real == correctAttempts as real
    ensures 0 <= correctAttempts <= totalAttempts ==> 0.0 <= rate <= 1.0
  {
    if totalAttempts == 0 then 0.0
    else
      var rate := correctAttempts as real / totalAttempts as real;
      assert 0 <= correctAttempts <= totalAttempts ==> rate <= 1.0 by {
        if 0 <= correctAttempts <= totalAttempts {
          assert correctAttempts as real <= totalAttempts as real;
        }
      }
      rate
  }

  /** The frontend's fraction is the backend's percentage divided by 100, zero case included. */
  lemma SuccessRateMatchesAccuracyRate(p: ProblemModel.Problem)
    ensures SuccessRate(p.correctAttempts, p.totalAttempts) * 100.0 == ProblemModel.AccuracyRate(p)
  {
  }
}

=== FILE: problem_model.dfy ===
/** The `Problem` record of backend/app/models/problem.py: its ORM validators, the accuracy ratio,
    the attempt counters, the column defaults, `to_dict`, and the problem–knowledge-point link. */
module ProblemModel {
  import opened Wrappers
  import opened Json

  /** One row of the `problems` table. Timestamps are seconds since the epoch; the options column
      is the JSON object the validators accept. */
  datatype Problem = Problem(
    id: int,
    title: string,
    content: string,
    contentType: string,
    options: map<string, Json>,
    correctAnswer: string,
    solution: Option<string>,
    solutionType: Option<string>,
    difficulty: int,
    sourceType: Option<string>,
    sourceYear: Option<int>,
    sourceDetail: Option<string>,
    estimatedTime: Option<int>,
    isPublished: bool,
    isDeleted: bool,
    reviewedAt: Option<int>,
    reviewStatus: string,
    totalAttempts: int,
    correctAttempts: int,
    createdBy: int,
    createdAt: int)

  /** One row of `problem_knowledge_points`; the pair of ids is the primary key. */
  datatype Link = Link(problemId: int, knowledgePointId: int, isPrimary: bool, weight: real)

  const OPTION_KEYS: seq<string> := ["A", "B", "C", "D"]
  const DEFAULT_DIFFICULTY: int := 3
  const REVIEW_PENDING: string := "pending"
  const REVIEW_APPROVED: string := "approved"

  // ---------------------------------------------------------------- ORM validators

  /** `validate_options`. A string is first parsed as JSON (the parser is a parameter, `None`
      for text that is not JSON); the value must then be an object holding each of the keys
      A, B, C and D, which are checked in that order. */
  function ValidateOptions(value: Json, parseJson: string -> Option<Json>): (r: Result<map<string, Json>, string>)
    ensures r.Success? <==>
              var v := if value.JStr? then parseJson(value.s) else Some(value);
              v.Some? && v.value.JObj? && forall k :: k in OPTION_KEYS ==> k in v.value.fields
    ensures r.Success? ==> r.value == (if value.JStr? then parseJson(value.s).value.fields else value.fields)
    ensures value.JStr? && parseJson(value.s).None? ==> r == Failure("options必须是有效的JSON字符串")
  {
    var parsed := if value.JStr? then parseJson(value.s) else Some(value);
    if parsed.None? then Failure("options必须是有效的JSON字符串")
    else if !parsed.value.JObj? then Failure("options必须是字典格式")
    else MissingOptionCheck(parsed.value.fields, 0)
  }

  /** The `for option in ['A', 'B', 'C', 'D']` loop of `validate_options`, from position `i`. */
  function MissingOptionCheck(options: map<string, Json>, i: nat): (r: Result<map<string, Json>, string>)
    requires i <= |OPTION_KEYS|
    ensures r.Success? <==> forall k :: k in OPTION_KEYS[i..] ==> k in options
    ensures r.Success? ==> r.value == options
    ensures r.Failure? ==> exists j :: i <= j < |OPTION_KEYS| && OPTION_KEYS[j] !in options
                                       && r.error == "缺少选项" + OPTION_KEYS[j]
    decreases |OPTION_KEYS| - i
  {
    if i == |OPTION_KEYS| then Success(options)
    else if OPTION_KEYS[i] !in options then Failure("缺少选项" + OPTION_KEYS[i])
    else MissingOptionCheck(options, i + 1)
  }

  /** `validate_difficulty`. */
  function ValidateDifficulty(difficulty: int): (r: Result<int, string>)
    ensures r.Success? <==> 1 <= difficulty <= 5
    ensures r.Success? ==> r.value == difficulty
    ensures r.Failure? ==> r.error == "难度必须在1-5之间"
  {
    if !(1 <= difficulty <= 5) then Failure("难度必须在1-5之间") else Success(difficulty)
  }

  // ---------------------------------------------------------------- counters

  /** The counters are consistent: never negative, and no more correct attempts than attempts. */
  predicate CountersConsistent(p: Problem) {
    0 <= p.correctAttempts <= p.totalAttempts
  }

  /** `accuracy_rate`, before rounding: a percentage, 0 when nothing was attempted. */
  function AccuracyRate(p: Problem): (rate: real)
    ensures p.totalAttempts == 0 ==> rate == 0.0
    ensures CountersConsistent(p) ==> 0.0 <= rate <= 100.0
  {
    if p.totalAttempts == 0 then 0.0
    else
      var r := p.correctAttempts as real / p.totalAttempts as real * 100.0;
      assert CountersConsistent(p) ==> 0.0 <= r <= 100.0 by {
        if CountersConsistent(p) {
          RatioBounds(p.correctAttempts, p.totalAttempts);
        }
      }
      r
  }

  lemma RatioBounds(part: int, whole: int)
    requires 0 <= part <= whole && whole > 0
    ensures 0.0 <= part as real / whole as real * 100.0 <= 100.0
  {
    assert part as real / whole as real <= 1.0 by {
      assert part as real <= whole as real;
    }
  }

  /** `increment_attempts`: one more attempt, and one more correct attempt iff it was correct. */
  function IncrementAttempts(p: Problem, isCorrect: bool): (q: Problem)
    ensures q.totalAttempts == p.totalAttempts + 1
    ensures q.correctAttempts == p.correctAttempts + (if isCorrect then 1 else 0)
    ensures q.(totalAttempts := p.totalAttempts, correctAttempts := p.correctAttempts) == p
    ensures CountersConsistent(p) ==> CountersConsistent(q)
  {
    p.(totalAttempts := p.totalAttempts + 1,
       correctAttempts := if isCorrect then p.correctAttempts + 1 else p.correctAttempts)
  }

  /** Recording answers moves the accuracy towards the answers: a correct answer never lowers it
      and an incorrect one never raises it. */
  lemma {:induction false} IncrementMovesAccuracy(p: Problem, isCorrect: bool)
    requires CountersConsistent(p)
    ensures isCorrect ==> AccuracyRate(IncrementAttempts(p, isCorrect)) >= AccuracyRate(p)
    ensures !isCorrect ==> AccuracyRate(IncrementAttempts(p, isCorrect)) <= AccuracyRate(p)
  {
    var q := IncrementAttempts(p, isCorrect);
    if p.totalAttempts > 0 {
      var c, t := p.correctAttempts as real, p.totalAttempts as real;
      assert AccuracyRate(p) == c / t * 100.0;
      if isCorrect {
        assert AccuracyRate(q) == (c + 1.0) / (t + 1.0) * 100.0;
        RatioGrows(c, t);
      } else {
        assert AccuracyRate(q) == c / (t + 1.0) * 100.0;
        RatioShrinks(c, t);
      }
    } else {
      RatioBounds(q.correctAttempts, q.totalAttempts);
    }
  }

  lemma RatioGrows(c: real, t: real)
    requires 0.0 <= c <= t && t > 0.0
    ensures (c + 1.0) / (t + 1.0) * 100.0 >= c / t * 100.0
  {
    var x, y := (c + 1.0) / (t + 1.0), c / t;
    assert x * (t + 1.0) == c + 1.0 && y * t == c;
    assert (c + 1.0) * t >= c * (t + 1.0);
    assert x * (t + 1.0) * t >= y * t * (t + 1.0);
    assert x >= y;
  }

  lemma RatioShrinks(c: real, t: real)
    requires 0.0 <= c <= t && t > 0.0
    ensures c / (t + 1.0) * 100.0 <= c / t * 100.0
  {
    var x, y := c / (t + 1.0), c / t;
    assert x * (t + 1.0) == c;
    assert y * (t + 1.0) == c + y by {
      assert y * t == c;
    }
    assert y >= 0.0;
    if x > y {
      ScaleStrict(x, y, t + 1.0);
    }
  }

  lemma ScaleStrict(a: real, b: real, k: real)
    requires a > b && k > 0.0
    ensures a * k > b * k
  {
  }

  // ---------------------------------------------------------------- defaults and to_dict

  /** The column defaults a new row receives when the creator leaves them out: difficulty 3,
      unpublished, not deleted, review "pending", both counters 0. */
  function DefaultProblem(id: int, title: string, content: string, options: map<string, Json>,
                          correctAnswer: string, createdBy: int, createdAt: int): (p: Problem)
    ensures p.difficulty == 3 && !p.isPublished && !p.isDeleted && p.reviewStatus == "pending"
    ensures p.totalAttempts == 0 && p.correctAttempts == 0 && CountersConsistent(p)
    ensures p.contentType == "text" && p.solutionType == Some("text") && p.reviewedAt.None?
  {
    Problem(id, title, content, "text", options, correctAnswer, None, Some("text"), DEFAULT_DIFFICULTY,
            None, None, None, None, false, false, None, REVIEW_PENDING, 0, 0, createdBy, createdAt)
  }

  /** The keys `to_dict` always writes: the problem's text, then its status and statistics. */
  const TEXT_FIELDS: set<string> := {"id", "title", "content", "content_type", "options",
    "correct_answer", "difficulty", "source_type", "source_year", "estimated_time"}
  const STATUS_FIELDS: set<string> := {"is_published", "review_status", "total_attempts",
    "correct_attempts", "accuracy_rate", "created_at"}

  /** The text part of `to_dict`: each key with its column's value (`None` as JSON null). */
  function TextColumns(p: Problem): (d: map<string, Json>)
    ensures d.Keys == TEXT_FIELDS
    ensures d["id"] == JInt(p.id) && d["title"] == JStr(p.title) && d["content"] == JStr(p.content)
    ensures d["content_type"] == JStr(p.contentType) && d["options"] == JObj(p.options)
    ensures d["correct_answer"] == JStr(p.correctAnswer) && d["difficulty"] == JInt(p.difficulty)
    ensures d["source_type"] == OptStr(p.sourceType) && d["source_year"] == OptInt(p.sourceYear)
    ensures d["estimated_time"] == OptInt(p.estimatedTime)
  {
    map[
      "id" := JInt(p.id),
      "title" := JStr(p.title),
      "content" := JStr(p.content),
      "content_type" := JStr(p.contentType),
      "options" := JObj(p.options),
      "correct_answer" := JStr(p.correctAnswer),
      "difficulty" := JInt(p.difficulty),
      "source_type" := OptStr(p.sourceType),
      "source_year" := OptInt(p.sourceYear),
      "estimated_time" := OptInt(p.estimatedTime)]
  }

  /** The status part of `to_dict`: the flags, the counters, the accuracy percentage and the
      creation instant. */
  function StatusColumns(p: Problem): (d: map<string, Json>)
    ensures d.Keys == STATUS_FIELDS
    ensures d["is_published"] == JBool(p.isPublished) && d["review_status"] == JStr(p.reviewStatus)
    ensures d["total_attempts"] == JInt(p.totalAttempts) && d["correct_attempts"] == JInt(p.correctAttempts)
    ensures d["accuracy_rate"] == JReal(AccuracyRate(p)) && d["created_at"] == JInt(p.createdAt)
  {
    map[
      "is_published" := JBool(p.isPublished),
      "review_status" := JStr(p.reviewStatus),
      "total_attempts" := JInt(p.totalAttempts),
      "correct_attempts" := JInt(p.correctAttempts),
      "accuracy_rate" := JReal(AccuracyRate(p)),
      "created_at" := JInt(p.createdAt)]
  }

  /** The keys `to_dict` writes only in some cases. */
  const OPTIONAL_FIELDS: set<string> := {"solution", "solution_type", "creator", "knowledge_points"}

  /** No key is in two of the three key sets. */
  lemma FieldSetsDisjoint()
    ensures TEXT_FIELDS !! STATUS_FIELDS
    ensures OPTIONAL_FIELDS !! TEXT_FIELDS + STATUS_FIELDS
    ensures "solution" in OPTIONAL_FIELDS && "solution_type" in OPTIONAL_FIELDS
    ensures "creator" in OPTIONAL_FIELDS && "knowledge_points" in OPTIONAL_FIELDS
  {
  }

  /** The text and status parts of `to_dict` write disjoint keys, and neither writes an optional
      key. */
  lemma ColumnsDisjoint(p: Problem)
    ensures TextColumns(p).Keys !! StatusColumns(p).Keys
    ensures forall k :: k in OPTIONAL_FIELDS ==> k !in TextColumns(p) && k !in StatusColumns(p)
    ensures "solution" in OPTIONAL_FIELDS && "solution_type" in OPTIONAL_FIELDS
    ensures "creator" in OPTIONAL_FIELDS && "knowledge_points" in OPTIONAL_FIELDS
  {
    var text, status := TextColumns(p).Keys, StatusColumns(p).Keys;
    FieldSetsDisjoint();
    assert text == TEXT_FIELDS && status == STATUS_FIELDS;
  }

  /** The optional part of `to_dict`: the solution and its type only when asked for and the
      solution is non-empty; the creator summary only when asked for and the creator is known;
      the knowledge points only when there are some. */
  function OptionalColumns(p: Problem, includeSolution: bool, includeCreator: bool, creator: Option<Json>,
                           knowledgePoints: seq<Json>): (d: map<string, Json>)
    ensures d.Keys <= OPTIONAL_FIELDS
    ensures "solution" in d <==> includeSolution && p.solution.Some? && p.solution.value != ""
    ensures "solution_type" in d <==> "solution" in d
    ensures "creator" in d <==> includeCreator && creator.Some?
    ensures "knowledge_points" in d <==> |knowledgePoints| > 0
    ensures "solution" in d ==> d["solution"] == JStr(p.solution.value)
                                && d["solution_type"] == OptStr(p.solutionType)
    ensures "creator" in d ==> d["creator"] == creator.value
    ensures "knowledge_points" in d ==> d["knowledge_points"] == JArr(knowledgePoints)
  {
    var withSolution: map<string, Json> :=
      if includeSolution && p.solution.Some? && p.solution.value != "" then
        map["solution" := JStr(p.solution.value), "solution_type" := OptStr(p.solutionType)]
      else map[];
    var withCreator :=
      if includeCreator && creator.Some? then withSolution["creator" := creator.value] else withSolution;
    if |knowledgePoints| > 0 then withCreator["knowledge_points" := JArr(knowledgePoints)]
    else withCreator
  }

  /** `to_dict`: the text and status columns always, then the optional ones; no other key. */
  function ToDict(p: Problem, includeSolution: bool, includeCreator: bool, creator: Option<Json>,
                  knowledgePoints: seq<Json>): (d: map<string, Json>)
    ensures "solution" in d <==> includeSolution && p.solution.Some? && p.solution.value != ""
    ensures "solution_type" in d <==> "solution" in d
    ensures "creator" in d <==> includeCreator && creator.Some?
    ensures "knowledge_points" in d <==> |knowledgePoints| > 0
    ensures forall k :: k in d ==> k in TEXT_FIELDS || k in STATUS_FIELDS || k in OPTIONAL_FIELDS
    ensures forall k :: k in TEXT_FIELDS ==> k in d && d[k] == TextColumns(p)[k]
    ensures forall k :: k in STATUS_FIELDS ==> k in d && d[k] == StatusColumns(p)[k]
    ensures "correct_answer" in d && d["correct_answer"] == JStr(p.correctAnswer)
    ensures "accuracy_rate" in d && d["accuracy_rate"] == JReal(AccuracyRate(p))
    ensures "solution" in d ==> p.solution.Some? && d["solution"] == JStr(p.solution.value)
                                && d["solution_type"] == OptStr(p.solutionType)
    ensures "creator" in d ==> creator.Some? && d["creator"] == creator.value
    ensures "knowledge_points" in d ==> d["knowledge_points"] == JArr(knowledgePoints)
  {
    var base := TextColumns(p) + StatusColumns(p);
    var extra := OptionalColumns(p, includeSolution, includeCreator, creator, knowledgePoints);
    ColumnsDisjoint(p);
    base + extra
  }
}

=== FILE: problem_routes.dfy ===
/** The problem endpoints of backend/app/api/routes/problems.py. Every route first resolves its
    authentication dependency (a failure there answers the request); a query parameter or body
    the schema refuses is answered 422 next; then the route's own checks run in the order the
    code makes them. Routes that only read are functions of the tables; routes that commit are
    methods on the `ProblemBank`. The `users` rows, the signing key and the clock are parameters. */
module ProblemRoutes {
  import opened Wrappers
  import opened Json
  import opened Http
  import opened Security
  import opened Query
  import opened UserModel
  import opened Dependencies
  import opened ProblemModel
  import opened ProblemSchemas
  import opened ProblemCrud

  const ProblemNotFound: HttpError := HttpError(404, "题目不存在", false)
  const ViewForbidden: HttpError := HttpError(403, "没有权限查看此题目", false)
  const EditForbidden: HttpError := HttpError(403, "没有权限修改此题目", false)

  const DELETED_MESSAGE: string := "题目删除成功"
  const ATTEMPT_MESSAGE: string := "答题记录已更新"

  /** The bounds and default of the `count` query parameter of the practice route. */
  const PRACTICE_MIN_COUNT: int := 1
  const PRACTICE_MAX_COUNT: int := 50
  const PRACTICE_DEFAULT_COUNT: int := 10

  /** Administrators and teachers see unpublished problems; everyone else only published ones. */
  predicate SeesDrafts(u: User) {
    IsAdmin(u) || IsTeacher(u)
  }

  /** Only a problem's creator or an administrator may edit it; being a teacher is not enough. */
  predicate MayEdit(u: User, p: Problem) {
    p.createdBy == u.id || IsAdmin(u)
  }

  /** With unique ids, the lookup by a stored row's id finds that row. */
  lemma GetProblemOfRow(rows: seq<Problem>, p: Problem)
    requires UniqueProblemIds(rows) && p in rows
    ensures GetProblem(rows, p.id) == Some(p)
  {
    var q := GetProblem(rows, p.id).value;
    var i :| 0 <= i < |rows| && rows[i] == p;
    var j :| 0 <= j < |rows| && rows[j] == q;
    assert i == j;
  }

  // ---------------------------------------------------------------- GET /

  /** The filter `read_problems` builds: the request's four filters, published problems only,
      and the publication condition dropped for a caller who sees drafts. */
  function ListingFilter(difficulty: Option<seq<int>>, sourceType: Option<string>, knowledgePointId: Option<int>,
                         search: Option<string>, seesDrafts: bool): (f: ProblemFilter)
    ensures f.isPublished == (if seesDrafts then None else Some(true))
    ensures f.difficulty == difficulty && f.sourceType == sourceType && f.sourceYear.None?
    ensures f.knowledgePointId == knowledgePointId && f.search == search
    ensures f.sortBy == DefaultFilter().sortBy && f.sortOrder == DefaultFilter().sortOrder
  {
    var f := DefaultFilter().(difficulty := difficulty, sourceType := sourceType,
                              knowledgePointId := knowledgePointId, search := search);
    if seesDrafts then f.(isPublished := None) else f
  }

  /** `GET /`: the filter starts as "published only" and is widened in place for an
      administrator or teacher before the query runs. */
  method ReadProblems(bank: ProblemBank, users: seq<User>, credentials: Option<Token>, key: string, now: int,
                      skip: nat, limit: nat, difficulty: Option<seq<int>>, sourceType: Option<string>,
                      knowledgePointId: Option<int>, search: Option<string>)
    returns (r: Result<seq<Problem>, HttpError>)
    ensures var g := GetCurrentUser(users, credentials, key, now);
            && (g.Failure? ==> r == Failure(g.error))
            && (g.Success? ==>
                  r == Success(ListProblems(bank.problems, bank.links, skip, limit,
                                            Some(ListingFilter(difficulty, sourceType, knowledgePointId, search,
                                                               SeesDrafts(g.value))))))
            && (r.Success? ==> |r.value| <= limit
                               && forall p :: p in r.value ==>
                                    p in bank.problems && !p.isDeleted && (SeesDrafts(g.value) || p.isPublished))
  {
    var g := GetCurrentUser(users, credentials, key, now);
    if g.Failure? {
      return Failure(g.error);
    }
    var u := g.value;
    var f := ProblemFilter(difficulty, sourceType, None, knowledgePointId, Some(true), search, "created_at", "desc");
    if IsAdmin(u) || IsTeacher(u) {
      f := f.(isPublished := None);
    }
    var rows := bank.GetProblems(skip, limit, Some(f));
    r := Success(rows);
  }

  /** With no filter set and a page large enough, a live problem is listed exactly when it is
      published or the caller sees drafts. */
  lemma ListingShowsDraftsToEditorsOnly(rows: seq<Problem>, links: seq<Link>, limit: nat, p: Problem, seesDrafts: bool)
    requires p in rows && !p.isDeleted && |rows| <= limit
    ensures p in ListProblems(rows, links, 0, limit, Some(ListingFilter(None, None, None, None, seesDrafts)))
            <==> p.isPublished || seesDrafts
  {
    var filter := Some(ListingFilter(None, None, None, None, seesDrafts));
    if p.isPublished || seesDrafts {
      assert Listed(p, filter, links);
      ListProblemsComplete(rows, links, limit, filter, p);
    }
  }

  // ---------------------------------------------------------------- GET /{problem_id}

  /** `GET /{problem_id}`: an unknown id is a 404, checked before the 403 an unpublished problem
      gives a caller who does not see drafts. The lookup does not skip soft-deleted rows. */
  function ReadProblem(users: seq<User>, credentials: Option<Token>, key: string, now: int,
                       rows: seq<Problem>, id: int): (r: Result<Problem, HttpError>)
    ensures var g := GetCurrentUser(users, credentials, key, now);
            && (g.Failure? ==> r == Failure(g.error))
            && (g.Success? ==>
                  && (r == Failure(ProblemNotFound) <==> forall j :: 0 <= j < |rows| ==> rows[j].id != id)
                  && (r == Failure(ViewForbidden) <==>
                        GetProblem(rows, id).Some? && !GetProblem(rows, id).value.isPublished && !SeesDrafts(g.value))
                  && (r.Success? <==>
                        GetProblem(rows, id).Some? && (GetProblem(rows, id).value.isPublished || SeesDrafts(g.value))))
            && (r.Success? ==> r.value in rows && r.value.id == id && (r.value.isPublished || SeesDrafts(g.value)))
  {
    match GetCurrentUser(users, credentials, key, now)
    case Failure(e) => Failure(e)
    case Success(u) =>
      match GetProblem(rows, id)
      case None => Failure(ProblemNotFound)
      case Some(p) =>
        if !p.isPublished && !(IsAdmin(u) || IsTeacher(u)) then Failure(ViewForbidden) else Success(p)
  }

  /** The list and the detail view agree: every problem the list shows a caller, the detail
      view shows that caller too. */
  lemma ListedProblemsAreReadable(users: seq<User>, credentials: Option<Token>, key: string, now: int,
                                  rows: seq<Problem>, links: seq<Link>, skip: nat, limit: nat,
                                  difficulty: Option<seq<int>>, sourceType: Option<string>,
                                  knowledgePointId: Option<int>, search: Option<string>, p: Problem)
    requires UniqueProblemIds(rows)
    requires GetCurrentUser(users, credentials, key, now).Success?
    requires p in ListProblems(rows, links, skip, limit,
                               Some(ListingFilter(difficulty, sourceType, knowledgePointId, search,
                                                  SeesDrafts(GetCurrentUser(users, credentials, key, now).value))))
    ensures ReadProblem(users, credentials, key, now, rows, p.id) == Success(p)
  {
    GetProblemOfRow(rows, p);
  }

  /** The converse does not hold: a soft-deleted problem is never listed, but its detail view
      still answers. */
  lemma DeletedProblemStillReadable(users: seq<User>, credentials: Option<Token>, key: string, now: int,
                                    rows: seq<Problem>, links: seq<Link>, skip: nat, limit: nat,
                                    filter: Option<ProblemFilter>, p: Problem)
    requires UniqueProblemIds(rows) && p in rows && p.isDeleted && p.isPublished
    requires GetCurrentUser(users, credentials, key, now).Success?
    ensures p !in ListProblems(rows, links, skip, limit, filter)
    ensures ReadProblem(users, credentials, key, now, rows, p.id) == Success(p)
  {
    GetProblemOfRow(rows, p);
  }

  // ---------------------------------------------------------------- POST /

  /** `POST /`: teachers and administrators only; the body is validated next; the new row names
      the caller as creator. The row is committed before the links, so a knowledge point listed
      twice leaves the problem stored and answers 500. The route's `ValueError` branch (400)
      cannot be reached: a validated body always passes the ORM validators
      (`SchemaOptionsPassOrmValidator`). */
  method CreateNewProblem(bank: ProblemBank, users: seq<User>, credentials: Option<Token>, key: string, now: int,
                          input: ProblemCreateInput)
    returns (r: Result<Problem, HttpError>)
    requires bank.Valid()
    modifies bank
    ensures bank.Valid()
    ensures var g := GetCurrentTeacherOrAdmin(users, credentials, key, now);
            && (g.Failure? ==> r == Failure(g.error) && unchanged(bank))
            && (g.Success? && ValidateProblemCreate(input).Failure? ==> r == Failure(ValidationFailed) && unchanged(bank))
            && (g.Success? && ValidateProblemCreate(input).Success? ==>
                  var pc := ValidateProblemCreate(input).value;
                  var row := NewProblem(old(bank.nextId), pc, g.value.id, now);
                  && bank.problems == old(bank.problems) + [row]
                  && (r.Success? <==> NoRepeats(KnownIds(pc.knowledgePointIds, old(bank.knowledgePoints))))
                  && (r.Success? ==> r.value == row && r.value.createdBy == g.value.id
                                     && bank.links == old(bank.links) + NewLinks(row.id, pc.knowledgePointIds, bank.knowledgePoints))
                  && (r.Failure? ==> r.error == InternalError && bank.links == old(bank.links)))
  {
    var g := GetCurrentTeacherOrAdmin(users, credentials, key, now);
    if g.Failure? {
      return Failure(g.error);
    }
    var validated := ValidateProblemCreate(input);
    if validated.Failure? {
      return Failure(ValidationFailed);
    }
    var created := bank.CreateProblem(validated.value, g.value.id, now);
    match created
    case Failure(_) =>
      r := Failure(InternalError);
    case Success(p) =>
      r := Success(p);
  }

  // ---------------------------------------------------------------- PUT /{problem_id}

  /** The checks `PUT /{problem_id}` makes before it writes: the role gate, the body, then 404
      for an unknown id, then 403 unless the caller created the problem or is an administrator.
      On success, the account the request acts for. */
  function UpdateGate(users: seq<User>, credentials: Option<Token>, key: string, now: int,
                      rows: seq<Problem>, id: int, upd: ProblemUpdate): (r: Result<User, HttpError>)
    ensures var g := GetCurrentTeacherOrAdmin(users, credentials, key, now);
            && (g.Failure? ==> r == Failure(g.error))
            && (g.Success? && ValidateProblemUpdate(upd).Failure? ==> r == Failure(ValidationFailed))
            && (g.Success? && ValidateProblemUpdate(upd).Success? ==>
                  && (r == Failure(ProblemNotFound) <==> forall j :: 0 <= j < |rows| ==> rows[j].id != id)
                  && (r == Failure(EditForbidden) <==>
                        GetProblem(rows, id).Some? && !MayEdit(g.value, GetProblem(rows, id).value))
                  && (r.Success? <==> GetProblem(rows, id).Some? && MayEdit(g.value, GetProblem(rows, id).value)))
            && (r.Success? ==> r == g && WellFormedUpdate(upd) && GetProblem(rows, id).Some?)
  {
    match GetCurrentTeacherOrAdmin(users, credentials, key, now)
    case Failure(e) => Failure(e)
    case Success(u) =>
      if ValidateProblemUpdate(upd).Failure? then Failure(ValidationFailed)
      else
        match GetProblem(rows, id)
        case None => Failure(ProblemNotFound)
        case Some(p) => if p.createdBy != u.id && !IsAdmin(u) then Failure(EditForbidden) else Success(u)
  }

  /** A teacher may edit only the problems they created, and an administrator any problem. */
  lemma EditRightsFollowOwnership(users: seq<User>, credentials: Option<Token>, key: string, now: int,
                                  rows: seq<Problem>, p: Problem, upd: ProblemUpdate)
    requires UniqueProblemIds(rows) && p in rows && WellFormedUpdate(upd)
    requires GetCurrentTeacherOrAdmin(users, credentials, key, now).Success?
    ensures var u := GetCurrentTeacherOrAdmin(users, credentials, key, now).value;
            UpdateGate(users, credentials, key, now, rows, p.id, upd).Success? <==> p.createdBy == u.id || IsAdmin(u)
  {
    GetProblemOfRow(rows, p);
  }

  /** `PUT /{problem_id}`: past the gate the fields are written; a knowledge point listed twice
      makes the commit fail (500) and nothing changes. */
  method UpdateExistingProblem(bank: ProblemBank, users: seq<User>, credentials: Option<Token>, key: string, now: int,
                               id: int, upd: ProblemUpdate)
    returns (r: Result<Problem, HttpError>)
    requires bank.Valid()
    modifies bank
    ensures bank.Valid()
    ensures var gate := UpdateGate(users, credentials, key, now, old(bank.problems), id, upd);
            && (gate.Failure? ==> r == Failure(gate.error))
            && (gate.Success? ==>
                  (r.Success? <==> (upd.knowledgePointIds.None?
                                    || NoRepeats(KnownIds(upd.knowledgePointIds.value, bank.knowledgePoints)))))
            && (gate.Success? && r.Failure? ==> r.error == InternalError)
    ensures r.Failure? ==> bank.problems == old(bank.problems) && bank.links == old(bank.links)
    ensures r.Success? ==>
              var i := IndexOfProblem(old(bank.problems), id);
              0 <= i && r.value == ApplyProblemUpdate(old(bank.problems)[i], upd)
              && bank.problems == old(bank.problems)[i := r.value]
  {
    var gate := UpdateGate(users, credentials, key, now, bank.problems, id, upd);
    if gate.Failure? {
      return Failure(gate.error);
    }
    var p := GetProblem(bank.problems, id).value;
    var j :| 0 <= j < |bank.problems| && bank.problems[j] == p;
    var updated := bank.UpdateProblem(id, upd);
    match updated
    case Failure(_) =>
      r := Failure(InternalError);
    case Success(q) =>
      r := Success(q);
  }

  // ---------------------------------------------------------------- DELETE, publish

  /** `DELETE /{problem_id}`: administrators only; a soft delete, 404 for an unknown id. */
  method DeleteExistingProblem(bank: ProblemBank, users: seq<User>, credentials: Option<Token>, key: string, now: int,
                               id: int)
    returns (r: Result<string, HttpError>)
    requires bank.Valid()
    modifies bank
    ensures bank.Valid()
    ensures var g := GetCurrentAdminUser(users, credentials, key, now);
            && (g.Failure? ==> r == Failure(g.error) && unchanged(bank))
            && (g.Success? ==> (r == Failure(ProblemNotFound) <==> forall j :: 0 <= j < |old(bank.problems)| ==> old(bank.problems)[j].id != id))
            && (r.Success? <==> g.Success? && exists j :: 0 <= j < |old(bank.problems)| && old(bank.problems)[j].id == id)
    ensures r.Success? ==> r.value == DELETED_MESSAGE
                           && var i := IndexOfProblem(old(bank.problems), id);
                              0 <= i && bank.problems == old(bank.problems)[i := old(bank.problems)[i].(isDeleted := true)]
    ensures r.Failure? ==> bank.problems == old(bank.problems)
    ensures bank.links == old(bank.links)
  {
    var g := GetCurrentAdminUser(users, credentials, key, now);
    if g.Failure? {
      return Failure(g.error);
    }
    var ok := bank.DeleteProblem(id);
    if !ok {
      return Failure(ProblemNotFound);
    }
    r := Success(DELETED_MESSAGE);
  }

  /** The message `POST /{problem_id}/publish` answers with. */
  function PublishMessage(publish: bool): (m: string)
    ensures m == "题目发布成功" <==> publish
    ensures m == "题目取消发布成功" <==> !publish
  {
    "题目" + (if publish then "发布" else "取消发布") + "成功"
  }

  /** `POST /{problem_id}/publish`: teachers and administrators, whoever created the problem;
      `publish` defaults to true. */
  method PublishExistingProblem(bank: ProblemBank, users: seq<User>, credentials: Option<Token>, key: string, now: int,
                                id: int, publish: bool)
    returns (r: Result<string, HttpError>)
    requires bank.Valid()
    modifies bank
    ensures bank.Valid()
    ensures var g := GetCurrentTeacherOrAdmin(users, credentials, key, now);
            && (g.Failure? ==> r == Failure(g.error) && unchanged(bank))
            && (r.Success? <==> g.Success? && exists j :: 0 <= j < |old(bank.problems)| && old(bank.problems)[j].id == id)
            && (g.Success? && r.Failure? ==> r == Failure(ProblemNotFound))
    ensures r.Success? ==> r.value == PublishMessage(publish)
                           && var i := IndexOfProblem(old(bank.problems), id);
                              0 <= i && bank.problems == old(bank.problems)[i := Publish(old(bank.problems)[i], publish, now)]
    ensures r.Failure? ==> bank.problems == old(bank.problems)
    ensures bank.links == old(bank.links)
  {
    var g := GetCurrentTeacherOrAdmin(users, credentials, key, now);
    if g.Failure? {
      return Failure(g.error);
    }
    var ok := bank.PublishProblem(id, publish, now);
    if !ok {
      return Failure(ProblemNotFound);
    }
    r := Success(PublishMessage(publish));
  }

  // ---------------------------------------------------------------- GET /stats/summary

  /** The response of `get_problem_stats` without `avg_accuracy`. */
  datatype ProblemStats = ProblemStats(totalProblems: nat, publishedProblems: nat,
                                       byDifficulty: map<int, nat>, bySource: map<string, nat>)

  /** A count of rows is positive exactly when one row qualifies. */
  lemma CountPositive(rows: seq<Problem>, p: Problem -> bool)
    ensures |Filter(rows, p)| > 0 <==> exists x :: x in rows && p(x)
  {
    if |Filter(rows, p)| > 0 {
      assert Filter(rows, p)[0] in Filter(rows, p);
    }
  }

  /** The two `GROUP BY` queries: one entry per difficulty, and per non-null source, that some
      live published problem has, with its count. */
  function Stats(rows: seq<Problem>): (s: ProblemStats)
    ensures s.totalProblems == TotalProblems(rows) && s.publishedProblems == PublishedProblems(rows)
    ensures forall d :: d in s.byDifficulty <==> DifficultyCount(rows, d) > 0
    ensures forall d :: d in s.byDifficulty ==> s.byDifficulty[d] == DifficultyCount(rows, d)
    ensures forall t :: t in s.bySource <==> SourceCount(rows, t) > 0
    ensures forall t :: t in s.bySource ==> s.bySource[t] == SourceCount(rows, t)
  {
    var difficulties := set p | p in rows && !p.isDeleted && p.isPublished :: p.difficulty;
    var sources := set p | p in rows && !p.isDeleted && p.isPublished && p.sourceType.Some? :: p.sourceType.value;
    forall d ensures d in difficulties <==> DifficultyCount(rows, d) > 0 {
      CountPositive(rows, (p: Problem) => !p.isDeleted && p.isPublished && p.difficulty == d);
    }
    forall t ensures t in sources <==> SourceCount(rows, t) > 0 {
      CountPositive(rows, (p: Problem) => !p.isDeleted && p.isPublished && p.sourceType == Some(t));
    }
    ProblemStats(TotalProblems(rows), PublishedProblems(rows),
                 map d | d in difficulties :: DifficultyCount(rows, d),
                 map t | t in sources :: SourceCount(rows, t))
  }

  /** Every group count is positive and within the published count. */
  lemma StatsGroupsBounded(rows: seq<Problem>)
    ensures forall d :: d in Stats(rows).byDifficulty ==> 0 < Stats(rows).byDifficulty[d] <= Stats(rows).publishedProblems
    ensures forall t :: t in Stats(rows).bySource ==> 0 < Stats(rows).bySource[t] <= Stats(rows).publishedProblems
  {
    forall d | d in Stats(rows).byDifficulty ensures Stats(rows).byDifficulty[d] <= Stats(rows).publishedProblems {
      StatsNest(rows, d, "");
    }
    forall t | t in Stats(rows).bySource ensures Stats(rows).bySource[t] <= Stats(rows).publishedProblems {
      StatsNest(rows, 0, t);
    }
  }

  /** `GET /stats/summary`: any signed-in account. */
  function GetProblemsStats(users: seq<User>, credentials: Option<Token>, key: string, now: int, rows: seq<Problem>)
    : (r: Result<ProblemStats, HttpError>)
    ensures r.Success? <==> GetCurrentUser(users, credentials, key, now).Success?
    ensures r.Failure? ==> r.error == GetCurrentUser(users, credentials, key, now).error
    ensures r.Success? ==> r.value == Stats(rows)
    ensures r.Success? ==> r.value.publishedProblems <= r.value.totalProblems <= |rows|
  {
    match GetCurrentUser(users, credentials, key, now)
    case Failure(e) => Failure(e)
    case Success(_) =>
      StatsNest(rows, 0, "");
      Success(Stats(rows))
  }

  // ---------------------------------------------------------------- GET /practice/random

  /** The `{id, name, code}` summaries of a problem's knowledge points, one per link, in link
      order. A knowledge point's name and code come from `describe`. */
  function KnowledgePointSummaries(links: seq<Link>, problemId: int, describe: int -> (string, string))
    : (r: seq<Json>)
    ensures |r| == |Filter(links, (l: Link) => l.problemId == problemId)|
    ensures forall i :: 0 <= i < |r| ==>
              var kp := Filter(links, (l: Link) => l.problemId == problemId)[i].knowledgePointId;
              && Linked(links, problemId, kp)
              && r[i] == JObj(map["id" := JInt(kp), "name" := JStr(describe(kp).0), "code" := JStr(describe(kp).1)])
  {
    var mine := Filter(links, (l: Link) => l.problemId == problemId);
    forall i | 0 <= i < |mine| ensures Linked(links, problemId, mine[i].knowledgePointId) {
      assert mine[i] in links;
      var j :| 0 <= j < |links| && links[j] == mine[i];
    }
    seq(|mine|, i requires 0 <= i < |mine| =>
      JObj(map["id" := JInt(mine[i].knowledgePointId),
               "name" := JStr(describe(mine[i].knowledgePointId).0),
               "code" := JStr(describe(mine[i].knowledgePointId).1)]))
  }

  const PRACTICE_KEYS: set<string> :=
    {"id", "title", "content", "content_type", "options", "difficulty", "estimated_time", "knowledge_points"}

  /** One practice item: the problem without its answer or its solution. */
  function PracticeItem(p: Problem, links: seq<Link>, describe: int -> (string, string)): (d: map<string, Json>)
    ensures d.Keys == PRACTICE_KEYS
    ensures "correct_answer" !in d && "solution" !in d && "solution_type" !in d
    ensures d["knowledge_points"] == JArr(KnowledgePointSummaries(links, p.id, describe))
  {
    map["id" := JInt(p.id),
        "title" := JStr(p.title),
        "content" := JStr(p.content),
        "content_type" := JStr(p.contentType),
        "options" := JObj(p.options),
        "difficulty" := JInt(p.difficulty),
        "estimated_time" := OptInt(p.estimatedTime),
        "knowledge_points" := JArr(KnowledgePointSummaries(links, p.id, describe))]
  }

  /** A practice item shows a strict part of what the problem's full `to_dict` shows, the
      answer being among what it leaves out. */
  lemma PracticeItemNarrowsToDict(p: Problem, links: seq<Link>, describe: int -> (string, string),
                                  includeSolution: bool)
    ensures var full := ProblemModel.ToDict(p, includeSolution, false, None, []);
            && PracticeItem(p, links, describe).Keys - {"knowledge_points"} <= full.Keys
            && "correct_answer" in full.Keys - PracticeItem(p, links, describe).Keys
  {
    var full := ProblemModel.ToDict(p, includeSolution, false, None, []);
    assert "id" in full && "title" in full && "content" in full && "content_type" in full;
    assert "options" in full && "difficulty" in full && "estimated_time" in full;
  }

  /** The `for problem in problems` loop that builds the practice list. */
  method ToPracticeItems(problems: seq<Problem>, links: seq<Link>, describe: int -> (string, string))
    returns (items: seq<map<string, Json>>)
    ensures |items| == |problems|
    ensures forall i :: 0 <= i < |items| ==> items[i] == PracticeItem(problems[i], links, describe)
    ensures forall i :: 0 <= i < |items| ==> "correct_answer" !in items[i]
  {
    items := [];
    var i := 0;
    while i < |problems|
      invariant 0 <= i <= |problems| && |items| == i
      invariant forall j :: 0 <= j < i ==> items[j] == PracticeItem(problems[j], links, describe)
    {
      items := items + [PracticeItem(problems[i], links, describe)];
      i := i + 1;
    }
  }

  /** `GET /practice/random`: any signed-in account; `count` must lie in 1..50. The draw is the
      corrected selection (`RandomProblems`): `count` different problems, or all there are. */
  method PracticeRandom(bank: ProblemBank, users: seq<User>, credentials: Option<Token>, key: string, now: int,
                        count: int, difficulty: Option<seq<int>>, knowledgePointIds: Option<seq<int>>,
                        keys: seq<int>, describe: int -> (string, string))
    returns (r: Result<seq<map<string, Json>>, HttpError>)
    ensures var g := GetCurrentUser(users, credentials, key, now);
            && (g.Failure? ==> r == Failure(g.error))
            && (g.Success? && !(PRACTICE_MIN_COUNT <= count <= PRACTICE_MAX_COUNT) ==> r == Failure(ValidationFailed))
            && (r.Success? <==> g.Success? && PRACTICE_MIN_COUNT <= count <= PRACTICE_MAX_COUNT)
    ensures r.Success? ==>
              var drawn := RandomProblems(bank.problems, bank.links, count, difficulty, knowledgePointIds, keys);
              && |r.value| == |drawn| <= count
              && forall i :: 0 <= i < |r.value| ==>
                   && r.value[i] == PracticeItem(drawn[i], bank.links, describe)
                   && drawn[i] in bank.problems && drawn[i].isPublished && !drawn[i].isDeleted
  {
    var g := GetCurrentUser(users, credentials, key, now);
    if g.Failure? {
      return Failure(g.error);
    }
    if !(PRACTICE_MIN_COUNT <= count <= PRACTICE_MAX_COUNT) {
      return Failure(ValidationFailed);
    }
    var drawn := RandomProblems(bank.problems, bank.links, count, difficulty, knowledgePointIds, keys);
    assert forall i :: 0 <= i < |drawn| ==> drawn[i] in drawn;
    var items := ToPracticeItems(drawn, bank.links, describe);
    r := Success(items);
  }

  // ---------------------------------------------------------------- GET /search/{keyword}

  /** `GET /search/{keyword}`: any signed-in account; published, live problems mentioning the
      keyword, newest first. */
  function SearchByKeyword(users: seq<User>, credentials: Option<Token>, key: string, now: int,
                           rows: seq<Problem>, keyword: string, skip: nat, limit: nat)
    : (r: Result<seq<Problem>, HttpError>)
    ensures r.Success? <==> GetCurrentUser(users, credentials, key, now).Success?
    ensures r.Failure? ==> r.error == GetCurrentUser(users, credentials, key, now).error
    ensures r.Success? ==> r.value == SearchProblems(rows, keyword, skip, limit)
    ensures r.Success? ==> |r.value| <= limit
                           && forall p :: p in r.value ==> p in rows && p.isPublished && !p.isDeleted && Mentions(p, keyword)
  {
    match GetCurrentUser(users, credentials, key, now)
    case Failure(e) => Failure(e)
    case Success(_) => Success(SearchProblems(rows, keyword, skip, limit))
  }

  // ---------------------------------------------------------------- POST /{problem_id}/attempt

  /** `POST /{problem_id}/attempt` as written: the route calls `increment_attempts`, which the
      module never imports, so every signed-in request fails with a `NameError`. */
  function RecordAttemptAsWritten(users: seq<User>, credentials: Option<Token>, key: string, now: int,
                                  rows: seq<Problem>, id: int, isCorrect: bool): (r: Result<string, HttpError>)
    ensures GetCurrentUser(users, credentials, key, now).Success? ==> r == Failure(InternalError)
    ensures r.Failure?
  {
    match GetCurrentUser(users, credentials, key, now)
    case Failure(e) => Failure(e)
    case Success(_) => Failure(InternalError)
  }

  /** The response of `POST /{problem_id}/attempt` with the counter update imported. */
  function AttemptResponse(users: seq<User>, credentials: Option<Token>, key: string, now: int,
                           rows: seq<Problem>, id: int): (r: Result<string, HttpError>)
    ensures var g := GetCurrentUser(users, credentials, key, now);
            && (g.Failure? ==> r == Failure(g.error))
            && (r.Success? <==> g.Success? && exists j :: 0 <= j < |rows| && rows[j].id == id)
            && (g.Success? && r.Failure? ==> r == Failure(ProblemNotFound))
    ensures r.Success? ==> r.value == ATTEMPT_MESSAGE
  {
    match GetCurrentUser(users, credentials, key, now)
    case Failure(e) => Failure(e)
    case Success(_) => if IndexOfProblem(rows, id) < 0 then Failure(ProblemNotFound) else Success(ATTEMPT_MESSAGE)
  }

  /** `POST /{problem_id}/attempt` with the counter update imported: the problem's counters move
      by one attempt, and by one correct attempt when the answer was correct. */
  method RecordAttempt(bank: ProblemBank, users: seq<User>, credentials: Option<Token>, key: string, now: int,
                       id: int, isCorrect: bool)
    returns (r: Result<string, HttpError>)
    requires bank.Valid()
    modifies bank
    ensures bank.Valid()
    ensures r == AttemptResponse(users, credentials, key, now, old(bank.problems), id)
    ensures r.Success? ==>
              var i := IndexOfProblem(old(bank.problems), id);
              0 <= i && bank.problems == old(bank.problems)[i := IncrementAttempts(old(bank.problems)[i], isCorrect)]
    ensures r.Failure? ==> bank.problems == old(bank.problems)
    ensures bank.links == old(bank.links)
  {
    var g := GetCurrentUser(users, credentials, key, now);
    if g.Failure? {
      return Failure(g.error);
    }
    var ok := bank.IncrementAttemptsOf(id, isCorrect);
    if !ok {
      return Failure(ProblemNotFound);
    }
    r := Success(ATTEMPT_MESSAGE);
  }

  /** As written, no answer is ever recorded: for a signed-in caller and an existing problem the
      route fails where the corrected one records the attempt. */
  lemma AttemptNeverRecorded(users: seq<User>, credentials: Option<Token>, key: string, now: int,
                             rows: seq<Problem>, p: Problem, isCorrect: bool)
    requires GetCurrentUser(users, credentials, key, now).Success? && p in rows
    ensures RecordAttemptAsWritten(users, credentials, key, now, rows, p.id, isCorrect) == Failure(InternalError)
    ensures AttemptResponse(users, credentials, key, now, rows, p.id) == Success(ATTEMPT_MESSAGE)
  {
    var j :| 0 <= j < |rows| && rows[j] == p;
    assert rows[j].id == p.id;
  }
}

=== FILE: problem_schemas.dfy ===
/** The request bodies of backend/app/schemas/problem.py: the field constraints of `ProblemBase`,
    `ProblemCreate` and `ProblemUpdate`, their option-key validator, and the `ProblemFilter`
    defaults. A body that breaks a constraint is answered 422 with one error per field. */
module ProblemSchemas {
  import opened Wrappers

  /** What a field constraint objected to. */
  datatype ErrorKind = TooShort | TooLong | PatternMismatch | OutOfRange | MissingOptions(missing: set<string>)

  datatype FieldError = FieldError(field: string, kind: ErrorKind)

  const REQUIRED_OPTION_KEYS: set<string> := {"A", "B", "C", "D"}
  const TITLE_MAX_LENGTH: nat := 200

  // ---------------------------------------------------------------- single fields

  /** `title`: between 1 and 200 characters. */
  function TitleErrors(title: string): (errs: seq<FieldError>)
    ensures errs == [] <==> 1 <= |title| <= TITLE_MAX_LENGTH
    ensures |errs| <= 1 && forall e :: e in errs ==> e.field == "title"
  {
    if |title| < 1 then [FieldError("title", TooShort)]
    else if |title| > TITLE_MAX_LENGTH then [FieldError("title", TooLong)]
    else []
  }

  /** The option keys among A, B, C and D that are absent. */
  function MissingOptionKeys(options: map<string, string>): (missing: set<string>)
    ensures missing <= REQUIRED_OPTION_KEYS
    ensures forall k :: k in missing <==> k in REQUIRED_OPTION_KEYS && k !in options
  {
    set k | k in REQUIRED_OPTION_KEYS && k !in options
  }

  /** `validate_options`: the error names exactly the missing keys. Extra keys are allowed. */
  function OptionsErrors(options: map<string, string>): (errs: seq<FieldError>)
    ensures errs == [] <==> REQUIRED_OPTION_KEYS <= options.Keys
    ensures errs != [] ==> errs == [FieldError("options", MissingOptions(REQUIRED_OPTION_KEYS - options.Keys))]
  {
    var missing := MissingOptionKeys(options);
    if missing == {} then
      []
    else
      assert missing == REQUIRED_OPTION_KEYS - options.Keys;
      [FieldError("options", MissingOptions(missing))]
  }

  /** The pattern `^[A-D]$`: exactly one character, one of A to D. */
  predicate ValidAnswer(answer: string) {
    |answer| == 1 && 'A' <= answer[0] <= 'D'
  }

  function AnswerErrors(answer: string): (errs: seq<FieldError>)
    ensures errs == [] <==> ValidAnswer(answer)
    ensures errs != [] ==> errs == [FieldError("correct_answer", PatternMismatch)]
  {
    if ValidAnswer(answer) then [] else [FieldError("correct_answer", PatternMismatch)]
  }

  function DifficultyErrors(difficulty: int): (errs: seq<FieldError>)
    ensures errs == [] <==> 1 <= difficulty <= 5
    ensures errs != [] ==> errs == [FieldError("difficulty", OutOfRange)]
  {
    if 1 <= difficulty <= 5 then [] else [FieldError("difficulty", OutOfRange)]
  }

  /** `estimated_time`: absent, or at least one second. */
  function EstimatedTimeErrors(estimatedTime: Option<int>): (errs: seq<FieldError>)
    ensures errs == [] <==> estimatedTime.None? || estimatedTime.value >= 1
    ensures errs != [] ==> errs == [FieldError("estimated_time", OutOfRange)]
  {
    if estimatedTime.Some? && estimatedTime.value < 1 then [FieldError("estimated_time", OutOfRange)] else []
  }

  // ---------------------------------------------------------------- ProblemCreate

  /** The JSON body of a create request; `None` marks a field the client left out. */
  datatype ProblemCreateInput = ProblemCreateInput(
    title: string,
    content: string,
    contentType: Option<string>,
    options: map<string, string>,
    correctAnswer: string,
    solution: Option<string>,
    solutionType: Option<string>,
    difficulty: Option<int>,
    sourceType: Option<string>,
    sourceYear: Option<int>,
    sourceDetail: Option<string>,
    estimatedTime: Option<int>,
    knowledgePointIds: Option<seq<int>>,
    isPublished: Option<bool>)

  /** A validated `ProblemCreate`, defaults filled in. */
  datatype ProblemCreate = ProblemCreate(
    title: string,
    content: string,
    contentType: string,
    options: map<string, string>,
    correctAnswer: string,
    solution: Option<string>,
    solutionType: string,
    difficulty: int,
    sourceType: Option<string>,
    sourceYear: Option<int>,
    sourceDetail: Option<string>,
    estimatedTime: Option<int>,
    knowledgePointIds: seq<int>,
    isPublished: bool)

  /** What a validated create body guarantees. */
  predicate WellFormedCreate(pc: ProblemCreate) {
    && 1 <= |pc.title| <= TITLE_MAX_LENGTH
    && REQUIRED_OPTION_KEYS <= pc.options.Keys
    && ValidAnswer(pc.correctAnswer)
    && 1 <= pc.difficulty <= 5
    && (pc.estimatedTime.None? || pc.estimatedTime.value >= 1)
  }

  /** The errors of a create body, in field order. */
  function CreateErrors(input: ProblemCreateInput): seq<FieldError> {
    TitleErrors(input.title) + OptionsErrors(input.options) + AnswerErrors(input.correctAnswer)
    + DifficultyErrors(input.difficulty.GetOr(3)) + EstimatedTimeErrors(input.estimatedTime)
  }

  /** `ProblemCreate(**body)`: every constraint is checked and every broken one reported; a body
      that passes keeps every field it sent and gets difficulty 3, content and solution type "text", no knowledge points and
      unpublished wherever it is silent. */
  function ValidateProblemCreate(input: ProblemCreateInput): (r: Result<ProblemCreate, seq<FieldError>>)
    ensures r.Success? <==> && 1 <= |input.title| <= TITLE_MAX_LENGTH
                            && REQUIRED_OPTION_KEYS <= input.options.Keys
                            && ValidAnswer(input.correctAnswer)
                            && 1 <= input.difficulty.GetOr(3) <= 5
                            && (input.estimatedTime.None? || input.estimatedTime.value >= 1)
    ensures r.Success? ==> WellFormedCreate(r.value)
    ensures r.Success? ==> && r.value.difficulty == input.difficulty.GetOr(3)
                           && r.value.contentType == input.contentType.GetOr("text")
                           && r.value.solutionType == input.solutionType.GetOr("text")
                           && r.value.knowledgePointIds == input.knowledgePointIds.GetOr([])
                           && r.value.isPublished == input.isPublished.GetOr(false)
                           && r.value.title == input.title && r.value.options == input.options
                           && r.value.correctAnswer == input.correctAnswer
    ensures r.Success? ==> && r.value.content == input.content && r.value.solution == input.solution
                           && r.value.sourceType == input.sourceType && r.value.sourceYear == input.sourceYear
                           && r.value.sourceDetail == input.sourceDetail
                           && r.value.estimatedTime == input.estimatedTime
    ensures r.Failure? ==> r.error != [] && r.error == CreateErrors(input)
    ensures r.Failure? ==> (FieldError("options", MissingOptions(REQUIRED_OPTION_KEYS - input.options.Keys)) in r.error
                            <==> !(REQUIRED_OPTION_KEYS <= input.options.Keys))
  {
    var errs := CreateErrors(input);
    if errs != [] then Failure(errs)
    else
      Success(ProblemCreate(input.title, input.content, input.contentType.GetOr("text"), input.options,
                            input.correctAnswer, input.solution, input.solutionType.GetOr("text"),
                            input.difficulty.GetOr(3), input.sourceType, input.sourceYear, input.sourceDetail,
                            input.estimatedTime, input.knowledgePointIds.GetOr([]), input.isPublished.GetOr(false)))
  }

  // ---------------------------------------------------------------- ProblemUpdate

  /** `ProblemUpdate`: every field optional; `None` is a field the client did not send. */
  datatype ProblemUpdate = ProblemUpdate(
    title: Option<string>,
    content: Option<string>,
    contentType: Option<string>,
    options: Option<map<string, string>>,
    correctAnswer: Option<string>,
    solution: Option<string>,
    solutionType: Option<string>,
    difficulty: Option<int>,
    sourceType: Option<string>,
    sourceYear: Option<int>,
    sourceDetail: Option<string>,
    estimatedTime: Option<int>,
    isPublished: Option<bool>,
    knowledgePointIds: Option<seq<int>>)

  /** What a validated update body guarantees about the fields it sets. */
  predicate WellFormedUpdate(upd: ProblemUpdate) {
    && (upd.title.Some? ==> 1 <= |upd.title.value| <= TITLE_MAX_LENGTH)
    && (upd.options.Some? ==> REQUIRED_OPTION_KEYS <= upd.options.value.Keys)
    && (upd.correctAnswer.Some? ==> ValidAnswer(upd.correctAnswer.value))
    && (upd.difficulty.Some? ==> 1 <= upd.difficulty.value <= 5)
    && (upd.estimatedTime.Some? ==> upd.estimatedTime.value >= 1)
  }

  /** The fields `ProblemUpdate` constrains, in declaration order. */
  const UPDATE_CHECKED_FIELDS: seq<string> := ["title", "options", "correct_answer", "difficulty", "estimated_time"]

  /** Whether the body sent the named field with a value that breaks its constraint. */
  predicate SentAndBroken(upd: ProblemUpdate, field: string) {
    if field == "title" then upd.title.Some? && !(1 <= |upd.title.value| <= TITLE_MAX_LENGTH)
    else if field == "options" then upd.options.Some? && !(REQUIRED_OPTION_KEYS <= upd.options.value.Keys)
    else if field == "correct_answer" then upd.correctAnswer.Some? && !ValidAnswer(upd.correctAnswer.value)
    else if field == "difficulty" then upd.difficulty.Some? && !(1 <= upd.difficulty.value <= 5)
    else if field == "estimated_time" then upd.estimatedTime.Some? && upd.estimatedTime.value < 1
    else false
  }

  /** The fields of `fields` that the body sent and broke, in the order given. */
  function BrokenFields(upd: ProblemUpdate, fields: seq<string>): (broken: seq<string>)
    ensures forall f :: f in broken <==> f in fields && SentAndBroken(upd, f)
  {
    if fields == [] then []
    else (if SentAndBroken(upd, fields[0]) then [fields[0]] else []) + BrokenFields(upd, fields[1..])
  }

  /** The field each error names, error by error. */
  function FieldsOf(errors: seq<FieldError>): (fields: seq<string>)
    ensures |fields| == |errors| && forall i :: 0 <= i < |errors| ==> fields[i] == errors[i].field
  {
    seq(|errors|, i requires 0 <= i < |errors| => errors[i].field)
  }

  lemma FieldsOfAppend(a: seq<FieldError>, b: seq<FieldError>)
    ensures FieldsOf(a + b) == FieldsOf(a) + FieldsOf(b)
  {
    var whole, parts := FieldsOf(a + b), FieldsOf(a) + FieldsOf(b);
    forall i | 0 <= i < |whole| ensures whole[i] == parts[i] {
      if i < |a| {
        assert whole[i] == a[i].field == FieldsOf(a)[i];
      } else {
        assert whole[i] == b[i - |a|].field == FieldsOf(b)[i - |a|];
      }
    }
  }

  /** The error of one field: none when it was not sent, otherwise its constraint's, as on
      creation. */
  function SentFieldErrors(upd: ProblemUpdate, field: string): (errs: seq<FieldError>)
    ensures errs == [] <==> !SentAndBroken(upd, field)
    ensures errs != [] ==> |errs| == 1 && errs[0].field == field
  {
    if field == "title" then (if upd.title.Some? then TitleErrors(upd.title.value) else [])
    else if field == "options" then (if upd.options.Some? then OptionsErrors(upd.options.value) else [])
    else if field == "correct_answer" then
      (if upd.correctAnswer.Some? then AnswerErrors(upd.correctAnswer.value) else [])
    else if field == "difficulty" then (if upd.difficulty.Some? then DifficultyErrors(upd.difficulty.value) else [])
    else if field == "estimated_time" then EstimatedTimeErrors(upd.estimatedTime)
    else []
  }

  /** The errors of the given fields, field by field. */
  function UpdateErrors(upd: ProblemUpdate, fields: seq<string>): seq<FieldError> {
    if fields == [] then [] else SentFieldErrors(upd, fields[0]) + UpdateErrors(upd, fields[1..])
  }

  /** The errors name exactly the sent, broken fields, once each and in the order checked, and
      each is the error its field's constraint reports. */
  lemma {:induction false} UpdateErrorsNameBrokenFields(upd: ProblemUpdate, fields: seq<string>)
    ensures FieldsOf(UpdateErrors(upd, fields)) == BrokenFields(upd, fields)
    ensures forall e :: e in UpdateErrors(upd, fields) ==> [e] == SentFieldErrors(upd, e.field)
  {
    if fields != [] {
      var head := SentFieldErrors(upd, fields[0]);
      UpdateErrorsNameBrokenFields(upd, fields[1..]);
      FieldsOfAppend(head, UpdateErrors(upd, fields[1..]));
      assert FieldsOf(head) == (if SentAndBroken(upd, fields[0]) then [fields[0]] else []);
    }
  }

  /** `ProblemUpdate(**body)`: a field that was not sent is not checked; one that was is held to
      the same constraint as on creation, and each broken one is reported once, in field order. */
  function ValidateProblemUpdate(upd: ProblemUpdate): (r: Result<ProblemUpdate, seq<FieldError>>)
    ensures r.Success? <==> WellFormedUpdate(upd)
    ensures r.Success? ==> r.value == upd
    ensures r.Failure? ==> r.error != [] && FieldsOf(r.error) == BrokenFields(upd, UPDATE_CHECKED_FIELDS)
    ensures r.Failure? ==> forall e :: e in r.error ==> [e] == SentFieldErrors(upd, e.field)
  {
    var errs := UpdateErrors(upd, UPDATE_CHECKED_FIELDS);
    UpdateErrorsNameBrokenFields(upd, UPDATE_CHECKED_FIELDS);
    if errs != [] then
      var f := BrokenFields(upd, UPDATE_CHECKED_FIELDS)[0];
      assert f in UPDATE_CHECKED_FIELDS && SentAndBroken(upd, f);
      Failure(errs)
    else
      assert BrokenFields(upd, UPDATE_CHECKED_FIELDS) == [];
      assert !SentAndBroken(upd, UPDATE_CHECKED_FIELDS[0]) && !SentAndBroken(upd, UPDATE_CHECKED_FIELDS[1]);
      assert !SentAndBroken(upd, UPDATE_CHECKED_FIELDS[2]) && !SentAndBroken(upd, UPDATE_CHECKED_FIELDS[3]);
      assert !SentAndBroken(upd, UPDATE_CHECKED_FIELDS[4]);
      Success(upd)
  }

  // ---------------------------------------------------------------- ProblemFilter

  /** `ProblemFilter`. An empty difficulty list, an empty string, 0 and `None` all impose
      nothing on the query (the CRUD code tests each for truth). */
  datatype ProblemFilter = ProblemFilter(
    difficulty: Option<seq<int>>,
    sourceType: Option<string>,
    sourceYear: Option<int>,
    knowledgePointId: Option<int>,
    isPublished: Option<bool>,
    search: Option<string>,
    sortBy: string,
    sortOrder: string)

  /** The filter a list request gets when it sets nothing: published problems only, newest first. */
  function DefaultFilter(): (f: ProblemFilter)
    ensures f.isPublished == Some(true) && f.sortBy == "created_at" && f.sortOrder == "desc"
    ensures f.difficulty.None? && f.sourceType.None? && f.sourceYear.None?
    ensures f.knowledgePointId.None? && f.search.None?
  {
    ProblemFilter(None, None, None, None, Some(true), None, "created_at", "desc")
  }
}

=== FILE: query.dfy ===
/** The relational query shapes the CRUD layers build with SQLAlchemy, as functions over a table
    held as a sequence of rows: `filter`, `.first()`, `.offset().limit()`. */
module Query {
  import opened Wrappers
  import opened Sorting

  /** `query.filter(p)`: the rows satisfying `p`, in table order. */
  function Filter<T(!new)>(s: seq<T>, p: T -> bool): (r: seq<T>)
    ensures |r| <= |s|
    ensures forall x :: x in r <==> x in s && p(x)
    ensures forall i :: 0 <= i < |r| ==> p(r[i])
  {
    if s == [] then []
    else if p(s[0]) then [s[0]] + Filter(s[1..], p)
    else Filter(s[1..], p)
  }

  /** Filtering keeps every occurrence of a row it accepts and drops every other. */
  lemma {:induction false} FilterCount<T(!new)>(s: seq<T>, p: T -> bool, x: T)
    ensures multiset(Filter(s, p))[x] == if p(x) then multiset(s)[x] else 0
  {
    if s != [] {
      FilterCount(s[1..], p, x);
      assert s == [s[0]] + s[1..];
    }
  }

  /** `.offset(skip).limit(limit)`. */
  function Page<T>(s: seq<T>, skip: nat, limit: nat): (r: seq<T>)
    ensures |r| <= limit
    ensures |r| == if skip >= |s| then 0 else if |s| - skip < limit then |s| - skip else limit
    ensures forall i :: 0 <= i < |r| ==> r[i] == s[skip + i]
  {
    var lo := if skip < |s| then skip else |s|;
    var hi := if lo + limit < |s| then lo + limit else |s|;
    s[lo..hi]
  }

  lemma PageMember<T>(s: seq<T>, skip: nat, limit: nat, x: T)
    requires x in Page(s, skip, limit)
    ensures x in s
  {
    var r := Page(s, skip, limit);
    var i :| 0 <= i < |r| && r[i] == x;
    assert s[skip + i] == x;
  }

  /** Index of the first row satisfying `p`, or -1. */
  function IndexWhere<T>(s: seq<T>, p: T -> bool): (i: int)
    ensures -1 <= i < |s|
    ensures i >= 0 ==> p(s[i]) && forall j :: 0 <= j < i ==> !p(s[j])
    ensures i < 0 <==> forall j :: 0 <= j < |s| ==> !p(s[j])
  {
    if s == [] then -1
    else if p(s[0]) then 0
    else
      var k := IndexWhere(s[1..], p);
      if k < 0 then -1 else k + 1
  }

  /** `query.filter(p).first()`. */
  function First<T>(s: seq<T>, p: T -> bool): (r: Option<T>)
    ensures r.Some? ==> r.value in s && p(r.value)
    ensures r.None? <==> forall j :: 0 <= j < |s| ==> !p(s[j])
  {
    var i := IndexWhere(s, p);
    if i < 0 then None else Some(s[i])
  }

  /** A page of an ordered result is ordered. */
  lemma PageSorted<T>(s: seq<T>, skip: nat, limit: nat, le: (T, T) -> bool)
    requires SortedBy(s, le)
    ensures SortedBy(Page(s, skip, limit), le)
  {
    var r := Page(s, skip, limit);
    forall i, j | 0 <= i < j < |r| ensures le(r[i], r[j]) {
      assert r[i] == s[skip + i] && r[j] == s[skip + j];
    }
  }

  /** The first page, when it is large enough, holds the whole result. */
  lemma PageWhole<T>(s: seq<T>, limit: nat)
    requires |s| <= limit
    ensures Page(s, 0, limit) == s
  {
  }

  /** Filtering distributes over appending one row. */
  lemma {:induction false} FilterAppend<T(!new)>(s: seq<T>, x: T, p: T -> bool)
    ensures Filter(s + [x], p) == Filter(s, p) + (if p(x) then [x] else [])
  {
    if s == [] {
      assert s + [x] == [x];
    } else {
      assert (s + [x])[1..] == s[1..] + [x];
      FilterAppend(s[1..], x, p);
    }
  }

  /** Two conditions that accept the same rows select the same rows. */
  lemma {:induction false} FilterExt<T(!new)>(s: seq<T>, p: T -> bool, q: T -> bool)
    requires forall x :: x in s ==> p(x) == q(x)
    ensures Filter(s, p) == Filter(s, q)
  {
    if s != [] {
      FilterExt(s[1..], p, q);
    }
  }

  /** A stricter condition selects no more rows. */
  lemma {:induction false} FilterStricter<T(!new)>(s: seq<T>, p: T -> bool, q: T -> bool)
    requires forall x :: x in s && p(x) ==> q(x)
    ensures |Filter(s, p)| <= |Filter(s, q)|
  {
    if s != [] {
      FilterStricter(s[1..], p, q);
    }
  }

  predicate NoRepeats<T(==)>(s: seq<T>) {
    forall i, j :: 0 <= i < j < |s| ==> s[i] != s[j]
  }

  /** The rows of `s` without repeats, each at its first occurrence: how the ORM uniques the
      entities of a joined result. */
  function Distinct<T(!new,==)>(s: seq<T>): (r: seq<T>)
    ensures |r| <= |s|
    ensures forall x :: x in r <==> x in s
    ensures NoRepeats(r)
    decreases |s|
  {
    if s == [] then []
    else
      var rest := Distinct(Filter(s[1..], (x: T) => x != s[0]));
      assert forall x :: x in s <==> x == s[0] || x in s[1..] by {
        assert s == [s[0]] + s[1..];
      }
      var r := [s[0]] + rest;
      assert s[0] !in rest;
      forall i, j | 0 <= i < j < |r| ensures r[i] != r[j] {
        if i == 0 {
          assert r[j] == rest[j - 1];
        } else {
          assert r[i] == rest[i - 1] && r[j] == rest[j - 1];
        }
      }
      r
  }

  /** A sequence without repeats is its own distinct form. */
  lemma {:induction false} DistinctOfNoRepeats<T(!new)>(s: seq<T>)
    requires NoRepeats(s)
    ensures Distinct(s) == s
    decreases |s|
  {
    if s != [] {
      var tail := Filter(s[1..], (x: T) => x != s[0]);
      assert forall x :: x in s[1..] ==> x != s[0];
      FilterExt(s[1..], (x: T) => x != s[0], (x: T) => true);
      FilterAll(s[1..]);
      DistinctOfNoRepeats(s[1..]);
    }
  }

  lemma {:induction false} FilterAll<T(!new)>(s: seq<T>)
    ensures Filter(s, (x: T) => true) == s
  {
    if s != [] {
      FilterAll(s[1..]);
    }
  }
}

=== FILE: router.dfy ===
/** The route table and the global `beforeEach` guard of frontend/src/router/index.ts. The guard
    decides from the target route and the `user` store whether navigation goes on or is sent to
    '/login' or '/dashboard'; along the way it sets the page title and, for a signed-in user
    whose profile is not loaded yet, fetches it. */
module Router {
  import opened Wrappers
  import opened Text
  import opened BrowserStorage
  import UserStore

  const LOGIN_PATH: string := "/login"
  const REGISTER_PATH: string := "/register"
  const DASHBOARD_PATH: string := "/dashboard"
  const SITE_TITLE: string := "AI平台"

  /** A route's `meta`, merged along the matched records as vue-router does (an absent flag is
      false, an absent title `None`). */
  datatype RouteMeta = RouteMeta(title: Option<string>, requiresAuth: bool, requiresTeacherOrAdmin: bool,
                                 requiresAdmin: bool, hideNavbar: bool)

  /** A resolved route: its path pattern, name and meta. */
  datatype Route = Route(path: string, name: string, meta: RouteMeta)

  /** The table, with the children of the layout route under their full paths and the layout's
      `requiresAuth` merged in. '/' redirects to '/dashboard' before any guard runs. */
  const LOGIN_ROUTE: Route := Route("/login", "Login", RouteMeta(Some("登录"), false, false, false, true))
  const REGISTER_ROUTE: Route := Route("/register", "Register", RouteMeta(Some("注册"), false, false, false, true))
  const DASHBOARD_ROUTE: Route := Route("/dashboard", "Dashboard", RouteMeta(Some("仪表板"), true, false, false, false))
  const PROBLEM_LIST_ROUTE: Route := Route("/problems", "ProblemList", RouteMeta(Some("题库管理"), true, false, false, false))
  const PROBLEM_CREATE_ROUTE: Route :=
    Route("/problems/create", "ProblemCreate", RouteMeta(Some("创建题目"), true, true, false, false))
  const PROBLEM_DETAIL_ROUTE: Route :=
    Route("/problems/:id", "ProblemDetail", RouteMeta(Some("题目详情"), true, false, false, false))
  const PROBLEM_EDIT_ROUTE: Route :=
    Route("/problems/:id/edit", "ProblemEdit", RouteMeta(Some("编辑题目"), true, true, false, false))
  const PROFILE_ROUTE: Route := Route("/profile", "Profile", RouteMeta(Some("个人中心"), true, false, false, false))
  const NOT_FOUND_ROUTE: Route :=
    Route("/:pathMatch(.*)*", "NotFound", RouteMeta(Some("页面不存在"), false, false, false, true))

  const ROUTES: seq<Route> := [LOGIN_ROUTE, REGISTER_ROUTE, DASHBOARD_ROUTE, PROBLEM_LIST_ROUTE, PROBLEM_CREATE_ROUTE,
                               PROBLEM_DETAIL_ROUTE, PROBLEM_EDIT_ROUTE, PROFILE_ROUTE, NOT_FOUND_ROUTE]

  /** No page asks for an admin; the pages that hide the navigation bar are exactly the ones
      open without a login; the teacher-or-admin pages all need a login. */
  lemma RouteTableGuards()
    ensures forall r :: r in ROUTES ==> !r.meta.requiresAdmin
    ensures forall r :: r in ROUTES ==> (r.meta.requiresAuth <==> !r.meta.hideNavbar)
    ensures forall r :: r in ROUTES && r.meta.requiresTeacherOrAdmin ==>
              r.meta.requiresAuth && r in {PROBLEM_CREATE_ROUTE, PROBLEM_EDIT_ROUTE}
  {
  }

  /** Where navigation is headed: `to.path`, the URL path as the browser asked for it, and the
      record it matched, whose merged `meta` the guard reads. */
  datatype Target = Target(path: string, route: Route)

  /** vue-router's default matching of a record with a static path (neither `strict` nor
      `sensitive`): letter case is ignored and one trailing slash is allowed. */
  predicate MatchesStatic(pattern: string, path: string) {
    LowerStr(path) == LowerStr(pattern) || LowerStr(path) == LowerStr(pattern) + "/"
  }

  /** Where navigation goes: on to the target, or to another path. */
  datatype Navigation = Proceed | Redirect(path: string)

  /** `document.title`. */
  function PageTitle(meta: RouteMeta): (title: string)
    ensures meta.title.Some? && meta.title.value != "" ==> title == meta.title.value + " - " + SITE_TITLE
    ensures !(meta.title.Some? && meta.title.value != "") ==> title == SITE_TITLE + " - " + SITE_TITLE
  {
    (if meta.title.Some? && meta.title.value != "" then meta.title.value else SITE_TITLE) + " - " + SITE_TITLE
  }

  /** The role test the route asks for, on the profile the store holds. */
  predicate RolesAllow(meta: RouteMeta, userInfo: Option<UserInfo>) {
    && (!meta.requiresTeacherOrAdmin
        || UserStore.ProfileHasRole(userInfo, UserStore.ROLE_TEACHER)
        || UserStore.ProfileHasRole(userInfo, UserStore.ROLE_ADMIN))
    && (!meta.requiresAdmin || UserStore.ProfileHasRole(userInfo, UserStore.ROLE_ADMIN))
  }

  /** The guard's decision: the checks in the order the guard makes them, the login check
      first, then teacher-or-admin, then admin, then the redirect away from the sign-in pages.
      The role checks read the matched record's meta; the sign-in check compares the URL path
      itself. Loading the profile does not change the token, so the last check sees the token
      the guard started with. */
  function Decide(to: Target, token: string, userInfo: Option<UserInfo>): (nav: Navigation)
    ensures nav == Redirect(LOGIN_PATH) <==> to.route.meta.requiresAuth && !UserStore.LoggedIn(token)
    ensures nav == Redirect(DASHBOARD_PATH) <==>
              ((to.route.meta.requiresAuth && UserStore.LoggedIn(token) && !RolesAllow(to.route.meta, userInfo))
               || ((!to.route.meta.requiresAuth || RolesAllow(to.route.meta, userInfo)) && UserStore.LoggedIn(token)
                   && (to.path == LOGIN_PATH || to.path == REGISTER_PATH)))
    ensures nav == Proceed <==>
              (to.route.meta.requiresAuth ==> UserStore.LoggedIn(token) && RolesAllow(to.route.meta, userInfo))
              && !(UserStore.LoggedIn(token) && (to.path == LOGIN_PATH || to.path == REGISTER_PATH))
  {
    var meta := to.route.meta;
    if meta.requiresAuth && !UserStore.LoggedIn(token) then Redirect(LOGIN_PATH)
    else if meta.requiresAuth && meta.requiresTeacherOrAdmin
            && !UserStore.ProfileHasRole(userInfo, UserStore.ROLE_TEACHER)
            && !UserStore.ProfileHasRole(userInfo, UserStore.ROLE_ADMIN) then Redirect(DASHBOARD_PATH)
    else if meta.requiresAuth && meta.requiresAdmin
            && !UserStore.ProfileHasRole(userInfo, UserStore.ROLE_ADMIN) then Redirect(DASHBOARD_PATH)
    else if (to.path == LOGIN_PATH || to.path == REGISTER_PATH) && UserStore.LoggedIn(token) then
      Redirect(DASHBOARD_PATH)
    else Proceed
  }

  /** On whatever URL reaches a sign-in page, it opens when signed out; when signed in, the guard
      sends the user on to the dashboard exactly when the URL is "/login" or "/register", spelt
      as the table spells them. */
  lemma SignInPagesOnlyWhenSignedOut(path: string, token: string, userInfo: Option<UserInfo>)
    ensures Decide(Target(path, LOGIN_ROUTE), token, userInfo)
         == (if UserStore.LoggedIn(token) && (path == LOGIN_PATH || path == REGISTER_PATH) then Redirect(DASHBOARD_PATH)
             else Proceed)
    ensures Decide(Target(path, REGISTER_ROUTE), token, userInfo)
         == (if UserStore.LoggedIn(token) && (path == LOGIN_PATH || path == REGISTER_PATH) then Redirect(DASHBOARD_PATH)
             else Proceed)
  {
  }

  /** Lower-casing leaves a path without capital letters as it is. */
  lemma LowerStrOfLowercase(s: string)
    requires forall i :: 0 <= i < |s| ==> !('A' <= s[i] <= 'Z')
    ensures LowerStr(s) == s
  {
  }

  /** "/login/" and "/LOGIN" reach the sign-in page as well, and there a signed-in user stays on
      it, since the guard compares the URL path and not the matched record. */
  lemma SignInPageVariantsStayOpen(token: string, userInfo: Option<UserInfo>)
    requires UserStore.LoggedIn(token)
    ensures MatchesStatic(LOGIN_ROUTE.path, "/login/") && MatchesStatic(LOGIN_ROUTE.path, "/LOGIN")
    ensures Decide(Target("/login/", LOGIN_ROUTE), token, userInfo) == Proceed
    ensures Decide(Target("/LOGIN", LOGIN_ROUTE), token, userInfo) == Proceed
  {
    LoginVariantsMatch();
    SignInPagesOnlyWhenSignedOut("/login/", token, userInfo);
    SignInPagesOnlyWhenSignedOut("/LOGIN", token, userInfo);
  }

  lemma LoginVariantsMatch()
    ensures MatchesStatic("/login", "/login/") && MatchesStatic("/login", "/LOGIN")
  {
    LowerStrOfLowercase("/login");
    LowerStrOfLowercase("/login/");
    assert "/login" + "/" == "/login/";
    var upper := LowerStr("/LOGIN");
    assert upper == "/login" by {
      assert forall i :: 0 <= i < 6 ==> upper[i] == Lower("/LOGIN"[i]);
    }
  }

  /** The role checks read the profile before the guard loads it: a signed-in teacher whose
      profile is not loaded yet is turned away from the problem editor. */
  lemma RolesCheckedBeforeProfileLoads(token: string)
    requires UserStore.LoggedIn(token)
    ensures Decide(Target("/problems/create", PROBLEM_CREATE_ROUTE), token, None) == Redirect(DASHBOARD_PATH)
    ensures forall path :: Decide(Target(path, PROBLEM_EDIT_ROUTE), token, None) == Redirect(DASHBOARD_PATH)
  {
  }

  /** `beforeEach`: sets the title, decides, and for a route needing a login that passed the
      role checks without a loaded profile, fetches it first (`profile` is that request's
      outcome). `fetchUserInfo` swallows its errors, so the guard's `catch` branch, which would
      log out and go to '/login', never runs. */
  method BeforeEach(to: Target, store: UserStore.UserStore, profile: Result<UserInfo, string>)
    returns (nav: Navigation, title: string)
    modifies store, store.storage
    ensures title == PageTitle(to.route.meta)
    ensures nav == Decide(to, old(store.token), old(store.userInfo))
    ensures store.token == old(store.token)
    ensures var fetches := to.route.meta.requiresAuth && UserStore.LoggedIn(old(store.token))
                           && RolesAllow(to.route.meta, old(store.userInfo)) && old(store.userInfo).None?;
            && (fetches && profile.Success? ==>
                  && store.userInfo == Some(profile.value)
                  && store.storage.items == UserStore.Saved(old(store.storage.items), old(store.token),
                                                            Some(profile.value), store.json))
            && (!(fetches && profile.Success?) ==> store.userInfo == old(store.userInfo) && store.storage.items == old(store.storage.items))
  {
    title := PageTitle(to.route.meta);
    if to.route.meta.requiresAuth {
      if !store.IsLoggedIn() {
        return Redirect(LOGIN_PATH), title;
      }
      if to.route.meta.requiresTeacherOrAdmin {
        if !store.IsTeacher() && !store.IsAdmin() {
          return Redirect(DASHBOARD_PATH), title;
        }
      }
      if to.route.meta.requiresAdmin {
        if !store.IsAdmin() {
          return Redirect(DASHBOARD_PATH), title;
        }
      }
      if store.userInfo.None? {
        store.FetchUserInfo(profile);
      }
    }
    if (to.path == LOGIN_PATH || to.path == REGISTER_PATH) && store.IsLoggedIn() {
      return Redirect(DASHBOARD_PATH), title;
    }
    nav := Proceed;
  }
}

=== FILE: security.dfy ===
/** Password hashing and the signed, time-limited bearer tokens of backend/app/core/security.py.

    The two foreign libraries are modelled symbolically:
    - bcrypt (through passlib): a digest records its random salt and a check value computed from
      the secret and that salt; verification recomputes the check value with the recorded salt.
    - python-jose, HS256 (section 3.2 of RFC 7518): a token is its header algorithm, its claim
      set and a message authentication code; the code is a symbolic HMAC determined by the key,
      the algorithm and the claims, so it matches only when all three do.
    Time is a parameter in whole seconds since the epoch. */
module Security {
  import opened Wrappers
  import opened Http
  import opened Text

  const ALGORITHM: string := "HS256"
  /** backend/app/core/config.py: 60 * 24 * 7 minutes, seven days. */
  const ACCESS_TOKEN_EXPIRE_MINUTES: int := 60 * 24 * 7
  const RESET_TOKEN_LIFETIME_SECONDS: int := 24 * 60 * 60
  const RESET_TOKEN_TYPE: string := "reset_password"

  // ---------------------------------------------------------------- password hashing

  datatype Digest = Bcrypt(salt: int, check: int)

  /** Stand-in for bcrypt's key-derivation rounds: some function of the secret and the salt. */
  function Fingerprint(secret: string, salt: int): int {
    if secret == [] then salt
    else Fingerprint(secret[..|secret| - 1], salt) * 0x1_0001 + secret[|secret| - 1] as int
  }

  /** `verify_password`: recompute with the salt the digest carries. */
  predicate VerifyPassword(plain: string, hashed: Digest) {
    Fingerprint(plain, hashed.salt) == hashed.check
  }

  /** `get_password_hash`: the salt is the hasher's randomness, passed in. */
  function GetPasswordHash(plain: string, salt: int): (d: Digest)
    ensures d.salt == salt
    ensures VerifyPassword(plain, d)
  {
    Bcrypt(salt, Fingerprint(plain, salt))
  }

  // ---------------------------------------------------------------- token codec

  /** A JSON claim value of the kinds this system writes into tokens. */
  datatype Value = Str(s: string) | Int(i: int)

  type Claims = map<string, Value>

  datatype Mac = HmacSha256(key: string, alg: string, payload: Claims)

  datatype Token =
    | Jws(alg: string, payload: Claims, mac: Mac)
    | Garbled(text: string)

  /** The ways `jwt.decode` can fail; all are `JWTError`s to the caller. */
  datatype JoseError = Malformed | AlgorithmNotAllowed | BadSignature | BadClaim | Expired

  /** `jwt.encode(claims, key, algorithm=ALGORITHM)`. */
  function Encode(claims: Claims, key: string): Token {
    Jws(ALGORITHM, claims, HmacSha256(key, ALGORITHM, claims))
  }

  predicate AllDigits(s: string) {
    forall i :: 0 <= i < |s| ==> IsDigit(s[i])
  }

  /** The number a run of ASCII digits spells. */
  function DigitsValue(s: string): nat
    requires AllDigits(s)
  {
    if s == [] then 0 else DigitsValue(s[..|s| - 1]) * 10 + (s[|s| - 1] as int - '0' as int)
  }

  /** Python's `int()` applied to a claim value, as python-jose applies it to `iat`, `nbf` and
      `exp`, and as pydantic reads `TokenData.user_id`: an integer stays as it is; a string of
      ASCII digits, optionally signed, is the number it spells; anything else fails. */
  function IntOf(v: Value): (r: Option<int>)
    ensures v.Int? ==> r == Some(v.i)
    ensures v.Str? && |v.s| >= 1 && AllDigits(v.s) ==> r == Some(DigitsValue(v.s))
  {
    match v
    case Int(i) => Some(i)
    case Str(s) =>
      if |s| >= 1 && AllDigits(s) then Some(DigitsValue(s))
      else if |s| >= 2 && (s[0] == '-' || s[0] == '+') && AllDigits(s[1..]) then
        var n: int := DigitsValue(s[1..]);
        Some(if s[0] == '-' then -n else n)
      else None
  }

  /** `int()` reads back the decimal text `str()` writes for a number. */
  lemma {:induction false} DigitsValueOfRendering(n: nat)
    ensures AllDigits(NatToString(n)) && DigitsValue(NatToString(n)) == n
  {
    if n >= 10 {
      DigitsValueOfRendering(n / 10);
      var s := NatToString(n);
      assert s[..|s| - 1] == NatToString(n / 10);
    }
  }

  /** The claim checks python-jose makes besides `exp`, in its order, when no audience is
      passed: `iat` must be `int()`-readable; `nbf` must be too and not after `now`; any `aud`
      is refused, since the token names an audience the caller did not ask for; `sub` and
      `jti` must be strings; any `at_hash` is refused, since no access token is passed to check
      it against. */
  predicate OtherClaimsValid(c: Claims, now: int) {
    && ("iat" in c ==> IntOf(c["iat"]).Some?)
    && ("nbf" in c ==> IntOf(c["nbf"]).Some? && IntOf(c["nbf"]).value <= now)
    && "aud" !in c
    && ("sub" in c ==> c["sub"].Str?)
    && ("jti" in c ==> c["jti"].Str?)
    && "at_hash" !in c
  }

  /** `jwt.decode(token, key, algorithms=[ALGORITHM])` at time `now`: the header algorithm must be
      allowed and the code must match; then the claims are checked in python-jose's order
      (`iat`, `nbf`, `exp`, `aud`, `sub`, `jti`, `at_hash`): `exp`, when present, must be `int()`-readable
      and not before `now`. */
  function Decode(t: Token, key: string, now: int): (r: Result<Claims, JoseError>)
    ensures r.Success? <==> && t.Jws? && t.alg == ALGORITHM && t.mac == HmacSha256(key, t.alg, t.payload)
                            && OtherClaimsValid(t.payload, now)
                            && ("exp" in t.payload ==> IntOf(t.payload["exp"]).Some? && now <= IntOf(t.payload["exp"]).value)
    ensures r.Success? ==> t == Encode(r.value, key)
    ensures r.Success? && "exp" in r.value ==> IntOf(r.value["exp"]).Some? && now <= IntOf(r.value["exp"]).value
    ensures r.Success? && "sub" in r.value ==> r.value["sub"].Str?
    ensures r.Failure? && t.Jws? && t.alg == ALGORITHM && t.mac == HmacSha256(key, t.alg, t.payload)
            && "exp" in t.payload && IntOf(t.payload["exp"]).Some? && IntOf(t.payload["exp"]).value < now
            && ("iat" in t.payload ==> IntOf(t.payload["iat"]).Some?)
            && ("nbf" in t.payload ==> IntOf(t.payload["nbf"]).Some? && IntOf(t.payload["nbf"]).value <= now)
            ==> r.error == Expired
  {
    match t
    case Garbled(_) => Failure(Malformed)
    case Jws(alg, p, mac) =>
      if alg != ALGORITHM then Failure(AlgorithmNotAllowed)
      else if mac != HmacSha256(key, alg, p) then Failure(BadSignature)
      else if "iat" in p && IntOf(p["iat"]).None? then Failure(BadClaim)
      else if "nbf" in p && IntOf(p["nbf"]).None? then Failure(BadClaim)
      else if "nbf" in p && IntOf(p["nbf"]).value > now then Failure(BadClaim)
      else if "exp" in p && IntOf(p["exp"]).None? then Failure(BadClaim)
      else if "exp" in p && IntOf(p["exp"]).value < now then Failure(Expired)
      else if "aud" in p then Failure(BadClaim)
      else if "sub" in p && !p["sub"].Str? then Failure(BadClaim)
      else if "jti" in p && !p["jti"].Str? then Failure(BadClaim)
      else if "at_hash" in p then Failure(BadClaim)
      else Success(p)
  }

  /** The expiry instant `create_access_token` writes: a truthy `expires_delta` is added to
      `now`; an absent or zero one falls back to ACCESS_TOKEN_EXPIRE_MINUTES. */
  function ExpiryInstant(now: int, expiresDelta: Option<int>): (exp: int)
    ensures expiresDelta.Some? && expiresDelta.value != 0 ==> exp == now + expiresDelta.value
    ensures expiresDelta.None? || expiresDelta.value == 0 ==> exp == now + 604800
  {
    if expiresDelta.Some? && expiresDelta.value != 0 then now + expiresDelta.value
    else now + ACCESS_TOKEN_EXPIRE_MINUTES * 60
  }

  /** `create_access_token`: a copy of the caller's claims with `exp` added, signed. The caller's
      map is a value and cannot be changed. */
  function CreateAccessToken(data: Claims, expiresDelta: Option<int>, now: int, key: string): (t: Token)
    ensures t.Jws? && t.alg == ALGORITHM
    ensures t.payload.Keys == data.Keys + {"exp"}
    ensures forall k :: k in data && k != "exp" ==> t.payload[k] == data[k]
    ensures t.payload["exp"] == Int(ExpiryInstant(now, expiresDelta))
  {
    Encode(data["exp" := Int(ExpiryInstant(now, expiresDelta))], key)
  }

  /** Claims a session token carries (auth routes: login, login_json, refresh). */
  function SessionClaims(username: string, userId: int, role: string): Claims {
    map["sub" := Str(username), "user_id" := Int(userId), "role" := Str(role)]
  }

  /** `TokenData`: every field optional. */
  datatype TokenData = TokenData(username: Option<string>, userId: Option<int>, role: Option<string>)

  /** `verify_token`. Every decoding failure and a missing `sub` raise the same 401 with the
      Bearer challenge. `TokenData` reads a digit-string `user_id` as the number it spells; a
      `user_id` it cannot read as an integer or a `role` that is not a string fails the schema,
      and that error is not a `JWTError`, so it is not caught and surfaces as a 500. */
  function VerifyToken(t: Token, key: string, now: int): (r: Result<TokenData, HttpError>)
    ensures Decode(t, key, now).Failure? ==> r == Failure(CredentialsRejected)
    ensures r.Success? ==> r.value.username.Some? && Decode(t, key, now).Success?
    ensures r.Success? ==> var p := Decode(t, key, now).value;
      && "sub" in p && p["sub"] == Str(r.value.username.value)
      && (r.value.userId.Some? <==> "user_id" in p)
      && (r.value.userId.Some? ==> IntOf(p["user_id"]) == r.value.userId)
      && (r.value.role.Some? <==> "role" in p)
      && (r.value.role.Some? ==> p["role"] == Str(r.value.role.value))
    ensures r.Failure? ==> r.error == CredentialsRejected || r.error == InternalError
  {
    match Decode(t, key, now)
    case Failure(_) => Failure(CredentialsRejected)
    case Success(p) =>
      if "sub" !in p then Failure(CredentialsRejected)
      else if "user_id" in p && IntOf(p["user_id"]).None? then Failure(InternalError)
      else if "role" in p && !p["role"].Str? then Failure(InternalError)
      else
        Success(TokenData(
          Some(p["sub"].s),
          if "user_id" in p then IntOf(p["user_id"]) else None,
          if "role" in p then Some(p["role"].s) else None))
  }

  /** `generate_password_reset_token`: `sub` is the e-mail, `type` marks the token kind, and the
      token lives 24 hours. */
  function GeneratePasswordResetToken(email: string, now: int, key: string): (t: Token)
    ensures t.Jws? && t.payload == map["sub" := Str(email), "type" := Str(RESET_TOKEN_TYPE),
                                       "exp" := Int(now + 86400)]
  {
    CreateAccessToken(map["sub" := Str(email), "type" := Str(RESET_TOKEN_TYPE)],
                      Some(RESET_TOKEN_LIFETIME_SECONDS), now, key)
  }

  /** `verify_password_reset_token`: the e-mail when the token decodes, has a `sub` and is of the
      reset kind; otherwise `None`. It never raises. */
  function VerifyPasswordResetToken(t: Token, key: string, now: int): (r: Option<string>)
    ensures r.Some? <==> var d := Decode(t, key, now);
      d.Success? && "sub" in d.value && "type" in d.value && d.value["type"] == Str(RESET_TOKEN_TYPE)
    ensures r.Some? ==> Decode(t, key, now).value["sub"] == Str(r.value)
  {
    match Decode(t, key, now)
    case Failure(_) => None
    case Success(p) =>
      if "sub" !in p || "type" !in p || p["type"] != Str(RESET_TOKEN_TYPE) then None
      else Some(p["sub"].s)
  }

  // ---------------------------------------------------------------- properties

  /** Round trip: until its expiry, a token whose other registered claims python-jose accepts
      decodes, under the key that signed it, to exactly the claims it was issued with plus
      `exp`. */
  lemma AccessTokenRoundTrip(data: Claims, expiresDelta: Option<int>, now: int, key: string, t: int)
    requires OtherClaimsValid(data, t)
    requires t <= ExpiryInstant(now, expiresDelta)
    ensures Decode(CreateAccessToken(data, expiresDelta, now, key), key, t)
         == Success(data["exp" := Int(ExpiryInstant(now, expiresDelta))])
  {
  }

  /** After its expiry instant a token is rejected as expired, unless a malformed `iat` or an
      unreadable or future `nbf`, checked first, rejects it already. */
  lemma AccessTokenExpires(data: Claims, expiresDelta: Option<int>, now: int, key: string, t: int)
    requires "iat" in data ==> IntOf(data["iat"]).Some?
    requires "nbf" in data ==> IntOf(data["nbf"]).Some? && IntOf(data["nbf"]).value <= t
    requires t > ExpiryInstant(now, expiresDelta)
    ensures Decode(CreateAccessToken(data, expiresDelta, now, key), key, t) == Failure(Expired)
  {
  }

  /** No access token is passed to `jwt.decode`, so a token carrying `at_hash` is refused
      whatever else it carries. */
  lemma AccessTokenHashRejected(data: Claims, expiresDelta: Option<int>, now: int, key: string, t: int)
    requires "at_hash" in data
    ensures Decode(CreateAccessToken(data, expiresDelta, now, key), key, t).Failure?
  {
  }

  /** No audience is passed to `jwt.decode`, so a token naming one is refused whatever else it
      carries. */
  lemma AudienceClaimRejected(data: Claims, expiresDelta: Option<int>, now: int, key: string, t: int)
    requires "aud" in data
    ensures Decode(CreateAccessToken(data, expiresDelta, now, key), key, t).Failure?
  {
  }

  /** A token signed under one key is rejected under any other: rotating the key invalidates
      every outstanding token. */
  lemma OtherKeyRejected(data: Claims, expiresDelta: Option<int>, now: int, key: string, other: string, t: int)
    requires other != key
    ensures Decode(CreateAccessToken(data, expiresDelta, now, key), other, t) == Failure(BadSignature)
  {
  }

  /** Session round trip: before expiry, verifying a freshly issued session token gives back the
      same username, id and role. */
  lemma SessionTokenRoundTrip(username: string, userId: int, role: string, now: int, key: string, t: int)
    requires t <= now + ACCESS_TOKEN_EXPIRE_MINUTES * 60
    ensures VerifyToken(CreateAccessToken(SessionClaims(username, userId, role), None, now, key), key, t)
         == Success(TokenData(Some(username), Some(userId), Some(role)))
  {
    var p := SessionClaims(username, userId, role)["exp" := Int(ExpiryInstant(now, None))];
    AccessTokenRoundTrip(SessionClaims(username, userId, role), None, now, key, t);
    assert "sub" in p && "user_id" in p && "role" in p;
  }

  /** A session token carries no `type` claim, so the reset path never accepts one. */
  lemma SessionTokenIsNotResetToken(username: string, userId: int, role: string,
                                    delta: Option<int>, now: int, key: string, t: int)
    ensures VerifyPasswordResetToken(
              CreateAccessToken(SessionClaims(username, userId, role), delta, now, key), key, t) == None
  {
    var tok := CreateAccessToken(SessionClaims(username, userId, role), delta, now, key);
    assert "type" !in tok.payload;
  }

  /** A reset token is accepted by the reset path, within its 24 hours, with its e-mail. */
  lemma ResetTokenRoundTrip(email: string, now: int, key: string, t: int)
    requires t <= now + RESET_TOKEN_LIFETIME_SECONDS
    ensures VerifyPasswordResetToken(GeneratePasswordResetToken(email, now, key), key, t) == Some(email)
  {
  }

  /** `verify_token` does not look at `type`: a reset token passes it, with the e-mail as the
      username and neither id nor role. */
  lemma ResetTokenPassesVerifyToken(email: string, now: int, key: string, t: int)
    requires t <= now + RESET_TOKEN_LIFETIME_SECONDS
    ensures VerifyToken(GeneratePasswordResetToken(email, now, key), key, t)
         == Success(TokenData(Some(email), None, None))
  {
    var tok := GeneratePasswordResetToken(email, now, key);
    assert "user_id" !in tok.payload && "role" !in tok.payload;
  }
}

=== FILE: sorting.dfy ===
/** A stable insertion sort over a caller-supplied "comes no later than" relation. It stands for
    the two sorts the source relies on: SQL `ORDER BY` and JavaScript's `Array.prototype.sort`. */
module Sorting {

  /** `le` is total and transitive, as a sort comparator must be. */
  ghost predicate TotalPreorder<T(!new)>(le: (T, T) -> bool) {
    && (forall a, b :: le(a, b) || le(b, a))
    && (forall a, b, c :: le(a, b) && le(b, c) ==> le(a, c))
  }

  predicate SortedBy<T>(s: seq<T>, le: (T, T) -> bool) {
    forall i, j :: 0 <= i < j < |s| ==> le(s[i], s[j])
  }

  /** Inserts `x` before the first element it may precede. */
  function Insert<T>(x: T, s: seq<T>, le: (T, T) -> bool): (r: seq<T>)
    ensures multiset(r) == multiset(s) + multiset{x}
    ensures |r| == |s| + 1
  {
    if s == [] || le(x, s[0]) then [x] + s
    else
      assert s == [s[0]] + s[1..];
      [s[0]] + Insert(x, s[1..], le)
  }

  function SortBy<T>(s: seq<T>, le: (T, T) -> bool): (r: seq<T>)
    ensures multiset(r) == multiset(s)
    ensures |r| == |s|
  {
    if s == [] then []
    else
      assert s == [s[0]] + s[1..];
      Insert(s[0], SortBy(s[1..], le), le)
  }

  lemma {:induction false} InsertSorted<T(!new)>(x: T, s: seq<T>, le: (T, T) -> bool)
    requires TotalPreorder(le)
    requires SortedBy(s, le)
    ensures SortedBy(Insert(x, s, le), le)
  {
    if s == [] || le(x, s[0]) {
      var r := [x] + s;
      forall i, j | 0 <= i < j < |r| ensures le(r[i], r[j]) {
        if i > 0 {
          assert r[i] == s[i - 1] && r[j] == s[j - 1];
        } else if j > 1 {
          assert le(s[0], s[j - 1]);
        }
      }
    } else {
      assert le(s[0], x);
      var tail := Insert(x, s[1..], le);
      InsertSorted(x, s[1..], le);
      var r := [s[0]] + tail;
      forall k | 0 <= k < |tail| ensures le(s[0], tail[k]) {
        assert tail[k] in multiset(tail);
        assert tail[k] in multiset(s[1..]) + multiset{x};
        if tail[k] != x {
          assert tail[k] in multiset(s[1..]);
          var m :| 0 <= m < |s[1..]| && s[1..][m] == tail[k];
          assert s[1..][m] == s[m + 1];
        }
      }
      forall i, j | 0 <= i < j < |r| ensures le(r[i], r[j]) {
        if i == 0 {
          assert r[j] == tail[j - 1];
        } else {
          assert r[i] == tail[i - 1] && r[j] == tail[j - 1];
        }
      }
    }
  }

  /** The sort's output is ordered by `le` (it is a permutation by `SortBy`'s own contract). */
  lemma {:induction false} SortBySorted<T(!new)>(s: seq<T>, le: (T, T) -> bool)
    requires TotalPreorder(le)
    ensures SortedBy(SortBy(s, le), le)
  {
    if s != [] {
      SortBySorted(s[1..], le);
      InsertSorted(s[0], SortBy(s[1..], le), le);
    }
  }

  /** Sorting neither adds nor drops elements. */
  lemma SortByMember<T>(s: seq<T>, le: (T, T) -> bool, x: T)
    ensures x in SortBy(s, le) <==> x in s
  {
    assert x in SortBy(s, le) <==> x in multiset(SortBy(s, le));
    assert x in s <==> x in multiset(s);
  }
}

=== FILE: text.dfy ===
/** String helpers shared by the backend and frontend models: ASCII character classes,
    case folding, substring search, joining, decimal rendering, and JavaScript's UTF-16 string
    measures. */
module Text {

  predicate IsAsciiLetter(c: char) {
    ('a' <= c <= 'z') || ('A' <= c <= 'Z')
  }

  predicate IsDigit(c: char) {
    '0' <= c <= '9'
  }

  predicate IsAlnum(c: char) {
    IsAsciiLetter(c) || IsDigit(c)
  }

  /** ASCII lower-casing, the case folding `ilike` applies to Latin letters. */
  function Lower(c: char): (r: char)
    ensures 'A' <= c <= 'Z' ==> 'a' <= r <= 'z'
    ensures !('A' <= c <= 'Z') ==> r == c
  {
    if 'A' <= c <= 'Z' then (c as int + 32) as char else c
  }

  function LowerStr(s: string): (r: string)
    ensures |r| == |s|
    ensures forall i :: 0 <= i < |s| ==> r[i] == Lower(s[i])
  {
    if s == [] then [] else [Lower(s[0])] + LowerStr(s[1..])
  }

  predicate IsPrefix(p: string, s: string) {
    |p| <= |s| && s[..|p|] == p
  }

  /** Substring search, written as the scan a matcher performs. */
  predicate Contains(s: string, sub: string)
    decreases |s|
  {
    IsPrefix(sub, s) || (s != [] && Contains(s[1..], sub))
  }

  /** `sub` occurs in `s` starting at index `i`. */
  predicate OccursAt(s: string, sub: string, i: int) {
    0 <= i <= |s| - |sub| && s[i..i + |sub|] == sub
  }

  /** `Contains` agrees with the positional definition of "occurs in". */
  lemma {:induction false} ContainsIff(s: string, sub: string)
    ensures Contains(s, sub) <==> exists i :: OccursAt(s, sub, i)
    decreases |s|
  {
    if IsPrefix(sub, s) {
      assert OccursAt(s, sub, 0);
    } else if s == [] {
    } else {
      ContainsIff(s[1..], sub);
      if Contains(s[1..], sub) {
        var i :| OccursAt(s[1..], sub, i);
        assert s[1..][i..i + |sub|] == s[i + 1..i + 1 + |sub|];
        assert OccursAt(s, sub, i + 1);
      }
      if exists i :: OccursAt(s, sub, i) {
        var i :| OccursAt(s, sub, i);
        assert i != 0;
        assert s[1..][i - 1..i - 1 + |sub|] == s[i..i + |sub|];
        assert OccursAt(s[1..], sub, i - 1);
      }
    }
  }

  /** SQL `column ILIKE '%keyword%'` for a keyword without wildcard characters. */
  predicate ContainsIgnoringCase(s: string, keyword: string) {
    Contains(LowerStr(s), LowerStr(keyword))
  }

  /** Code-point order on strings: the order of `ORDER BY` on a text column under a binary
      collation. */
  predicate LexLe(a: string, b: string)
    decreases |a|
  {
    a == [] || (b != [] && (a[0] < b[0] || (a[0] == b[0] && LexLe(a[1..], b[1..]))))
  }

  lemma {:induction false} LexLeTotal(a: string, b: string)
    ensures LexLe(a, b) || LexLe(b, a)
    decreases |a|
  {
    if a != [] && b != [] && a[0] == b[0] {
      LexLeTotal(a[1..], b[1..]);
    }
  }

  lemma {:induction false} LexLeTrans(a: string, b: string, c: string)
    requires LexLe(a, b) && LexLe(b, c)
    ensures LexLe(a, c)
    decreases |a|
  {
    if a != [] && a[0] == b[0] && b[0] == c[0] {
      LexLeTrans(a[1..], b[1..], c[1..]);
    }
  }

  /** `parts.join(sep)`. */
  function Join(parts: seq<string>, sep: string): string {
    if parts == [] then ""
    else if |parts| == 1 then parts[0]
    else parts[0] + sep + Join(parts[1..], sep)
  }

  function DigitChar(d: nat): char
    requires d < 10
  {
    ('0' as int + d) as char
  }

  function NatToString(n: nat): (r: string)
    ensures |r| >= 1
    ensures forall i :: 0 <= i < |r| ==> IsDigit(r[i])
  {
    if n < 10 then [DigitChar(n)] else NatToString(n / 10) + [DigitChar(n % 10)]
  }

  /** Decimal rendering of an integer, as a JavaScript template literal prints it. */
  function IntToString(n: int): string {
    if n < 0 then "-" + NatToString(-n) else NatToString(n)
  }

  // ---------------------------------------------------------------- JavaScript string measures

  /** The UTF-16 code units a character takes: two for one beyond the Basic Multilingual Plane
      (a surrogate pair), one otherwise. */
  function Utf16Units(c: char): nat {
    if c as int > 0xFFFF then 2 else 1
  }

  /** A JavaScript string's `length`: its UTF-16 code units. */
  function Utf16Length(s: string): (n: nat)
    ensures |s| <= n <= 2 * |s|
  {
    if s == [] then 0 else Utf16Units(s[0]) + Utf16Length(s[1..])
  }

  lemma {:induction false} Utf16LengthAppend(a: string, b: string)
    ensures Utf16Length(a + b) == Utf16Length(a) + Utf16Length(b)
  {
    if a != [] {
      assert (a + b)[1..] == a[1..] + b;
      Utf16LengthAppend(a[1..], b);
    } else {
      assert a + b == b;
    }
  }

  /** `s.substring(0, n)` for a cut between characters: the longest start of `s` that fits in
      `n` code units (none for a negative `n`, which `substring` clamps to 0). */
  function Utf16Prefix(s: string, n: int): (p: string)
    ensures |p| <= |s| && p == s[..|p|]
    ensures Utf16Length(p) <= (if n < 0 then 0 else n)
    ensures |p| < |s| ==> Utf16Length(p) + Utf16Units(s[|p|]) > n
    decreases |s|
  {
    if s == [] || Utf16Units(s[0]) > n then []
    else [s[0]] + Utf16Prefix(s[1..], n - Utf16Units(s[0]))
  }

  /** On text of one code unit per character, the cut is the first `n` characters. */
  lemma {:induction false} Utf16PrefixOfOneUnitText(s: string, n: int)
    requires Utf16Length(s) == |s| && 0 <= n <= |s|
    ensures Utf16Prefix(s, n) == s[..n]
    decreases |s|
  {
    if n > 0 {
      assert Utf16Units(s[0]) == 1 by {
        assert Utf16Length(s) == Utf16Units(s[0]) + Utf16Length(s[1..]);
      }
      Utf16PrefixOfOneUnitText(s[1..], n - 1);
      assert s[..n] == [s[0]] + s[1..][..n - 1];
    }
  }
}

=== FILE: user_crud.dfy ===
/** The user data-access layer of backend/app/crud/user.py. Queries are functions over the
    `users` table held as a sequence of rows; the operations that commit changes are methods of
    `UserStore`, whose fields are that table and the next primary key to hand out. */
module UserCrud {
  import opened Wrappers
  import opened Json
  import opened Like
  import opened Text
  import opened Sorting
  import opened Query
  import opened UserModel
  import opened UserSchemas
  import Security

  // ---------------------------------------------------------------- single-row lookups

  /** `get_user`. */
  function GetUser(rows: seq<User>, id: int): (r: Option<User>)
    ensures r.Some? ==> r.value in rows && r.value.id == id
    ensures r.None? <==> forall j :: 0 <= j < |rows| ==> rows[j].id != id
  {
    First(rows, (u: User) => u.id == id)
  }

  /** `get_user_by_username`. */
  function GetUserByUsername(rows: seq<User>, username: string): (r: Option<User>)
    ensures r.Some? ==> r.value in rows && r.value.username == username
    ensures r.None? <==> forall j :: 0 <= j < |rows| ==> rows[j].username != username
  {
    First(rows, (u: User) => u.username == username)
  }

  /** `get_user_by_email`. */
  function GetUserByEmail(rows: seq<User>, email: string): (r: Option<User>)
    ensures r.Some? ==> r.value in rows && r.value.email == Some(email)
    ensures r.None? <==> forall j :: 0 <= j < |rows| ==> rows[j].email != Some(email)
  {
    First(rows, (u: User) => u.email == Some(email))
  }

  // ---------------------------------------------------------------- table constraints

  /** The primary key. */
  predicate UniqueIds(rows: seq<User>) {
    forall i, j :: 0 <= i < j < |rows| ==> rows[i].id != rows[j].id
  }

  /** `username` is declared `unique=True`. */
  predicate UniqueUsernames(rows: seq<User>) {
    forall i, j :: 0 <= i < j < |rows| ==> rows[i].username != rows[j].username
  }

  /** `email` is declared `unique=True` and nullable; NULLs never clash. */
  predicate UniqueEmails(rows: seq<User>) {
    forall i, j :: 0 <= i < j < |rows| && rows[i].email.Some? ==> rows[i].email != rows[j].email
  }

  /** Under the primary key, lookup by id finds exactly the row that carries the id. */
  lemma {:induction false} GetUserExact(rows: seq<User>, id: int, u: User)
    requires UniqueIds(rows)
    ensures GetUser(rows, id) == Some(u) <==> u in rows && u.id == id
  {
    if u in rows && u.id == id {
      var r := GetUser(rows, id);
      var i :| 0 <= i < |rows| && rows[i] == u;
      var j :| 0 <= j < |rows| && rows[j] == r.value;
      assert i == j;
    }
  }

  /** Under the unique constraint, lookup by username finds exactly the row carrying it. */
  lemma {:induction false} GetUserByUsernameExact(rows: seq<User>, username: string, u: User)
    requires UniqueUsernames(rows)
    ensures GetUserByUsername(rows, username) == Some(u) <==> u in rows && u.username == username
  {
    if u in rows && u.username == username {
      var r := GetUserByUsername(rows, username);
      var i :| 0 <= i < |rows| && rows[i] == u;
      var j :| 0 <= j < |rows| && rows[j] == r.value;
      assert i == j;
    }
  }

  /** Under the unique constraint, at most one row carries a given email. */
  lemma {:induction false} EmailHolderUnique(rows: seq<User>, email: string, j: int)
    requires UniqueEmails(rows)
    requires 0 <= j < |rows| && rows[j].email == Some(email)
    ensures GetUserByEmail(rows, email) == Some(rows[j])
  {
    var r := GetUserByEmail(rows, email);
    var i :| 0 <= i < |rows| && rows[i] == r.value;
    assert i == j;
  }

  lemma IdsDistinct(rows: seq<User>, i: int, j: int)
    requires UniqueIds(rows) && 0 <= i < |rows| && 0 <= j < |rows| && i != j
    ensures rows[i].id != rows[j].id
  {
    if j < i {
      assert rows[j].id != rows[i].id;
    }
  }

  lemma EmailsDistinct(rows: seq<User>, i: int, j: int)
    requires UniqueEmails(rows) && 0 <= i < |rows| && 0 <= j < |rows| && i != j
    requires rows[i].email.Some?
    ensures rows[i].email != rows[j].email
  {
    if j < i && rows[j].email.Some? {
      assert rows[j].email != rows[i].email;
    }
  }

  // ---------------------------------------------------------------- listing and search

  /** The filters of `get_users`: `if role:` skips an absent or empty role. */
  predicate ListFilter(u: User, role: Option<string>, isActive: Option<bool>) {
    && (role.Some? && role.value != "" ==> u.role == role.value)
    && (isActive.Some? ==> u.isActive == isActive.value)
  }

  /** `order_by(User.created_at.desc())`. */
  predicate NewestFirst(a: User, b: User) {
    a.createdAt >= b.createdAt
  }

  /** `get_users`: filter, newest first, then `offset(skip).limit(limit)`. */
  function GetUsers(rows: seq<User>, skip: nat, limit: nat, role: Option<string>, isActive: Option<bool>)
    : (r: seq<User>)
    ensures |r| <= limit
    ensures forall i :: 0 <= i < |r| ==> r[i] in rows && ListFilter(r[i], role, isActive)
  {
    var matching := Filter(rows, (u: User) => ListFilter(u, role, isActive));
    var ordered := SortBy(matching, NewestFirst);
    var r := Page(ordered, skip, limit);
    forall i | 0 <= i < |r| ensures r[i] in rows && ListFilter(r[i], role, isActive) {
      PageMember(ordered, skip, limit, r[i]);
      SortByMember(matching, NewestFirst, r[i]);
    }
    r
  }

  lemma NewestFirstIsPreorder()
    ensures TotalPreorder(NewestFirst)
  {
  }

  /** Every page of `get_users` lists newer accounts before older ones. */
  lemma GetUsersNewestFirst(rows: seq<User>, skip: nat, limit: nat, role: Option<string>, isActive: Option<bool>)
    ensures SortedBy(GetUsers(rows, skip, limit, role, isActive), NewestFirst)
  {
    var matching := Filter(rows, (u: User) => ListFilter(u, role, isActive));
    NewestFirstIsPreorder();
    SortBySorted(matching, NewestFirst);
    PageSorted(SortBy(matching, NewestFirst), skip, limit, NewestFirst);
  }

  /** A first page at least as large as the number of matching rows misses none of them. */
  lemma GetUsersComplete(rows: seq<User>, limit: nat, role: Option<string>, isActive: Option<bool>, u: User)
    requires |Filter(rows, (v: User) => ListFilter(v, role, isActive))| <= limit
    requires u in rows && ListFilter(u, role, isActive)
    ensures u in GetUsers(rows, 0, limit, role, isActive)
  {
    var matching := Filter(rows, (v: User) => ListFilter(v, role, isActive));
    assert u in matching;
    SortByMember(matching, NewestFirst, u);
    PageWhole(SortBy(matching, NewestFirst), limit);
  }

  /** The filter of `search_users`: an active account whose username, full name or school
      matches `ILIKE '%keyword%'`; a NULL column matches nothing. */
  predicate SearchHit(u: User, keyword: string) {
    var p := SubstringPattern(keyword);
    && u.isActive
    && (|| ILikeMatch(u.username, p)
        || (u.fullName.Some? && ILikeMatch(u.fullName.value, p))
        || (u.school.Some? && ILikeMatch(u.school.value, p)))
  }

  /** `order_by(User.username)`. */
  predicate ByUsername(a: User, b: User) {
    LexLe(a.username, b.username)
  }

  /** `search_users`. */
  function SearchUsers(rows: seq<User>, keyword: string, skip: nat, limit: nat): (r: seq<User>)
    ensures |r| <= limit
    ensures forall i :: 0 <= i < |r| ==> r[i] in rows && SearchHit(r[i], keyword)
  {
    var matching := Filter(rows, (u: User) => SearchHit(u, keyword));
    var ordered := SortBy(matching, ByUsername);
    var r := Page(ordered, skip, limit);
    forall i | 0 <= i < |r| ensures r[i] in rows && SearchHit(r[i], keyword) {
      PageMember(ordered, skip, limit, r[i]);
      SortByMember(matching, ByUsername, r[i]);
    }
    r
  }

  /** A first search page at least as large as the number of hits misses none of them. */
  lemma SearchUsersComplete(rows: seq<User>, keyword: string, limit: nat, u: User)
    requires |Filter(rows, (v: User) => SearchHit(v, keyword))| <= limit
    requires u in rows && SearchHit(u, keyword)
    ensures u in SearchUsers(rows, keyword, 0, limit)
  {
    var matching := Filter(rows, (v: User) => SearchHit(v, keyword));
    assert u in matching;
    SortByMember(matching, ByUsername, u);
    PageWhole(SortBy(matching, ByUsername), limit);
  }

  lemma ByUsernameIsPreorder()
    ensures TotalPreorder(ByUsername)
  {
    forall a: User, b: User ensures ByUsername(a, b) || ByUsername(b, a) {
      LexLeTotal(a.username, b.username);
    }
    forall a: User, b: User, c: User | ByUsername(a, b) && ByUsername(b, c) ensures ByUsername(a, c) {
      LexLeTrans(a.username, b.username, c.username);
    }
  }

  /** Search results come in username order. */
  lemma SearchUsersOrdered(rows: seq<User>, keyword: string, skip: nat, limit: nat)
    ensures SortedBy(SearchUsers(rows, keyword, skip, limit), ByUsername)
  {
    var matching := Filter(rows, (u: User) => SearchHit(u, keyword));
    ByUsernameIsPreorder();
    SortBySorted(matching, ByUsername);
    PageSorted(SortBy(matching, ByUsername), skip, limit, ByUsername);
  }

  /** For a keyword with no `%`, `_` or `\`, a hit is a case-insensitive substring match. */
  lemma SearchHitPlainKeyword(u: User, keyword: string)
    requires NoWildcards(keyword)
    ensures SearchHit(u, keyword) <==>
      && u.isActive
      && (|| ContainsIgnoringCase(u.username, keyword)
          || (u.fullName.Some? && ContainsIgnoringCase(u.fullName.value, keyword))
          || (u.school.Some? && ContainsIgnoringCase(u.school.value, keyword)))
  {
    ILikeSubstring(u.username, keyword);
    if u.fullName.Some? {
      ILikeSubstring(u.fullName.value, keyword);
    }
    if u.school.Some? {
      ILikeSubstring(u.school.value, keyword);
    }
  }

  // ---------------------------------------------------------------- authentication

  /** `authenticate_user`: the account with that username, if the password verifies. */
  function AuthenticateUser(rows: seq<User>, username: string, password: string): (r: Option<User>)
    ensures r.Some? ==> r.value in rows && r.value.username == username
                        && Security.VerifyPassword(password, r.value.hashedPassword)
    ensures GetUserByUsername(rows, username).None? ==> r.None?
  {
    match GetUserByUsername(rows, username)
    case None => None
    case Some(u) => if Security.VerifyPassword(password, u.hashedPassword) then Some(u) else None
  }

  /** With unique usernames, authentication succeeds for exactly the account holding the username
      whose digest accepts the password. */
  lemma AuthenticateUserIff(rows: seq<User>, username: string, password: string, u: User)
    requires UniqueUsernames(rows)
    ensures AuthenticateUser(rows, username, password) == Some(u) <==>
            u in rows && u.username == username && Security.VerifyPassword(password, u.hashedPassword)
  {
    GetUserByUsernameExact(rows, username, u);
  }

  // ---------------------------------------------------------------- aggregates

  function CountActiveRole(rows: seq<User>, role: string): (n: nat)
    ensures n <= |rows|
  {
    if rows == [] then 0
    else CountActiveRole(rows[..|rows| - 1], role)
         + (if rows[|rows| - 1].isActive && rows[|rows| - 1].role == role then 1 else 0)
  }

  function CountActive(rows: seq<User>): (n: nat)
    ensures n <= |rows|
  {
    if rows == [] then 0
    else CountActive(rows[..|rows| - 1]) + (if rows[|rows| - 1].isActive then 1 else 0)
  }

  /** Every username passed the registration schema; no route changes a username afterwards. */
  predicate SchemaUsernames(rows: seq<User>) {
    forall i :: 0 <= i < |rows| ==> ValidUsername(rows[i].username)
  }

  predicate KnownRoles(rows: seq<User>) {
    forall i :: 0 <= i < |rows| ==> rows[i].role in ALLOWED_ROLES
  }

  /** When every account has one of the four roles, the active accounts split exactly into the
      four per-role counts. */
  lemma {:induction false} ActiveSplitsByRole(rows: seq<User>)
    requires KnownRoles(rows)
    ensures CountActive(rows) == CountActiveRole(rows, "student") + CountActiveRole(rows, "teacher")
                                 + CountActiveRole(rows, "admin") + CountActiveRole(rows, "parent")
  {
    if rows != [] {
      var init := rows[..|rows| - 1];
      assert KnownRoles(init) by {
        forall i | 0 <= i < |init| ensures init[i].role in ALLOWED_ROLES {
          assert init[i] == rows[i];
        }
      }
      ActiveSplitsByRole(init);
    }
  }

  // ---------------------------------------------------------------- row construction

  /** The row `create_user` builds: the schema's fields, a fresh digest of the password, an
      active and unverified account with empty metadata, stamped `now` by the server default. */
  function NewRow(id: int, uc: UserCreate, salt: int, now: int): (u: User)
    ensures u.id == id && u.username == uc.username && u.email == uc.email && u.role == uc.role
    ensures u.fullName == uc.fullName && u.grade == uc.grade && u.school == uc.school
    ensures Security.VerifyPassword(uc.password, u.hashedPassword)
    ensures u.isActive && !u.isVerified && u.metadata == map[] && u.lastLoginAt.None?
    ensures u.createdAt == now
  {
    User(id, uc.username, uc.email, Security.GetPasswordHash(uc.password, salt), uc.fullName,
         uc.role, uc.grade, uc.school, true, false, now, None, map[])
  }

  /** The `setattr` loop of `update_user`, with `metadata` written to the `user_metadata`
      column. Fields the update does not set, and every field it cannot name, keep their value. */
  function ApplyUpdate(u: User, upd: UserUpdate): (r: User)
    ensures r.id == u.id && r.username == u.username && r.hashedPassword == u.hashedPassword
    ensures r.role == u.role && r.createdAt == u.createdAt && r.lastLoginAt == u.lastLoginAt
    ensures r.isVerified == u.isVerified
    ensures r.email == upd.email.GetOr(u.email) && r.fullName == upd.fullName.GetOr(u.fullName)
    ensures r.grade == upd.grade.GetOr(u.grade) && r.school == upd.school.GetOr(u.school)
    ensures r.isActive == upd.isActive.GetOr(u.isActive)
    ensures r.metadata == upd.metadata.GetOr(u.metadata)
  {
    u.(email := upd.email.GetOr(u.email),
       fullName := upd.fullName.GetOr(u.fullName),
       grade := upd.grade.GetOr(u.grade),
       school := upd.school.GetOr(u.school),
       isActive := upd.isActive.GetOr(u.isActive),
       metadata := upd.metadata.GetOr(u.metadata))
  }

  /** The `setattr` loop as written: the ORM maps the JSON column under the attribute name
      `user_metadata`, so assigning the attribute `metadata` never reaches the database. */
  function ApplyUpdateAsWritten(u: User, upd: UserUpdate): (r: User)
    ensures r.metadata == u.metadata
    ensures r == ApplyUpdate(u, upd.(metadata := None))
  {
    u.(email := upd.email.GetOr(u.email),
       fullName := upd.fullName.GetOr(u.fullName),
       grade := upd.grade.GetOr(u.grade),
       school := upd.school.GetOr(u.school),
       isActive := upd.isActive.GetOr(u.isActive))
  }

  /** An update that sets new metadata is lost as written, though the corrected loop stores it. */
  lemma MetadataUpdateLost(u: User, m: map<string, Json>)
    requires m != u.metadata
    ensures var upd := UserUpdate(None, None, None, None, None, Some(m));
            && ApplyUpdateAsWritten(u, upd).metadata == u.metadata
            && ApplyUpdate(u, upd).metadata == m
  {
  }

  /** Another account already holds the email an update sets. */
  predicate EmailTakenByOther(rows: seq<User>, id: int, upd: UserUpdate) {
    && upd.email.Some? && upd.email.value.Some? && upd.email.value.value != ""
    && var holder := GetUserByEmail(rows, upd.email.value.value);
       holder.Some? && holder.value.id != id
  }

  /** The rows with the row whose key is `id` replaced by `u`. */
  function SetRow(rows: seq<User>, id: int, u: User): (r: seq<User>)
    ensures |r| == |rows|
    ensures forall j :: 0 <= j < |rows| ==> r[j] == if rows[j].id == id then u else rows[j]
  {
    seq(|rows|, j requires 0 <= j < |rows| => if rows[j].id == id then u else rows[j])
  }

  // ---------------------------------------------------------------- the committing operations

  class UserStore {
    var rows: seq<User>
    var nextId: int

    ghost predicate Valid()
      reads this
    {
      nextId >= 1 && TableConstraints(rows, nextId)
    }

    constructor()
      ensures Valid() && rows == [] && nextId == 1
    {
      rows := [];
      nextId := 1;
    }

    /** `create_user`: the username must be free, then the email if one is given; on success
        the new row is appended under the next key. A failure changes nothing. */
    method CreateUser(uc: UserCreate, salt: int, now: int) returns (r: Result<User, string>)
      requires Valid() && WellFormedCreate(uc)
      modifies this
      ensures Valid()
      ensures GetUserByUsername(old(rows), uc.username).Some? ==> r == Failure("用户名已存在")
      ensures (&& GetUserByUsername(old(rows), uc.username).None? && uc.email.Some?
               && GetUserByEmail(old(rows), uc.email.value).Some?) ==> r == Failure("邮箱已存在")
      ensures r.Success? <==> GetUserByUsername(old(rows), uc.username).None?
                              && (uc.email.Some? ==> GetUserByEmail(old(rows), uc.email.value).None?)
      ensures r.Failure? ==> rows == old(rows) && nextId == old(nextId)
      ensures r.Success? ==> r.value == NewRow(old(nextId), uc, salt, now)
                             && rows == old(rows) + [r.value] && nextId == old(nextId) + 1
    {
      if GetUserByUsername(rows, uc.username).Some? {
        return Failure("用户名已存在");
      }
      if uc.email.Some? && uc.email.value != "" && GetUserByEmail(rows, uc.email.value).Some? {
        return Failure("邮箱已存在");
      }
      var u := NewRow(nextId, uc, salt, now);
      rows := rows + [u];
      nextId := nextId + 1;
      r := Success(u);
    }

    /** `update_user` on the account keyed `id`, corrected: an email held by another account is
        refused and nothing changes; otherwise the set fields are written, metadata included.
        The code as written loses the metadata (`ApplyUpdateAsWritten`); the written row differs
        from the one it stores in that column only. */
    method UpdateUser(id: int, upd: UserUpdate) returns (r: Result<User, string>)
      requires Valid() && WellFormedUpdate(upd) && GetUser(rows, id).Some?
      modifies this
      ensures Valid() && nextId == old(nextId)
      ensures EmailTakenByOther(old(rows), id, upd) ==> r == Failure("邮箱已被使用") && rows == old(rows)
      ensures !EmailTakenByOther(old(rows), id, upd) ==>
                && r == Success(ApplyUpdate(GetUser(old(rows), id).value, upd))
                && rows == SetRow(old(rows), id, r.value)
      ensures r.Success? ==>
                r.value.(metadata := GetUser(old(rows), id).value.metadata)
                == ApplyUpdateAsWritten(GetUser(old(rows), id).value, upd)
    {
      if EmailTakenByOther(rows, id, upd) {
        return Failure("邮箱已被使用");
      }
      var u := ApplyUpdate(GetUser(rows, id).value, upd);
      UpdatePreservesConstraints(rows, nextId, id, upd);
      rows := SetRow(rows, id, u);
      r := Success(u);
    }

    /** `delete_user`: a soft delete that clears `is_active`; false when no row has the key. */
    method DeleteUser(id: int) returns (deleted: bool)
      requires Valid()
      modifies this
      ensures Valid() && nextId == old(nextId)
      ensures deleted <==> GetUser(old(rows), id).Some?
      ensures !deleted ==> rows == old(rows)
      ensures deleted ==> rows == SetRow(old(rows), id, GetUser(old(rows), id).value.(isActive := false))
    {
      var u := GetUser(rows, id);
      if u.None? {
        return false;
      }
      ReplacePreservesConstraints(rows, nextId, id, u.value.(isActive := false));
      rows := SetRow(rows, id, u.value.(isActive := false));
      deleted := true;
    }

    /** `change_password`: only when the current password verifies does the digest change. */
    method ChangePassword(id: int, currentPassword: string, newPassword: string, salt: int)
      returns (changed: bool)
      requires Valid() && GetUser(rows, id).Some?
      modifies this
      ensures Valid() && nextId == old(nextId)
      ensures changed <==> Security.VerifyPassword(currentPassword, GetUser(old(rows), id).value.hashedPassword)
      ensures !changed ==> rows == old(rows)
      ensures changed ==> rows == SetRow(old(rows), id, GetUser(old(rows), id).value.(
                                   hashedPassword := Security.GetPasswordHash(newPassword, salt)))
    {
      var u := GetUser(rows, id).value;
      if !Security.VerifyPassword(currentPassword, u.hashedPassword) {
        return false;
      }
      var v := u.(hashedPassword := Security.GetPasswordHash(newPassword, salt));
      ReplacePreservesConstraints(rows, nextId, id, v);
      rows := SetRow(rows, id, v);
      changed := true;
    }

    /** `User.update_last_login` followed by a commit. */
    method TouchLastLogin(id: int, now: int)
      requires Valid() && GetUser(rows, id).Some?
      modifies this
      ensures Valid() && nextId == old(nextId)
      ensures rows == SetRow(old(rows), id, UpdateLastLogin(GetUser(old(rows), id).value, now))
    {
      var v := UpdateLastLogin(GetUser(rows, id).value, now);
      ReplacePreservesConstraints(rows, nextId, id, v);
      rows := SetRow(rows, id, v);
    }

    /** `count_users`: active accounts grouped by role, the four known roles filled in with 0,
        and "total" the sum of the groups, which is the number of active accounts. */
    method CountUsers() returns (stats: map<string, int>)
      ensures forall r :: r in stats <==> r in ALLOWED_ROLES || r == "total" || CountActiveRole(rows, r) > 0
      ensures forall r :: r in stats && r != "total" ==> stats[r] == CountActiveRole(rows, r)
      ensures "total" in stats && stats["total"] == CountActive(rows)
    {
      stats := map[];
      var total := 0;
      var i := 0;
      while i < |rows|
        invariant 0 <= i <= |rows|
        invariant forall r :: r in stats <==> CountActiveRole(rows[..i], r) > 0
        invariant forall r :: r in stats ==> stats[r] == CountActiveRole(rows[..i], r)
        invariant total == CountActive(rows[..i])
      {
        assert rows[..i + 1][..i] == rows[..i];
        var u := rows[i];
        if u.isActive {
          var n := if u.role in stats then stats[u.role] else 0;
          stats := stats[u.role := n + 1];
          total := total + 1;
        }
        i := i + 1;
      }
      assert rows[..i] == rows;
      var roles := ALLOWED_ROLES;
      var k := 0;
      while k < |roles|
        invariant 0 <= k <= |roles|
        invariant forall r :: r in stats <==> r in roles[..k] || CountActiveRole(rows, r) > 0
        invariant forall r :: r in stats ==> stats[r] == CountActiveRole(rows, r)
      {
        if roles[k] !in stats {
          stats := stats[roles[k] := 0];
        }
        assert roles[..k + 1] == roles[..k] + [roles[k]];
        k := k + 1;
      }
      assert roles[..k] == ALLOWED_ROLES;
      stats := stats["total" := total];
    }
  }

  /** The table constraints a `UserStore` keeps. */
  predicate TableConstraints(rows: seq<User>, nextId: int) {
    && UniqueIds(rows) && UniqueUsernames(rows) && UniqueEmails(rows) && KnownRoles(rows)
    && SchemaUsernames(rows)
    && forall i :: 0 <= i < |rows| ==> 1 <= rows[i].id < nextId
  }

  /** Overwriting the row at `k` with one of the same key, username and role, whose email no
      other row holds, keeps every table constraint. */
  lemma {:induction false} OverwriteKeepsConstraints(rows: seq<User>, nextId: int, k: int, u: User)
    requires TableConstraints(rows, nextId)
    requires 0 <= k < |rows|
    requires u.id == rows[k].id && u.username == rows[k].username && u.role == rows[k].role
    requires u.email.Some? ==> forall j :: 0 <= j < |rows| && j != k ==> rows[j].email != u.email
    ensures TableConstraints(SetRow(rows, rows[k].id, u), nextId)
  {
    var r := SetRow(rows, rows[k].id, u);
    assert forall j :: 0 <= j < |rows| ==> r[j] == if j == k then u else rows[j];
    assert UniqueIds(r);
    assert UniqueUsernames(r);
    assert KnownRoles(r) && SchemaUsernames(r);
    forall i, j | 0 <= i < j < |r| && r[i].email.Some? ensures r[i].email != r[j].email {
      if i != k && j != k {
        assert r[i] == rows[i] && r[j] == rows[j];
      }
    }
  }

  /** Replacing a row by one with the same key, username, email and role keeps every table
      constraint. */
  lemma ReplacePreservesConstraints(rows: seq<User>, nextId: int, id: int, u: User)
    requires TableConstraints(rows, nextId)
    requires GetUser(rows, id).Some?
    requires var old_ := GetUser(rows, id).value;
             u.id == id && u.username == old_.username && u.email == old_.email && u.role == old_.role
    ensures TableConstraints(SetRow(rows, id, u), nextId)
  {
    var old_ := GetUser(rows, id).value;
    var k :| 0 <= k < |rows| && rows[k] == old_;
    forall j | 0 <= j < |rows| && j != k && u.email.Some? ensures rows[j].email != u.email {
      EmailsDistinct(rows, k, j);
    }
    OverwriteKeepsConstraints(rows, nextId, k, u);
  }

  /** An update whose email is free (or already this account's) keeps every table constraint. */
  lemma UpdatePreservesConstraints(rows: seq<User>, nextId: int, id: int, upd: UserUpdate)
    requires TableConstraints(rows, nextId) && WellFormedUpdate(upd)
    requires GetUser(rows, id).Some?
    requires !EmailTakenByOther(rows, id, upd)
    ensures TableConstraints(SetRow(rows, id, ApplyUpdate(GetUser(rows, id).value, upd)), nextId)
  {
    var old_ := GetUser(rows, id).value;
    var u := ApplyUpdate(old_, upd);
    var k :| 0 <= k < |rows| && rows[k] == old_;
    forall j | 0 <= j < |rows| && j != k && u.email.Some? ensures rows[j].email != u.email {
      if upd.email.Some? {
        IdsDistinct(rows, j, k);
        if rows[j].email == u.email {
          EmailHolderUnique(rows, u.email.value, j);
        }
      } else {
        EmailsDistinct(rows, k, j);
      }
    }
    OverwriteKeepsConstraints(rows, nextId, k, u);
  }

  /** A freshly created account can log in with the password it registered with. */
  lemma CreatedUserAuthenticates(rows: seq<User>, id: int, uc: UserCreate, salt: int, now: int)
    requires GetUserByUsername(rows, uc.username).None?
    ensures AuthenticateUser(rows + [NewRow(id, uc, salt, now)], uc.username, uc.password)
            == Some(NewRow(id, uc, salt, now))
  {
    var u := NewRow(id, uc, salt, now);
    var r := rows + [u];
    assert r[|rows|] == u;
    assert forall j :: 0 <= j < |rows| ==> r[j] == rows[j];
  }
}

=== FILE: user_model.dfy ===
/** The `User` record of backend/app/models/user.py: role predicates, column defaults,
    `update_last_login` and `to_dict`. */
module UserModel {
  import opened Wrappers
  import opened Json
  import Security

  /** One row of the `users` table. Timestamps are seconds since the epoch. */
  datatype User = User(
    id: int,
    username: string,
    email: Option<string>,
    hashedPassword: Security.Digest,
    fullName: Option<string>,
    role: string,
    grade: Option<string>,
    school: Option<string>,
    isActive: bool,
    isVerified: bool,
    createdAt: int,
    lastLoginAt: Option<int>,
    metadata: map<string, Json>)

  const ROLE_STUDENT: string := "student"
  const ROLE_TEACHER: string := "teacher"
  const ROLE_ADMIN: string := "admin"
  const ROLE_PARENT: string := "parent"

  predicate IsAdmin(u: User) {
    u.role == ROLE_ADMIN
  }

  predicate IsTeacher(u: User) {
    u.role == ROLE_TEACHER
  }

  predicate IsStudent(u: User) {
    u.role == ROLE_STUDENT
  }

  /** The role predicates test one string against three different values, so at most one holds,
      and for "parent" (or any other role) none does. */
  lemma RolePredicatesExclusive(u: User)
    ensures !(IsAdmin(u) && IsTeacher(u)) && !(IsAdmin(u) && IsStudent(u)) && !(IsTeacher(u) && IsStudent(u))
    ensures u.role == ROLE_PARENT ==> !IsAdmin(u) && !IsTeacher(u) && !IsStudent(u)
    ensures IsAdmin(u) || IsTeacher(u) || IsStudent(u) <==> u.role in {ROLE_ADMIN, ROLE_TEACHER, ROLE_STUDENT}
  {
  }

  /** A row as the ORM creates it when only the required columns are given: the column defaults
      make the role "student", the account active and unverified, and the metadata empty. */
  function NewUser(id: int, username: string, hashedPassword: Security.Digest, createdAt: int): (u: User)
    ensures u.id == id && u.username == username && u.hashedPassword == hashedPassword
    ensures IsStudent(u) && u.isActive && !u.isVerified
    ensures u.metadata == map[] && u.lastLoginAt.None?
  {
    User(id, username, None, hashedPassword, None, ROLE_STUDENT, None, None,
         true, false, createdAt, None, map[])
  }

  /** `update_last_login`: only `last_login_at` changes. */
  function UpdateLastLogin(u: User, now: int): (r: User)
    ensures r.lastLoginAt == Some(now)
    ensures r.(lastLoginAt := u.lastLoginAt) == u
  {
    u.(lastLoginAt := Some(now))
  }

  const PUBLIC_FIELDS: set<string> :=
    {"id", "username", "email", "full_name", "role", "grade", "school", "is_active",
     "is_verified", "created_at", "last_login_at"}

  /** The columns `to_dict` always shows, each as its JSON value. */
  function PublicColumns(u: User): (d: map<string, Json>)
    ensures d.Keys == PUBLIC_FIELDS
    ensures d["id"] == JInt(u.id) && d["username"] == JStr(u.username) && d["email"] == OptStr(u.email)
    ensures d["full_name"] == OptStr(u.fullName) && d["role"] == JStr(u.role)
    ensures d["grade"] == OptStr(u.grade) && d["school"] == OptStr(u.school)
    ensures d["is_active"] == JBool(u.isActive) && d["is_verified"] == JBool(u.isVerified)
    ensures d["created_at"] == JInt(u.createdAt) && d["last_login_at"] == OptInt(u.lastLoginAt)
  {
    map[
      "id" := JInt(u.id),
      "username" := JStr(u.username),
      "email" := OptStr(u.email),
      "full_name" := OptStr(u.fullName),
      "role" := JStr(u.role),
      "grade" := OptStr(u.grade),
      "school" := OptStr(u.school),
      "is_active" := JBool(u.isActive),
      "is_verified" := JBool(u.isVerified),
      "created_at" := JInt(u.createdAt),
      "last_login_at" := OptInt(u.lastLoginAt)]
  }

  lemma SensitiveKeysNotPublic()
    ensures "metadata" !in PUBLIC_FIELDS && "hashed_password" !in PUBLIC_FIELDS
  {
  }

  /** `to_dict`: the public columns, plus `metadata` only when `include_sensitive` is set. The
      password hash is never included. */
  function ToDict(u: User, includeSensitive: bool): (d: map<string, Json>)
    ensures "hashed_password" !in d
    ensures "metadata" in d <==> includeSensitive
    ensures d.Keys == PUBLIC_FIELDS + (if includeSensitive then {"metadata"} else {})
    ensures forall k :: k in PUBLIC_FIELDS ==> d[k] == PublicColumns(u)[k]
    ensures includeSensitive ==> d["metadata"] == JObj(u.metadata)
  {
    var data := PublicColumns(u);
    SensitiveKeysNotPublic();
    if includeSensitive then data["metadata" := JObj(u.metadata)] else data
  }
}

=== FILE: user_schemas.dfy ===
/** Request and response shapes of backend/app/schemas/user.py and the constraints the schema
    layer enforces before any route code runs (a failure is a 422 response). */
module UserSchemas {
  import opened Wrappers
  import opened Text
  import opened Json
  import Security

  const ALLOWED_ROLES: seq<string> := ["student", "teacher", "admin", "parent"]
  const DEFAULT_ROLE: string := "student"

  predicate UsernameChar(c: char) {
    IsAlnum(c) || c == '_'
  }

  /** `constr(min_length=3, max_length=50, pattern=r'^[a-zA-Z0-9_]+$')`. */
  predicate ValidUsername(s: string) {
    3 <= |s| <= 50 && forall i :: 0 <= i < |s| ==> UsernameChar(s[i])
  }

  /** `constr(min_length=6, max_length=100)`, used for `password` and `new_password`. */
  predicate ValidPassword(s: string) {
    6 <= |s| <= 100
  }

  /** The part of `EmailStr` the model keeps: exactly one `@`, with text on both sides. */
  predicate ValidEmail(e: string) {
    |e| >= 3 && multiset(e)['@'] == 1 && e[0] != '@' && e[|e| - 1] != '@'
  }

  /** `UserCreate.validate_role`. */
  function ValidateRole(v: string): (r: Result<string, string>)
    ensures r.Success? <==> v in {"student", "teacher", "admin", "parent"}
    ensures r.Success? ==> r.value == v
    ensures r.Failure? ==> r.error == ROLE_MESSAGE
  {
    if v in ALLOWED_ROLES then Success(v)
    else Failure(ROLE_MESSAGE)
  }

  /** The message names the allowed roles, joined by ", ". */
  const ROLE_MESSAGE: string := "角色必须是: " + Join(ALLOWED_ROLES, ", ")

  lemma RoleMessageListsRoles()
    ensures ROLE_MESSAGE == "角色必须是: student, teacher, admin, parent"
  {
    var sep := ", ";
    assert Join(ALLOWED_ROLES[3..], sep) == "parent";
    assert Join(ALLOWED_ROLES[2..], sep) == "admin" + sep + Join(ALLOWED_ROLES[3..], sep);
    assert Join(ALLOWED_ROLES[1..], sep) == "teacher" + sep + Join(ALLOWED_ROLES[2..], sep);
    assert Join(ALLOWED_ROLES, sep) == "student" + sep + Join(ALLOWED_ROLES[1..], sep);
  }

  /** A registration body as received; `role == None` means the field was omitted. */
  datatype UserCreateInput = UserCreateInput(
    username: string,
    email: Option<string>,
    fullName: Option<string>,
    role: Option<string>,
    grade: Option<string>,
    school: Option<string>,
    password: string)

  /** A validated `UserCreate`. */
  datatype UserCreate = UserCreate(
    username: string,
    email: Option<string>,
    fullName: Option<string>,
    role: string,
    grade: Option<string>,
    school: Option<string>,
    password: string)

  datatype FieldError = FieldError(field: string, message: string)

  /** What every validated `UserCreate` satisfies. */
  predicate WellFormedCreate(uc: UserCreate) {
    && ValidUsername(uc.username)
    && (uc.email.Some? ==> ValidEmail(uc.email.value))
    && ValidPassword(uc.password)
    && uc.role in ALLOWED_ROLES
  }

  /** The fields `UserCreate` constrains, in declaration order: `UserBase`'s, then `password`. */
  const CHECKED_FIELDS: seq<string> := ["username", "email", "role", "password"]

  /** Whether the body breaks the constraint on the named field. An omitted e-mail or role is
      not checked. */
  predicate FieldBroken(input: UserCreateInput, field: string) {
    if field == "username" then !ValidUsername(input.username)
    else if field == "email" then input.email.Some? && !ValidEmail(input.email.value)
    else if field == "role" then input.role.Some? && input.role.value !in ALLOWED_ROLES
    else if field == "password" then !ValidPassword(input.password)
    else false
  }

  /** The fields of `fields` that the body breaks, in the order given. */
  function BrokenFields(input: UserCreateInput, fields: seq<string>): (broken: seq<string>)
    ensures forall f :: f in broken <==> f in fields && FieldBroken(input, f)
  {
    if fields == [] then []
    else (if FieldBroken(input, fields[0]) then [fields[0]] else []) + BrokenFields(input, fields[1..])
  }

  /** The field each error names, error by error. */
  function FieldsOf(errors: seq<FieldError>): (fields: seq<string>)
    ensures |fields| == |errors| && forall i :: 0 <= i < |errors| ==> fields[i] == errors[i].field
  {
    seq(|errors|, i requires 0 <= i < |errors| => errors[i].field)
  }

  /** The error pydantic reports for one field: none when the field keeps its constraint. */
  function FieldErrors(input: UserCreateInput, field: string): (errs: seq<FieldError>)
    ensures errs == [] <==> !FieldBroken(input, field)
    ensures errs != [] ==> |errs| == 1 && errs[0].field == field
  {
    if field == "username" then
      if ValidUsername(input.username) then [] else [FieldError("username", "invalid username")]
    else if field == "email" then
      if input.email.None? || ValidEmail(input.email.value) then []
      else [FieldError("email", "value is not a valid email address")]
    else if field == "role" then
      if input.role.None? then []
      else match ValidateRole(input.role.value)
           case Success(_) => []
           case Failure(m) => [FieldError("role", m)]
    else if field == "password" then
      if ValidPassword(input.password) then [] else [FieldError("password", "invalid password")]
    else []
  }

  /** The errors of the given fields, field by field. */
  function ErrorsFor(input: UserCreateInput, fields: seq<string>): seq<FieldError> {
    if fields == [] then [] else FieldErrors(input, fields[0]) + ErrorsFor(input, fields[1..])
  }

  /** The errors name exactly the broken fields, once each and in the order checked. */
  lemma {:induction false} ErrorsForNameBrokenFields(input: UserCreateInput, fields: seq<string>)
    ensures FieldsOf(ErrorsFor(input, fields)) == BrokenFields(input, fields)
    ensures forall e :: e in ErrorsFor(input, fields) && e.field == "role" ==> e.message == ROLE_MESSAGE
  {
    if fields != [] {
      var head := FieldErrors(input, fields[0]);
      ErrorsForNameBrokenFields(input, fields[1..]);
      FieldsOfAppend(head, ErrorsFor(input, fields[1..]));
      assert FieldsOf(head) == (if FieldBroken(input, fields[0]) then [fields[0]] else []);
    }
  }

  lemma FieldsOfAppend(a: seq<FieldError>, b: seq<FieldError>)
    ensures FieldsOf(a + b) == FieldsOf(a) + FieldsOf(b)
  {
    var whole, parts := FieldsOf(a + b), FieldsOf(a) + FieldsOf(b);
    forall i | 0 <= i < |whole| ensures whole[i] == parts[i] {
      if i < |a| {
        assert whole[i] == a[i].field == FieldsOf(a)[i];
      } else {
        assert whole[i] == b[i - |a|].field == FieldsOf(b)[i - |a|];
      }
    }
  }

  /** Pydantic validation of `UserCreate`: every failing field is reported once, in declaration
      order, the role with the listing message; an omitted role takes the default without
      running the validator. */
  function ValidateUserCreate(input: UserCreateInput): (r: Result<UserCreate, seq<FieldError>>)
    ensures r.Success? <==>
      && ValidUsername(input.username)
      && (input.email.Some? ==> ValidEmail(input.email.value))
      && ValidPassword(input.password)
      && (input.role.Some? ==> input.role.value in {"student", "teacher", "admin", "parent"})
    ensures r.Success? ==>
              && r.value.username == input.username && r.value.password == input.password
              && r.value.role == input.role.GetOr(DEFAULT_ROLE) && r.value.email == input.email
              && r.value.fullName == input.fullName && r.value.grade == input.grade
              && r.value.school == input.school
              && WellFormedCreate(r.value)
    ensures r.Failure? ==> |r.error| >= 1 && FieldsOf(r.error) == BrokenFields(input, CHECKED_FIELDS)
    ensures r.Failure? ==> forall e :: e in r.error && e.field == "role" ==> e.message == ROLE_MESSAGE
  {
    var errors := ErrorsFor(input, CHECKED_FIELDS);
    ErrorsForNameBrokenFields(input, CHECKED_FIELDS);
    NoBrokenFieldIff(input);
    if errors == [] then
      Success(UserCreate(input.username, input.email, input.fullName, input.role.GetOr(DEFAULT_ROLE),
                         input.grade, input.school, input.password))
    else Failure(errors)
  }

  lemma NoBrokenFieldIff(input: UserCreateInput)
    ensures BrokenFields(input, CHECKED_FIELDS) == [] <==>
      && ValidUsername(input.username)
      && (input.email.Some? ==> ValidEmail(input.email.value))
      && ValidPassword(input.password)
      && (input.role.Some? ==> input.role.value in ALLOWED_ROLES)
  {
    if BrokenFields(input, CHECKED_FIELDS) == [] {
      assert !FieldBroken(input, CHECKED_FIELDS[0]) && !FieldBroken(input, CHECKED_FIELDS[1]);
      assert !FieldBroken(input, CHECKED_FIELDS[2]) && !FieldBroken(input, CHECKED_FIELDS[3]);
    } else {
      var f := BrokenFields(input, CHECKED_FIELDS)[0];
      assert f in CHECKED_FIELDS && FieldBroken(input, f);
    }
  }

  /** `UserUpdate`: only these fields exist, so an update cannot name the username, the password
      or the role. The outer `Option` is "field set in the request". */
  datatype UserUpdate = UserUpdate(
    email: Option<Option<string>>,
    fullName: Option<Option<string>>,
    grade: Option<Option<string>>,
    school: Option<Option<string>>,
    isActive: Option<bool>,
    metadata: Option<map<string, Json>>)

  /** A `UserUpdate` that passed validation: a set email is an `EmailStr`. */
  predicate WellFormedUpdate(upd: UserUpdate) {
    upd.email.Some? && upd.email.value.Some? ==> ValidEmail(upd.email.value.value)
  }

  /** `ChangePassword`: only the new password is constrained. */
  predicate ValidChangePassword(currentPassword: string, newPassword: string) {
    ValidPassword(newPassword)
  }

  /** `Token` response; `token_type` defaults to "bearer". */
  datatype TokenResponse = TokenResponse(accessToken: Security.Token, tokenType: string, expiresIn: int)

  function BearerToken(accessToken: Security.Token, expiresIn: int): (r: TokenResponse)
    ensures r.tokenType == "bearer" && r.accessToken == accessToken && r.expiresIn == expiresIn
  {
    TokenResponse(accessToken, "bearer", expiresIn)
  }
}

=== FILE: user_store.dfy ===
/** The `user` store of frontend/src/stores/user.ts: the access token and the signed-in user's
    profile, mirrored in `localStorage` under "access_token" and "user_info". The outcomes of the
    HTTP calls (`authApi.login`, `authApi.getCurrentUser`) are parameters. */
module UserStore {
  import opened Wrappers
  import opened BrowserStorage

  const TOKEN_KEY: string := "access_token"
  const USER_KEY: string := "user_info"

  const ROLE_ADMIN: string := "admin"
  const ROLE_TEACHER: string := "teacher"
  const ROLE_STUDENT: string := "student"

  // ---------------------------------------------------------------- computeds

  /** `isLoggedIn`: `!!token`. */
  predicate LoggedIn(token: string) {
    token != ""
  }

  /** `userInfo?.role === role`: false while no profile is loaded. */
  predicate ProfileHasRole(userInfo: Option<UserInfo>, role: string) {
    userInfo.Some? && userInfo.value.role == role
  }

  /** At most one of `isAdmin`, `isTeacher`, `isStudent` holds, and none without a profile. */
  lemma RoleComputedsExclusive(userInfo: Option<UserInfo>)
    ensures (if ProfileHasRole(userInfo, ROLE_ADMIN) then 1 else 0)
            + (if ProfileHasRole(userInfo, ROLE_TEACHER) then 1 else 0)
            + (if ProfileHasRole(userInfo, ROLE_STUDENT) then 1 else 0) <= 1
    ensures userInfo.None? ==>
              !ProfileHasRole(userInfo, ROLE_ADMIN) && !ProfileHasRole(userInfo, ROLE_TEACHER)
              && !ProfileHasRole(userInfo, ROLE_STUDENT)
  {
  }

  // ---------------------------------------------------------------- the storage protocol

  /** The storage after `saveToStorage`: the token when there is one, the stringified profile
      when there is one. */
  function Saved(items: map<string, string>, token: string, userInfo: Option<UserInfo>, json: JsonCodec)
    : (r: map<string, string>)
    ensures forall k :: k in items ==> k in r
    ensures forall k :: k != TOKEN_KEY && k != USER_KEY ==> (k in r <==> k in items)
    ensures forall k :: k in items && k != TOKEN_KEY && k != USER_KEY ==> r[k] == items[k]
    ensures LoggedIn(token) ==> TOKEN_KEY in r && r[TOKEN_KEY] == token
    ensures !LoggedIn(token) ==> (TOKEN_KEY in r <==> TOKEN_KEY in items)
    ensures !LoggedIn(token) && TOKEN_KEY in items ==> r[TOKEN_KEY] == items[TOKEN_KEY]
    ensures userInfo.Some? ==> USER_KEY in r && r[USER_KEY] == json.stringify(userInfo.value)
    ensures userInfo.None? ==> (USER_KEY in r <==> USER_KEY in items)
    ensures userInfo.None? && USER_KEY in items ==> r[USER_KEY] == items[USER_KEY]
  {
    var withToken := if LoggedIn(token) then items[TOKEN_KEY := token] else items;
    if userInfo.Some? then withToken[USER_KEY := json.stringify(userInfo.value)] else withToken
  }

  /** The token `loadFromStorage` leaves: the saved one when it is non-empty. */
  function LoadedToken(items: map<string, string>, current: string): string {
    if TOKEN_KEY in items && items[TOKEN_KEY] != "" then items[TOKEN_KEY] else current
  }

  /** The profile `loadFromStorage` leaves: whatever the saved text parses to, when it is
      non-empty and parses. */
  function LoadedProfile(items: map<string, string>, current: Option<UserInfo>, json: JsonCodec): Option<UserInfo> {
    if USER_KEY in items && items[USER_KEY] != "" && json.parse(items[USER_KEY]).Success? then
      json.parse(items[USER_KEY]).value
    else current
  }

  /** The storage after `loadFromStorage`: a saved profile that does not parse is removed. */
  function StorageAfterLoad(items: map<string, string>, json: JsonCodec): map<string, string> {
    if USER_KEY in items && items[USER_KEY] != "" && json.parse(items[USER_KEY]).Failure? then items - {USER_KEY}
    else items
  }

  /** Loading what was saved restores it: the token and the profile come back, and nothing is
      removed. */
  lemma LoadAfterSave(items: map<string, string>, token: string, userInfo: Option<UserInfo>,
                      json: JsonCodec, freshToken: string, freshProfile: Option<UserInfo>)
    requires RoundTrips(json)
    ensures var saved := Saved(items, token, userInfo, json);
            && (LoggedIn(token) ==> LoadedToken(saved, freshToken) == token)
            && (userInfo.Some? ==> LoadedProfile(saved, freshProfile, json) == userInfo)
            && (userInfo.Some? ==> StorageAfterLoad(saved, json) == saved)
  {
  }

  /** After `clearStorage` a fresh store loads nothing and removes nothing. */
  lemma LoadAfterClear(items: map<string, string>, json: JsonCodec)
    ensures var cleared := items - {TOKEN_KEY, USER_KEY};
            && LoadedToken(cleared, "") == ""
            && LoadedProfile(cleared, None, json) == None
            && StorageAfterLoad(cleared, json) == cleared
  {
  }

  /** `checkUsernameAvailable` and `checkEmailAvailable`: the server's `available` flag, and false
      when the request fails, so a failing check reads as "taken". */
  function AvailableOr(response: Result<bool, string>): (available: bool)
    ensures available ==> response.Success?
    ensures response.Success? ==> available == response.value
  {
    response.Success? && response.value
  }

  // ---------------------------------------------------------------- the store

  class UserStore {
    var token: string
    var userInfo: Option<UserInfo>
    const storage: LocalStorage
    const json: JsonCodec

    predicate IsLoggedIn()
      reads this
    {
      LoggedIn(token)
    }

    predicate IsAdmin()
      reads this
    {
      ProfileHasRole(userInfo, ROLE_ADMIN)
    }

    predicate IsTeacher()
      reads this
    {
      ProfileHasRole(userInfo, ROLE_TEACHER)
    }

    predicate IsStudent()
      reads this
    {
      ProfileHasRole(userInfo, ROLE_STUDENT)
    }

    /** The store's setup: empty state, then `loadFromStorage`, then, with a token but no
        profile, `fetchUserInfo` (its `.catch(logout)` never runs: `fetchUserInfo` does not
        reject). `initialFetch` is the outcome of that request. */
    constructor(storage: LocalStorage, json: JsonCodec, initialFetch: Result<UserInfo, string>)
      modifies storage
      ensures this.storage == storage && this.json == json
      ensures token == LoadedToken(old(storage.items), "")
      ensures var loaded := LoadedProfile(old(storage.items), None, json);
              userInfo == (if LoggedIn(token) && loaded.None? && initialFetch.Success? then Some(initialFetch.value) else loaded)
      ensures var afterLoad := StorageAfterLoad(old(storage.items), json);
              storage.items == (if LoggedIn(token) && LoadedProfile(old(storage.items), None, json).None? && initialFetch.Success?
                                then Saved(afterLoad, token, Some(initialFetch.value), json)
                                else afterLoad)
    {
      token := "";
      userInfo := None;
      this.storage := storage;
      this.json := json;
      new;
      LoadFromStorage();
      if token != "" && userInfo.None? {
        FetchUserInfo(initialFetch);
      }
    }

    /** `loadFromStorage`. */
    method LoadFromStorage()
      modifies this, storage
      ensures token == LoadedToken(old(storage.items), old(token))
      ensures userInfo == LoadedProfile(old(storage.items), old(userInfo), json)
      ensures storage.items == StorageAfterLoad(old(storage.items), json)
    {
      var savedToken := storage.GetItem(TOKEN_KEY);
      var savedUser := storage.GetItem(USER_KEY);
      if savedToken.Some? && savedToken.value != "" {
        token := savedToken.value;
      }
      if savedUser.Some? && savedUser.value != "" {
        var parsed := json.parse(savedUser.value);
        if parsed.Success? {
          userInfo := parsed.value;
        } else {
          storage.RemoveItem(USER_KEY);
        }
      }
    }

    /** `saveToStorage`: writes, never removes. */
    method SaveToStorage()
      modifies storage
      ensures storage.items == Saved(old(storage.items), token, userInfo, json)
    {
      if token != "" {
        storage.SetItem(TOKEN_KEY, token);
      }
      if userInfo.Some? {
        storage.SetItem(USER_KEY, json.stringify(userInfo.value));
      }
    }

    /** `clearStorage`. */
    method ClearStorage()
      modifies storage
      ensures storage.items == old(storage.items) - {TOKEN_KEY, USER_KEY}
    {
      storage.RemoveItem(TOKEN_KEY);
      storage.RemoveItem(USER_KEY);
    }

    /** `fetchUserInfo`: on success the profile is replaced and saved; a failed request is
        swallowed and changes nothing, the token included. */
    method FetchUserInfo(me: Result<UserInfo, string>)
      modifies this, storage
      ensures token == old(token)
      ensures me.Success? ==> userInfo == Some(me.value) && storage.items == Saved(old(storage.items), token, userInfo, json)
      ensures me.Failure? ==> userInfo == old(userInfo) && storage.items == old(storage.items)
    {
      if me.Success? {
        userInfo := Some(me.value);
        SaveToStorage();
      }
    }

    /** `login`: true exactly when the login request succeeds, whatever happens to the profile
        request that follows. The token reaches the storage only along with a fetched profile. */
    method Login(response: Result<TokenResponse, string>, me: Result<UserInfo, string>) returns (ok: bool)
      modifies this, storage
      ensures ok <==> response.Success?
      ensures response.Failure? ==> token == old(token) && userInfo == old(userInfo) && storage.items == old(storage.items)
      ensures response.Success? ==> token == response.value.accessToken
      ensures response.Success? && me.Success? ==>
                userInfo == Some(me.value) && storage.items == Saved(old(storage.items), token, userInfo, json)
      ensures response.Success? && me.Failure? ==> userInfo == old(userInfo) && storage.items == old(storage.items)
    {
      if response.Failure? {
        return false;
      }
      token := response.value.accessToken;
      FetchUserInfo(me);
      ok := true;
    }

    /** `register`: the new account's profile is stored and saved, the token is left as it was
        (registration does not sign in); true exactly when the request succeeds. `response` is the
        outcome as the request layer delivers it; that layer (frontend/src/utils/request.ts:65-70)
        rejects every status but 200, so the route's 201 arrives here as a failure. */
    method Register(response: Result<UserInfo, string>) returns (ok: bool)
      modifies this, storage
      ensures ok <==> response.Success?
      ensures token == old(token)
      ensures response.Success? ==>
                userInfo == Some(response.value) && storage.items == Saved(old(storage.items), token, userInfo, json)
      ensures response.Failure? ==> userInfo == old(userInfo) && storage.items == old(storage.items)
    {
      if response.Failure? {
        return false;
      }
      userInfo := Some(response.value);
      SaveToStorage();
      ok := true;
    }

    /** `changePassword`: reports whether the request succeeded and touches no state. */
    method ChangePassword(response: Result<(), string>) returns (ok: bool)
      ensures ok <==> response.Success?
    {
      ok := response.Success?;
    }

    /** `logout`: the state is emptied and both keys removed; the logout request's outcome is
        ignored. */
    method Logout()
      modifies this, storage
      ensures token == "" && userInfo.None?
      ensures !IsLoggedIn() && !IsAdmin() && !IsTeacher() && !IsStudent()
      ensures storage.items == old(storage.items) - {TOKEN_KEY, USER_KEY}
    {
      token := "";
      userInfo := None;
      ClearStorage();
    }
  }
}

=== FILE: wrappers.dfy ===
/** Failure-carrying results: the model's stand-in for the source's `None` returns and raised errors. */
module Wrappers {

  datatype Option<+T> = None | Some(value: T) {
    function GetOr(default: T): T {
      match this
      case Some(v) => v
      case None => default
    }
  }

  datatype Result<+R, +E> = Success(value: R) | Failure(error: E) {
    predicate IsFailure() {
      Failure?
    }
  }
}
